=== FILE: README.md ===
# paypalhttp / braintreehttp request core, in Dafny

This project models the request-execution core of the two Node.js HTTP clients in the
repository, `lib/paypalhttp` and `lib/braintreehttp`, and proves properties of the model.
It covers four pieces:

- the braintree `Encoder`, which serialises a request body and deserialises a response body
  by the declared Content-Type (only `application/json`);
- the paypal `Json` codec's content-type matcher;
- the braintree multipart serializers. `Multipart` sends one part per body key in key order.
  `MultipartRelated` sends the non-file parts first and the file parts after them, and its
  `FormPart` carries extra part headers whose names are lower-cased;
- the two `HttpClient`s without their sockets:
  - injector registration and the order the injectors run in;
  - the paypal `formatHeaders` / `mapHeader` pair;
  - the User-Agent default, the serialised body and its Content-Length;
  - the classification of a finished response: paypal accepts 2xx only; braintree accepts
    everything and treats a body of `" "` specially;
  - the race between the socket timeout, request errors and the response, in which a promise
    keeps its first settlement.

The modules are:

- `Outcomes`: the `Result`/`Option` wrappers;
- `Strings`: the `^prefix` test, ASCII `toLowerCase` and `Array#join`;
- `Decimal`: `Number#toString` on naturals;
- `Utf8`: `Buffer.from`, `Buffer.byteLength` and `Buffer.concat`;
- `OrderedMap`: a JavaScript object as an insertion-ordered map;
- `Js`: truthiness, `||`, template interpolation, and the JavaScript and Node.js calls, which
  are passed in as records of functions;
- `CaseFold`: lower-casing copies and `mapHeader`;
- `JsonCodec`, `Encoder`, `MultipartWire` (the shared part layout), `Multipart` and
  `MultipartRelated`;
- `Race`, `PaypalClient` and `BraintreeClient`.

Several things the JavaScript does through its runtime become parameters: `JSON.stringify`,
`JSON.parse`, the `v + '\r\n'` string conversion (which throws for a Symbol or an object without a primitive form), truthiness of body values, `Util.convertObjectKeysToUnderscores`,
`path.basename`/`extname`, `url.parse`, `zlib.gunzipSync`, UTF-8 decoding of response bytes,
`Date.now()` and `fs.readFileSync`. The multipart codecs take the clock reading and the file
bytes as inputs. Every operation is a function of its inputs, so the encoder's promise to leave the
request and the headers unmodified holds by construction. Where the repository's written description and its code differ, the model
follows the code:

- the `Multipart` extension table has no `.gif` entry (only `MultipartRelated` has one);
- the User-Agent default replaces the value `Node`;
- the braintree client never looks at the status code;
- the timeout is not protected by detaching the error listener. A `requestAborted` flag makes
  later request errors return early. A request error calls `removeListener('timeout', ...)`
  on the socket, while the handler was registered on the request, so that handler stays and
  a later timeout still aborts the request;
- a failing gunzip or deserialisation in the paypal 'end' handler is thrown out of the event
  handler, so the promise is left pending rather than rejected.

## Model

| member | source | states |
|---|---|---|
| Encoder.EncodingsText | lib/braintreehttp/encoder.js:33-39 | both supported lists are exactly `application/json`, and each prints (joined as in a template string) as that one type |
| Encoder.ContentType | lib/braintreehttp/encoder.js:9 | the lower-case `content-type` value wins when it is present and non-empty; otherwise the `Content-Type` value (possibly missing) is used |
| Encoder.SerializeRequest | lib/braintreehttp/encoder.js:7-18 | no headers give the missing-header error; a content type of exactly `application/json` gives `JSON.stringify`'s result; any other type, missing included, gives the unsupported-type message naming it |
| Encoder.DeserializeResponse | lib/braintreehttp/encoder.js:20-31 | the same three cases for responses, with `JSON.parse` on the JSON path |
| Encoder.SerializeSucceedsIff | lib/braintreehttp/encoder.js:7-18 | serialisation succeeds if and only if headers are present, the content type is exactly `application/json` and the body stringifies; the result is then that JSON text |
| Encoder.DeserializeSucceedsIff | lib/braintreehttp/encoder.js:20-31 | deserialisation succeeds if and only if headers are present, the content type is exactly `application/json` and the body parses |
| Encoder.SerializeWithoutContentTypeKey | lib/braintreehttp/encoder.js:9-14 | headers with neither content-type name give the unsupported-type error naming `undefined`, not the missing-header error |
| Encoder.SerializeRefusesParameters | lib/braintreehttp/encoder.js:11 | `application/json; charset=utf-8` is refused by the exact comparison, although the paypal `Json` matcher accepts it |
| Encoder.AcceptedTypesMatchJson | lib/paypalhttp/serializer/json.js:12-14 | every content type the encoder serialises under is also accepted by the paypal `Json` matcher |
| Encoder.UnsupportedMessages | spec/unit/encoder_spec.js:23-35 | the two "not application/json" error texts that the unit tests expect, character for character |
| Encoder.RoundTrip | lib/braintreehttp/encoder.js:7-31 | deserialising a serialised body under the same headers gives the body back whenever `JSON.parse` undoes `JSON.stringify` on it |
| JsonCodec.Matches | lib/paypalhttp/serializer/json.js:12-14 | the matcher accepts exactly the strings that start with `application/` followed by `json` or `JSON`, whatever follows |
| JsonCodec.MatchesWithParameters | lib/paypalhttp/serializer/json.js:13 | with no end anchor, a parameter suffix is accepted |
| JsonCodec.RefusesMixedCase | lib/paypalhttp/serializer/json.js:13 | `application/Json` is refused |
| JsonCodec.RefusesOtherType | lib/paypalhttp/serializer/json.js:13 | `text/json` is refused |
| JsonCodec.EncodeReadsOnlyBody | lib/paypalhttp/serializer/json.js:4-6 | two requests with the same body encode alike, whatever else differs |
| JsonCodec.EncodeDecode | lib/paypalhttp/serializer/json.js:4-10 | decoding an encoded body gives the body back whenever `JSON.parse` undoes `JSON.stringify`; an encoding error is `JSON.stringify`'s |
| MultipartWire.Boundary | lib/braintreehttp/serializer/multipart.js:12 | the boundary is `boundary` followed by at least one decimal digit |
| MultipartWire.BoundaryDistinct | lib/braintreehttp/serializer/multipart.js:12 | encodings made at different milliseconds use different boundaries |
| MultipartWire.Disposition | lib/braintreehttp/serializer/multipart.js:62 | the disposition starts with `Content-Disposition: form-data; name="<key>"` |
| MultipartWire.FilenameDisposition | lib/braintreehttp/serializer/multipart.js:62-65 | with a filename the disposition is exactly `Content-Disposition: form-data; name="<key>"; filename="<f>"` |
| MultipartWire.HeaderText | lib/braintreehttp/serializer/multipart.js:58-73 | a part header starts with the dash-boundary line and ends with an empty line (two CRLFs) |
| MultipartWire.HeaderNamesPart | lib/braintreehttp/serializer/multipart.js:59-62 | right after the dash-boundary line comes the disposition naming the part's key |
| MultipartWire.HeaderTextWithFilename | lib/braintreehttp/serializer/multipart.js:58-73 | the whole header text of a part with a filename: dash-boundary line, disposition with the filename, the header lines, two CRLFs |
| MultipartWire.HeaderTextWithoutFilename | lib/braintreehttp/serializer/multipart.js:58-73 | the whole header text of a part without a filename: dash-boundary line, disposition, the header lines, two CRLFs |
| MultipartWire.FileHeaderTextWith | lib/braintreehttp/serializer/multipart.js:64-70 | a part with a filename and one Content-Type field renders as `; filename="<f>"`, CRLF, `Content-Type: <t>` and two CRLFs after the name |
| MultipartWire.JsonHeaderTextWith | lib/braintreehttp/serializer/multipart_related.js:92-102 | a part whose filename is its name with `.json` renders `; filename="<key>.json"` followed by its header lines |
| MultipartWire.JsonOnlyHeaderTextWith | lib/braintreehttp/serializer/multipart_related.js:92-99 | with the single field `content-type: <t>`, that line follows the `.json` filename, under its lower-cased name |
| MultipartWire.FieldLine | lib/braintreehttp/serializer/multipart_related.js:97-98 | one extra part header is emitted as CRLF, its name, `: ` and its value |
| MultipartWire.FieldLinesAppend | lib/braintreehttp/serializer/multipart_related.js:96-99 | the extra header lines follow the headers' key order: the lines of a concatenation are the lines of its halves in turn |
| MultipartWire.Rendered | lib/braintreehttp/serializer/multipart.js:18-26 | one buffer per part, in order, each that part's rendering |
| MultipartWire.BodyLayout | lib/braintreehttp/serializer/multipart.js:28-32 | the body is the concatenated part buffers followed by `--<boundary>--` and two CRLFs |
| MultipartWire.RenderedSplit | lib/braintreehttp/serializer/multipart.js:18-26 | rendering a concatenation of part lists concatenates their renderings |
| MultipartWire.RenderedAppend | lib/braintreehttp/serializer/multipart.js:32 | parts render independently, so the bytes of a split list are the bytes of the halves one after the other |
| MultipartWire.EmptyBody | lib/braintreehttp/serializer/multipart.js:28-32 | a body without parts is the close delimiter alone |
| MultipartWire.BodyStartsWithFirstPart | lib/braintreehttp/serializer/multipart.js:18-32 | a body with parts starts with the first part's bytes, then the rest, then the close delimiter |
| MultipartWire.BodyEndsWithClose | lib/braintreehttp/serializer/multipart.js:28-32 | every body ends with the close delimiter bytes |
| Multipart.MimeType | lib/braintreehttp/serializer/multipart.js:75-87 | `.jpeg`/`.jpg` map to image/jpeg, `.png` to image/png, `.pdf` to application/pdf, and every other extension, and only those, to application/octet-stream |
| Multipart.GifIsOctetStream | lib/braintreehttp/serializer/multipart.js:75-87 | this table has no GIF entry: `.gif` is application/octet-stream |
| Multipart.Describe | lib/braintreehttp/serializer/multipart.js:43-56 | describing an entry fails if and only if it is a plain value whose `String` conversion throws (a Symbol, an object without a primitive form), with that error; a part is named by its key; a file with a non-empty basename gets that filename and a Content-Type from its extension; a file's content is its bytes plus CRLF; a `FormPart` is sent as `[object Object]`; any other value is sent as its string form plus CRLF |
| Multipart.FileHeaderText | lib/braintreehttp/serializer/multipart.js:43-49 | the header written for a file with a non-empty basename `f` is `--<b>`, CRLF, `Content-Disposition: form-data; name="<key>"; filename="<f>"`, CRLF, `Content-Type: <type of f>`, CRLF, CRLF |
| Multipart.PlainHeaderText | lib/braintreehttp/serializer/multipart.js:51-56 | the header written for any other entry that can be described is `--<b>`, CRLF, `Content-Disposition: form-data; name="<key>"`, CRLF, CRLF |
| Multipart.Parts | lib/braintreehttp/serializer/multipart.js:18-26 | on success, one part per body key, in key order, each described from its own entry |
| Multipart.AppendBoundary | lib/braintreehttp/serializer/multipart.js:14 | Content-Type becomes its old value (or `undefined`) plus `; boundary=<b>`; no other header changes; a missing Content-Type is added last |
| Multipart.Encode | lib/braintreehttp/serializer/multipart.js:11-33 | missing headers throw the TypeError of reading `Content-Type` and nothing changes; otherwise the headers gain the boundary parameter, a missing body then throws the TypeError of `Object.keys`, and a present one either gives exactly the body laid out from the parts in key order or, when a value has no string form, throws that value's error |
| Multipart.EncodeParts | lib/braintreehttp/serializer/multipart.js:16-32 | the loop succeeds if and only if every value has a string form; the loop and the close delimiter then give exactly the body laid out from the parts in key order, and otherwise the first failing value's error ends it |
| Multipart.EncodeLayout | lib/braintreehttp/serializer/multipart.js:28-32 | when the parts can be described, the encoded body is the rendered parts followed by the close delimiter |
| Multipart.PartsAppend | lib/braintreehttp/serializer/multipart.js:18-26 | the parts of a split body are the parts of its halves in order; a failure in the first half is the error, else one in the second half |
| Multipart.PartsSucceed | lib/braintreehttp/serializer/multipart.js:18-26 | a body whose every value has a string form is described in full |
| Multipart.PartsFirstFailure | lib/braintreehttp/serializer/multipart.js:18-54 | otherwise the error is that of the first value, in key order, whose `String` conversion throws |
| Multipart.LoopStep | lib/braintreehttp/serializer/multipart.js:18-26 | one loop round appends the entry's part to the parts so far, or a failing entry ends the encoding with its error |
| Multipart.Matches | lib/braintreehttp/serializer/multipart.js:39-41 | the matcher accepts exactly the strings starting with `multipart/` |
| Multipart.Decode | lib/braintreehttp/serializer/multipart.js:35-37 | decoding never succeeds; the error is the fixed "does not support deserialization" message |
| MultipartRelated.NewFormPart | lib/braintreehttp/serializer/multipart_related.js:124-133 | without a headers object the constructor throws the TypeError of `Object.keys(undefined)` (line 129); otherwise the value is kept; the header names are the lower-cased input names, each once, in order of first appearance; each holds the value of the last input name that folds to it |
| MultipartRelated.MimeType | lib/braintreehttp/serializer/multipart_related.js:107-121 | the same table as `Multipart`, plus `.gif` mapping to image/gif |
| MultipartRelated.MimeTypeExamples | spec/unit/serializer/multipart_related_spec.js:11-29 | the unit tests' five file names map to the expected types |
| MultipartRelated.Describe | lib/braintreehttp/serializer/multipart_related.js:54-74 | describing an entry fails if and only if it is a `FormPart` with content type `application/json` whose value `JSON.stringify` cannot serialise (line 65), or a plain value whose `String` conversion throws (line 67) |
| MultipartRelated.DescribeJsonPart | lib/braintreehttp/serializer/multipart_related.js:64-65 | a JSON `FormPart` is named `<key>.json`, keeps its own headers, and carries the JSON text of its value plus CRLF; when that fails, the error is `JSON.stringify`'s |
| MultipartRelated.DescribeOtherValues | lib/braintreehttp/serializer/multipart_related.js:66-68 | another `FormPart` keeps its headers but is sent as `[object Object]`; a plain value is sent as its string form without extra headers, and one without a string form fails with that conversion's error |
| MultipartRelated.DescribeFile | lib/braintreehttp/serializer/multipart_related.js:46-52 | a file part carries its bytes and CRLF, with a filename and Content-Type line only when its basename is non-empty |
| MultipartRelated.JsonPartHeaderText | lib/braintreehttp/serializer/multipart_related.js:76-105 | the header written for a JSON `FormPart` is `--<b>`, CRLF, `Content-Disposition: form-data; name="<key>"; filename="<key>.json"`, its own header lines in key order, CRLF, CRLF |
| MultipartRelated.JsonOnlyHeaderText | lib/braintreehttp/serializer/multipart_related.js:89-102 | for a JSON `FormPart` with the one header `content-type: application/json`, that line is written after the filename under its lower-cased name |
| MultipartRelated.FileHeaderText | lib/braintreehttp/serializer/multipart_related.js:76-87 | the header written for a file with a non-empty basename `f` carries `; filename="<f>"` and a `Content-Type` line from this codec's table |
| MultipartRelated.OtherHeaderText | lib/braintreehttp/serializer/multipart_related.js:76-105 | another `FormPart` gets no filename but its own header lines; a plain value with a string form gets the disposition alone |
| MultipartRelated.Values | lib/braintreehttp/serializer/multipart_related.js:24-26 | the value group holds no files and is no longer than the body |
| MultipartRelated.Files | lib/braintreehttp/serializer/multipart_related.js:22-23 | the file group holds only files and is no longer than the body |
| MultipartRelated.ValuesAppend | lib/braintreehttp/serializer/multipart_related.js:19-27 | the values of a split body are the values of its halves in order |
| MultipartRelated.FilesAppend | lib/braintreehttp/serializer/multipart_related.js:19-27 | the files of a split body are the files of its halves in order |
| MultipartRelated.ValuesOnly | lib/braintreehttp/serializer/multipart_related.js:19-27 | a body holding only values is its own value group and has no files |
| MultipartRelated.FilesOnly | lib/braintreehttp/serializer/multipart_related.js:19-27 | a body holding only files is its own file group and has no values |
| MultipartRelated.ValuesBeforeFiles | lib/braintreehttp/serializer/multipart_related.js:29 | in the send order, nothing after a file is a value |
| MultipartRelated.SendOrderStable | lib/braintreehttp/serializer/multipart_related.js:29 | each group keeps body key order: filtering the send order gives back the body's own groups |
| MultipartRelated.SendOrderPermutes | lib/braintreehttp/serializer/multipart_related.js:29 | the send order is a permutation of the body's entries |
| MultipartRelated.SendOrderKeepsOrdered | lib/braintreehttp/serializer/multipart_related.js:29 | a body already listing its values first is sent in its own order |
| MultipartWire.DescribeAll | lib/braintreehttp/serializer/multipart_related.js:19-27 | on success, one part per entry, each the description of that entry |
| MultipartWire.DescribeAllSucceeds | lib/braintreehttp/serializer/multipart_related.js:19-27 | when no entry fails, the whole succeeds |
| MultipartWire.DescribeAllFirstFailure | lib/braintreehttp/serializer/multipart_related.js:19-27 | the error reported is that of the first entry that fails |
| MultipartWire.DescribeAllAppend | lib/braintreehttp/serializer/multipart.js:18-26 | describing a concatenation: a failing first half gives its error, else a failing second half gives its error, else the parts of the halves one after the other |
| MultipartWire.DescribeAllSnoc | lib/braintreehttp/serializer/multipart.js:18-26 | describing one more entry appends its part, or ends with its error |
| MultipartRelated.FilesSucceed | lib/braintreehttp/serializer/multipart_related.js:46-52 | file parts never fail |
| MultipartRelated.SetContentType | lib/braintreehttp/serializer/multipart_related.js:14 | Content-Type is overwritten with `multipart/form-data; boundary=<b>`; no other header changes; a missing Content-Type is added last |
| MultipartRelated.Encode | lib/braintreehttp/serializer/multipart_related.js:11-36 | missing headers throw the TypeError of setting `Content-Type`; otherwise the Content-Type is set even when encoding fails; a missing body throws the TypeError of `Object.keys`; with a body, encoding succeeds if and only if every entry can be described, the bytes are then the body laid out from the parts in send order, and otherwise the error is the first failing value's |
| MultipartRelated.EncodeParts | lib/braintreehttp/serializer/multipart_related.js:16-35 | the loop succeeds if and only if every entry can be described, with the body laid out in send order, or the first failing value's error |
| MultipartRelated.LoopStep | lib/braintreehttp/serializer/multipart_related.js:22-26 | one loop round adds the entry's part to the end of its own group and leaves the other group alone |
| MultipartRelated.StepFails | lib/braintreehttp/serializer/multipart_related.js:25 | a failing value ends the encoding with its error |
| MultipartRelated.SentPartsFollowSendOrder | lib/braintreehttp/serializer/multipart_related.js:29-35 | on success, the parts sent are the descriptions of the send order's entries, one for one |
| MultipartRelated.Matches | lib/braintreehttp/serializer/multipart_related.js:42-44 | the matcher accepts exactly the strings starting with `multipart/related` |
| MultipartRelated.MatchesNarrower | lib/braintreehttp/serializer/multipart_related.js:14 | every type this matcher accepts is accepted by `Multipart`'s; the Content-Type that `encode` itself writes, at any clock reading, is not accepted here |
| MultipartRelated.Decode | lib/braintreehttp/serializer/multipart_related.js:38-40 | decoding never succeeds; the error is the fixed "does not support deserialization" message |
| CaseFold.LowerCaseKeysSpec | lib/paypalhttp/http_client.js:51-60 | the lower-cased copy has unique keys; they are the input's lower-cased names, each once, in order of first appearance; each holds the value of the last input name that folds to it |
| CaseFold.LowerCaseKeysUnique | lib/paypalhttp/http_client.js:54-57 | the lower-cased copy has unique keys |
| CaseFold.LowerCaseKeysOrder | lib/paypalhttp/http_client.js:54-57 | its keys are the first occurrences of the lower-cased names, in order |
| CaseFold.LowerCaseKeysValues | lib/paypalhttp/http_client.js:54-57 | under each key sits the value of the last input name that lower-cases to it |
| CaseFold.LowerCaseKeysNoCollision | lib/paypalhttp/http_client.js:54-57 | an input without case-insensitive collisions is copied entry by entry, with only the names lower-cased |
| CaseFold.FirstOccurrencesMembers | lib/paypalhttp/http_client.js:54-57 | a name is a key of the copy if and only if it is some input name lower-cased |
| CaseFold.MapHeaderStep | lib/paypalhttp/http_client.js:63-71 | one round of the loop rewrites exactly the entry at its own position |
| CaseFold.MapHeaderFromSpec | lib/paypalhttp/http_client.js:63-71 | after the rounds from position j on, the entries before j are unchanged and the others are remapped |
| CaseFold.MapHeaderSpec | lib/paypalhttp/http_client.js:62-73 | `mapHeader` never adds, removes or reorders names; it overwrites exactly the entries whose lower-cased name has a value in the formatted headers, with that value |
| CaseFold.MapHeaderGet | lib/paypalhttp/http_client.js:62-73 | after `mapHeader`, a name that was present reads the formatted value under its lower-cased form when there is one; every other lookup reads the raw value |
| OrderedMap.Get | lib/paypalhttp/http_client.js:67 | a lookup is missing if and only if the name is absent; a value found is stored under that name |
| OrderedMap.Set | lib/paypalhttp/http_client.js:96 | after an assignment the name reads the assigned value |
| OrderedMap.KeysSet | lib/paypalhttp/http_client.js:105 | assigning an existing name keeps the name order; assigning a new name appends it |
| OrderedMap.GetSetOther | lib/paypalhttp/http_client.js:105 | assigning one name leaves every other name's value alone |
| OrderedMap.SetUnique | lib/paypalhttp/http_client.js:96 | assignment keeps names unique |
| OrderedMap.SetAt | lib/paypalhttp/http_client.js:68 | assigning a present name replaces exactly its entry, in place |
| Utf8.EncodeAppend | lib/braintreehttp/serializer/multipart.js:28-32 | encoding distributes over concatenation, so separately pushed buffers equal one buffer of the joined text |
| Utf8.DecodeEncode | lib/paypalhttp/http_client.js:131 | the strict decoder, against which `toString('utf8')` is read on well-formed bytes, gives back the string whose encoding it is given |
| Js.DecodesEncoded | lib/paypalhttp/http_client.js:131 | a `toString('utf8')` that reads well-formed UTF-8 as the strict decoder does gives back the text that `Buffer.from` encoded |
| Utf8.EncodeInjective | lib/braintreehttp/serializer/multipart.js:28 | different strings have different UTF-8 encodings |
| Utf8.AsciiByteLength | lib/braintreehttp/http_client.js:45 | an ASCII text has one byte per character, so its byte length is its length |
| Utf8.ConcatAppend | lib/braintreehttp/serializer/multipart.js:32 | `Buffer.concat` of a split list is the concatenation of the halves' results |
| Decimal.Show | lib/paypalhttp/http_client.js:105 | a printed number is at least one digit with no leading zero, one digit exactly for numbers below ten |
| Decimal.ValueShow | lib/paypalhttp/http_client.js:105 | reading a printed number back gives the number |
| Decimal.ShowInjective | lib/paypalhttp/http_client.js:105 | distinct numbers print differently |
| Strings.LowerIdempotent | lib/paypalhttp/http_client.js:65 | lower-casing twice is lower-casing once |
| Strings.LowerAt | lib/paypalhttp/http_client.js:56 | lower-casing maps each character on its own |
| PaypalClient.GetTimeout | lib/paypalhttp/http_client.js:14 | the constant `10 * 3000` is thirty seconds: 30000 ms |
| PaypalClient.AddInjector | lib/paypalhttp/http_client.js:43-49 | the call throws if and only if the injector is not a function or does not take exactly one parameter; a throw leaves the client as it was; otherwise the injector is appended |
| PaypalClient.FormatHeadersSpec | lib/paypalhttp/http_client.js:51-60 | `formatHeaders` gives unique lower-cased names in order of first appearance, each holding the value of the last name folding to it |
| PaypalClient.InjectedAppend | lib/paypalhttp/http_client.js:82-84 | injectors registered later run after the earlier ones, on what those left, and not at all once an earlier one threw |
| PaypalClient.Setup | lib/paypalhttp/http_client.js:76-92 | set-up fails exactly when an injector throws on the copy, with that error; on success host and port come from the parsed base URL |
| PaypalClient.InjectorThrows | lib/paypalhttp/http_client.js:82-84 | an injector that throws ends both preparations with its error, whatever was registered after it |
| PaypalClient.SetupDefaultsHeaders | lib/paypalhttp/http_client.js:78-80 | without injectors, a request without headers gets an empty header object, and the body is the caller's |
| PaypalClient.WithBody | lib/paypalhttp/http_client.js:99-106 | without a truthy body nothing changes; with one, the step succeeds if and only if the serializer succeeds on the request carrying the lower-cased headers, and Content-Length is the decimal byte length of its payload |
| PaypalClient.Finish | lib/paypalhttp/http_client.js:108-110 | `method` becomes `verb` when the verb is truthy and stays otherwise; https is chosen if and only if the base URL starts with `https`; nothing else changes |
| PaypalClient.PrepareAsWritten | lib/paypalhttp/http_client.js:75-110 | the preparation as written; an injector's throw is its error, and a request whose headers an injector removed fails with the TypeError of `Object.keys(undefined)` |
| PaypalClient.Prepare | lib/paypalhttp/http_client.js:75-110 | the corrected preparation fails with an injector's throw and on removed headers; on success the transport follows the base URL, host and port are the base URL's, the body is kept, a payload exists if and only if the body is truthy, and the method follows the verb rule |
| PaypalClient.AsWrittenWithBody | lib/paypalhttp/http_client.js:93-106 | with a truthy body, as written, the headers sent are the raw headers, with the default if due, remapped from what the serializer left of the lower-cased copy taken without the default, plus Content-Length |
| PaypalClient.PreparedWithBody | lib/paypalhttp/http_client.js:93-106 | the same for the corrected preparation, whose lower-cased copy holds the default |
| PaypalClient.NodeAgentHeaders | lib/paypalhttp/http_client.js:95-105 | for the caller headers `User-Agent: Node, Content-Type: application/json`, the default is due, it is set on the raw name, and `mapHeader` with the Content-Length of `{}` turns the result into those same two headers followed by `Content-Length: 2` |
| PaypalClient.UserAgentRevertedAsWritten | lib/paypalhttp/http_client.js:93-106 | as written, a JSON body request with headers `User-Agent: Node, Content-Type: application/json` goes out with `User-Agent: Node` although the default was due |
| PaypalClient.UserAgentDefaulted | lib/paypalhttp/http_client.js:95-97 | in the corrected preparation, whenever the default is due the request goes out with the paypal User-Agent, with or without a body, for any serializer that keeps the `user-agent` value it is given |
| PaypalClient.PreparedFails | lib/paypalhttp/http_client.js:103 | a serialisation error fails the corrected preparation |
| PaypalClient.MappedKeepsAgent | lib/paypalhttp/http_client.js:104-105 | a default set on the raw names survives `mapHeader` when the lower-cased copy holds it too, and the Content-Length assignment does not touch it |
| PaypalClient.PreparationsAgree | lib/paypalhttp/http_client.js:93-106 | without a body, or when no default is due, the as-written and corrected preparations are equal |
| PaypalClient.NoBodyHeaders | lib/paypalhttp/http_client.js:95-97 | without a body, preparation succeeds without a payload; the default is set exactly when due, and otherwise the headers are the caller's |
| PaypalClient.NoBodyKeepsOtherHeaders | lib/paypalhttp/http_client.js:95-97 | without a body, every name other than `User-Agent` keeps its value |
| PaypalClient.ContentLengthSet | lib/paypalhttp/http_client.js:105 | with a truthy body, Content-Length is the decimal byte length of the payload, and reads back as that number |
| PaypalClient.NewHttpError | lib/paypalhttp/http_client.js:16-25 | the message is `message`, else `text`, else the fixed unknown-error text, so it is never empty; status, headers and the original are kept |
| PaypalClient.ParseResponse | lib/paypalhttp/http_client.js:177-188 | status and headers are always the response's; an empty body has no result; otherwise the call succeeds if and only if deserialisation under the lower-cased headers does, with its value as the result or its error |
| PaypalClient.BodyText | lib/paypalhttp/http_client.js:122-131 | without `content-encoding: gzip` (looked up lower-cased), the text is the UTF-8 decoding of the concatenated chunks; with it, the chunks are gunzipped and then decoded, and a gunzip failure is the error |
| PaypalClient.BodyTextOfEncoded | lib/paypalhttp/http_client.js:125-131 | chunks (gunzipped when marked gzip) that encode a text read as that text |
| PaypalClient.SuccessResolves | lib/paypalhttp/http_client.js:133-134 | a 2xx response resolves with status, headers and no result for an empty text, with the deserialised value otherwise, and throws the deserialisation error |
| PaypalClient.EncodedBodyResolves | lib/paypalhttp/http_client.js:121-134 | a 2xx response without gzip whose chunks encode a non-empty text resolves with status, headers and the value that text deserialises to |
| PaypalClient.Classification | lib/paypalhttp/http_client.js:133-141 | a 2xx response that settles resolves with its status and headers, and one with an empty body always settles; any other status rejects with an `HttpError` whose message is the body text (or the unknown-error text when empty) and which carries status and headers |
| PaypalClient.ResolvesOnlyOnSuccess | lib/paypalhttp/http_client.js:121-142 | the handler resolves if and only if the status is 2xx, the body is read without error and `_parseResponse` succeeds |
| PaypalClient.Wired | lib/paypalhttp/http_client.js:144-167 | the timeout rejects with "Request timed out"; request and response errors reject with the error itself |
| PaypalClient.TimeoutRejects | lib/paypalhttp/http_client.js:147-163 | a timeout before any settlement makes the outcome "Request timed out", and request errors after it change nothing |
| Race.Step | lib/paypalhttp/http_client.js:144-167 | a handler never clears the aborted flag and never takes back an earlier `resolve`/`reject` call |
| Race.RunAppend | lib/paypalhttp/http_client.js:112-174 | running two event sequences one after the other is running their concatenation |
| Race.RunExtends | lib/paypalhttp/http_client.js:112-174 | later events only append settlements and keep the aborted flag |
| Race.SettledIsFinal | lib/paypalhttp/http_client.js:112-174 | once settled, the promise keeps its settlement whatever happens next |
| Race.AbortedIgnoresRequestErrors | lib/paypalhttp/http_client.js:162-163 | once aborted, any run of request errors leaves the state unchanged |
| Race.TimeoutWins | lib/paypalhttp/http_client.js:147-152 | a timeout before any settlement decides the outcome: the timeout rejection |
| Race.RequestErrorWins | lib/paypalhttp/http_client.js:162-167 | a request error after the socket was assigned, before any settlement, decides the outcome; its `removeListener` call targets the socket, so the request's timeout handler stays registered |
| Race.TimeoutAfterRequestError | lib/paypalhttp/http_client.js:146-167 | a timeout after a winning request error still aborts the request and calls `reject` a second time, and the request error stays the outcome |
| Race.RequestErrorWithoutSocket | lib/paypalhttp/http_client.js:156-164 | a request error before the socket is assigned throws the TypeError of `null.removeListener` and settles nothing |
| Race.TimeoutOnce | lib/paypalhttp/http_client.js:154 | the timeout handler runs at most once |
| Race.ThrowLeavesPending | lib/paypalhttp/http_client.js:121-142 | a response handler that throws leaves the promise pending and records the exception |
| BraintreeClient.AddInjector | lib/braintreehttp/http_client.js:20-22 | the injector is appended without any check; the earlier injectors and the base URL are kept |
| BraintreeClient.InjectedAppend | lib/braintreehttp/http_client.js:25-27 | injectors run in insertion order, each on what the earlier ones left, and not at all once an earlier one threw |
| BraintreeClient.AddedInjectorRunsLast | lib/braintreehttp/http_client.js:20-27 | an injector added later runs after all earlier ones, and not when one of them threw |
| BraintreeClient.DefaultHeaders | lib/braintreehttp/http_client.js:35-41 | `User-Agent` is the braintree default when the exact name is missing, empty or `Node`, and the caller's value otherwise; every other name keeps its value, from an empty object when there were no headers |
| BraintreeClient.Prepare | lib/braintreehttp/http_client.js:24-46 | an injector's throw is the error; after the injectors, preparation fails if and only if the body is truthy and its underscored form cannot be stringified, with that error; on success the transport follows the base URL, only host and headers differ from the injected request, and a payload exists exactly for a truthy body, namely the JSON text of the body with its keys underscored |
| BraintreeClient.PreparedHeaders | lib/braintreehttp/http_client.js:35-46 | the headers sent are the defaulted headers, plus Content-Length of the JSON text when the body is truthy |
| BraintreeClient.UserAgentRule | lib/braintreehttp/http_client.js:39-41 | the User-Agent sent is the default when due, the caller's value otherwise |
| BraintreeClient.ContentLengthRule | lib/braintreehttp/http_client.js:43-46 | with a body, Content-Length is the decimal UTF-8 byte length of the payload and reads back as it; without one, it is whatever the caller set |
| BraintreeClient.OtherHeadersKept | lib/braintreehttp/http_client.js:35-46 | every other header the caller or the injectors set goes out unchanged |
| BraintreeClient.InjectorHeadersKept | spec/unit/http_client_spec.js:13-32 | headers replaced by an injector reach the request |
| BraintreeClient.UserAgentDefaulted | spec/unit/http_client_spec.js:34-45 | a request without headers goes out with the braintree User-Agent |
| BraintreeClient.UserAgentKept | spec/unit/http_client_spec.js:47-59 | a caller's `User-Agent: Not Node/1.1` is kept |
| BraintreeClient.HeaderlessInjectorThrows | lib/braintreehttp/http_client.js:25-37 | the injectors run before the headers default to `{}`, so one that assigns a header on a request without headers makes `execute` throw the TypeError of that assignment |
| BraintreeClient.ResponseTextAppend | lib/braintreehttp/http_client.js:52-54 | the text of a split chunk list is the texts of its halves joined |
| BraintreeClient.ResponseResolves | lib/braintreehttp/http_client.js:56-69 | every response resolves whatever its status: with nothing exactly when the text is one space, with the text otherwise, and with the empty string when no data arrived |
| BraintreeClient.OnEndAppend | lib/braintreehttp/http_client.js:52-69 | the response resolves with the texts of its chunks joined in order, and with nothing when that is one space |
| BraintreeClient.DecodedChunksText | lib/braintreehttp/http_client.js:52-54 | chunks that each decode to a text give those texts joined |
| BraintreeClient.EncodedChunksText | lib/braintreehttp/http_client.js:52-54 | chunks that each encode a text give those texts joined, for a decoder that reads well-formed UTF-8 strictly |
| BraintreeClient.EncodedResponseResolves | lib/braintreehttp/http_client.js:50-69 | chunks that encode texts resolve with the texts joined, unless that is one space |
| BraintreeClient.Wired | lib/braintreehttp/http_client.js:71-100 | the timeout rejects with "Request timed out"; request and response errors reject with their text after fixed prefixes |
| BraintreeClient.TimeoutRejects | lib/braintreehttp/http_client.js:78-84 | a timeout before any settlement makes the outcome "Request timed out", and request errors after it change nothing |
| BraintreeClient.RequestErrorRejects | lib/braintreehttp/http_client.js:94-100 | a request error on an assigned socket, before the timeout, rejects with "Unexpected request error: " and its text |

## Left out

- The sockets, `client.request`, `write`/`end`, and the HTTP exchange itself. The model begins
  with the request handed to the transport and resumes with the response's chunks and events.
- The paypal injectors' asynchronous parts and `Promise.all`. Only each injector's synchronous
  effect on the request, or its synchronous throw, is modelled; the `.catch(reject)` of a
  rejected injector promise is not.
- lib/paypalhttp/encoder.js is not part of this model. The paypal client's serializer and
  deserializer are parameters, and so the paypal `Text`, `Multipart` and `FormEncoded` codecs
  are not modelled.
- lib/braintreehttp/exceptions.js is not part of this model. `UnexpectedError` is modelled as
  its message text.
- lib/braintreehttp/util.js is not part of this model. `convertObjectKeysToUnderscores` is a
  parameter.
- A `JSON.stringify` that returns `undefined` (a function or `undefined` body) is merged with
  one that throws: each is a stringify failure. In the multipart codecs this means that a JSON
  `FormPart` whose value stringifies to `undefined` is reported as a failure. In the source it
  is sent as the text `undefined`.
- `Object.keys` puts integer-like keys first in numeric order. The model keeps plain insertion
  order.
- BraintreeClient.Prepare: returns the prepared request as a new value. In the source,
  lines 25-46 change the caller's own request object in place, so the caller sees the
  injectors' changes, the host and the headers, and keeps those made before a throw at line
  44. Object identity is not modelled.
- The paypal copy `Object.assign({}, req)` is shallow. Writing the User-Agent into the copy's
  header object also writes it into the caller's object. The model treats the copy as
  independent.
- The socket's own listener bookkeeping is not modelled: the `removeListener` call on the
  socket removes nothing the model tracks.
- The exact TypeError texts are Node.js messages chosen for the model: `Object.keys(undefined)`,
  reading or setting a property of `undefined`, and `null.removeListener`. A `null` header
  object would name `null` instead of `undefined`.
- Strings are sequences of Unicode scalar values, while JavaScript strings are sequences of
  UTF-16 code units. A lone surrogate cannot be represented; `Buffer.from` and
  `Buffer.byteLength` would turn it into the three bytes EF BF BD.
- `toString('utf8')` is a parameter. On well-formed bytes it is tied to the strict decoder
  (`Js.DecodesWellFormed`); the U+FFFD replacement on ill-formed bytes is not modelled.
- Header values are strings only; numbers and arrays as header values are not modelled.
- `String#toLowerCase` is modelled on ASCII letters only; other characters are left as they are.
- The braintree 'data' handler adds each chunk to a string, which decodes that chunk as UTF-8
  on its own. The decoding is a parameter applied per chunk. A character split across chunks
  is therefore decoded as the parameter decides.
- The timeouts (30000 ms for paypal, 60000 ms for braintree) are not modelled as durations.
  No clock runs; the model only has the order of events.
- The response `data` chunks are a list given up front. Streaming and back-pressure are not
  modelled.
- The environment object is only its base URL.

## Findings

| source | as written | input that shows it | evidently intended | confidence | as-written member | corrected member |
|---|---|---|---|---|---|---|
| lib/paypalhttp/http_client.js:93-106 | the lower-cased copy is taken before the User-Agent default is written to the raw headers, and for a body request `mapHeader` copies the copy's values back over the raw names | `execute` with a truthy body and headers `{'User-Agent': 'Node', 'Content-Type': 'application/json'}`: the default is written, then `mapHeader` writes `Node` back, and the request goes out with `User-Agent: Node` | the default is applied whenever the User-Agent is missing, empty or `Node`, with or without a body | not executed | PaypalClient.UserAgentRevertedAsWritten | PaypalClient.UserAgentDefaulted |

=== FILE: braintree_client.dfy ===
/** The braintree `HttpClient` (`lib/braintreehttp/http_client.js`) without its transport.
    The injectors run on the caller's own request. The host comes from the base URL, the
    headers default to an empty object, and the User-Agent default applies to the exact name
    `User-Agent`. A truthy body is sent as the JSON text of its underscored form, with a
    Content-Length. The response resolves with its text whatever the status, and with nothing
    for a body of one space. */
module BraintreeClient {
  import opened Outcomes
  import opened Strings
  import opened Decimal
  import opened OrderedMap
  import opened Js
  import opened Race
  import Utf8

  const UserAgent: string := "BraintreeHttp-Node HTTP/1.1"
  const TimedOut: string := "Request timed out"

  /** An injector: what its `inject(request)` does to the request object, or the error it
      throws. */
  datatype Injector<!V> = Injector(inject: Request<V> -> Result<Request<V>, string>)

  datatype Client<!V> = Client(baseUrl: string, injectors: seq<Injector<V>>)

  /** `addInjector(inj)`: pushed without any check. */
  function AddInjector<V>(c: Client<V>, inj: Injector<V>): (r: Client<V>)
    ensures r.baseUrl == c.baseUrl && |r.injectors| == |c.injectors| + 1
    ensures r.injectors[..|c.injectors|] == c.injectors && r.injectors[|c.injectors|] == inj
  {
    c.(injectors := c.injectors + [inj])
  }

  /** The injectors, run in insertion order on the same request object; the first one that
      throws ends `execute` with its error. */
  function Injected<V>(injs: seq<Injector<V>>, req: Request<V>): Result<Request<V>, string>
    decreases |injs|
  {
    if injs == [] then Success(req)
    else
      var next :- injs[0].inject(req);
      Injected(injs[1..], next)
  }

  lemma {:induction false} InjectedAppend<V>(a: seq<Injector<V>>, b: seq<Injector<V>>, req: Request<V>)
    ensures Injected(a, req).Success? ==> Injected(a + b, req) == Injected(b, Injected(a, req).value)
    ensures Injected(a, req).Failure? ==> Injected(a + b, req) == Injected(a, req)
    decreases |a|
  {
    if a == [] {
      assert a + b == b;
    } else {
      assert (a + b)[0] == a[0] && (a + b)[1..] == a[1..] + b;
      if a[0].inject(req).Success? {
        InjectedAppend(a[1..], b, a[0].inject(req).value);
      }
    }
  }

  /** An injector added later runs after all earlier ones, on what they left, and not at all
      when one of them threw. */
  lemma AddedInjectorRunsLast<V>(c: Client<V>, inj: Injector<V>, req: Request<V>)
    ensures Injected(c.injectors, req).Success?
            ==> Injected(AddInjector(c, inj).injectors, req) == inj.inject(Injected(c.injectors, req).value)
    ensures Injected(c.injectors, req).Failure?
            ==> Injected(AddInjector(c, inj).injectors, req) == Injected(c.injectors, req)
  {
    InjectedAppend(c.injectors, [inj], req);
    assert [inj][1..] == [];
    if Injected(c.injectors, req).Success? {
      var r := Injected(c.injectors, req).value;
      if inj.inject(r).Success? {
        assert Injected([inj], r) == Injected([], inj.inject(r).value);
      }
    }
  }

  /** The default applies when the exact name `User-Agent` is missing, empty or `Node`. */
  predicate UserAgentDue(h: Headers) {
    !Truthy(Get(h, "User-Agent")) || Get(h, "User-Agent") == Some("Node")
  }

  /** The header defaulting of `execute`: the headers after the default-object and User-Agent
      steps. */
  function DefaultHeaders(headers: Option<Headers>): (h: Headers)
    ensures var given := if headers.None? then [] else headers.value;
            Get(h, "User-Agent") == if UserAgentDue(given) then Some(UserAgent) else Get(given, "User-Agent")
    ensures var given := if headers.None? then [] else headers.value;
            forall k :: k != "User-Agent" ==> Get(h, k) == Get(given, k)
  {
    var given := if headers.None? then [] else headers.value;
    if UserAgentDue(given) then
      forall k | k != "User-Agent"
        ensures Get(Set(given, "User-Agent", UserAgent), k) == Get(given, k)
      {
        GetSetOther(given, "User-Agent", UserAgent, k);
      }
      Set(given, "User-Agent", UserAgent)
    else given
  }

  /** The request as `client.request` receives it, and the text written as its body. */
  datatype Prepared<V> = Prepared(request: Request<V>, https: bool, payload: Option<string>)

  /** `execute` up to the transport call: the injectors, the host, the header defaulting and
      the payload. A body that `JSON.stringify` cannot turn into text makes
      the call throw: `JSON.stringify` throws, or it yields `undefined` and
      `Buffer.byteLength` throws. */
  function Prepare<V>(c: Client<V>, js: Runtime<V>, pf: Platform, req: Request<V>)
    : (out: Result<Prepared<V>, string>)
    ensures Injected(c.injectors, req).Failure? ==> out == Failure(Injected(c.injectors, req).error)
    ensures Injected(c.injectors, req).Success?
            ==> var r := Injected(c.injectors, req).value;
                out.Success? <==> !js.truthy(r.body) || js.stringify(js.underscoreKeys(r.body)).Success?
    ensures Injected(c.injectors, req).Success? && out.Failure?
            ==> var r := Injected(c.injectors, req).value;
                out.error == js.stringify(js.underscoreKeys(r.body)).error
    ensures out.Success? ==> Injected(c.injectors, req).Success?
    ensures out.Success? ==> (out.value.https <==> StartsWith(c.baseUrl, "https"))
    ensures out.Success?
            ==> var r := Injected(c.injectors, req).value;
                out.value.request == r.(host := pf.hostname(c.baseUrl), headers := out.value.request.headers)
    ensures out.Success?
            ==> var r := Injected(c.injectors, req).value;
                out.value.payload.Some? <==> js.truthy(r.body)
    ensures out.Success?
            ==> var r := Injected(c.injectors, req).value;
                js.truthy(r.body) ==> out.value.payload == Some(js.stringify(js.underscoreKeys(r.body)).value)
    ensures out.Success? ==> out.value.request.headers.Some?
  {
    var r :- Injected(c.injectors, req);
    var sent := r.(host := pf.hostname(c.baseUrl));
    var h := DefaultHeaders(r.headers);
    var https := StartsWith(c.baseUrl, "https");
    if js.truthy(r.body) then
      var text :- js.stringify(js.underscoreKeys(r.body));
      var length := Show(|Utf8.Encode(text)|);
      Success(Prepared(sent.(headers := Some(Set(h, "Content-Length", length))), https, Some(text)))
    else
      Success(Prepared(sent.(headers := Some(h)), https, None))
  }

  /** The headers of a prepared request, read off its parts. */
  lemma PreparedHeaders<V>(c: Client<V>, js: Runtime<V>, pf: Platform, req: Request<V>)
    requires Prepare(c, js, pf, req).Success?
    ensures var r := Injected(c.injectors, req).value;
            var h := Prepare(c, js, pf, req).value.request.headers.value;
            && (js.truthy(r.body)
                ==> h == Set(DefaultHeaders(r.headers), "Content-Length",
                             Show(|Utf8.Encode(js.stringify(js.underscoreKeys(r.body)).value)|)))
            && (!js.truthy(r.body) ==> h == DefaultHeaders(r.headers))
  {
  }

  /** The User-Agent rule: the default when the name is missing, empty or `Node`, the
      caller's value otherwise. */
  lemma UserAgentRule<V>(c: Client<V>, js: Runtime<V>, pf: Platform, req: Request<V>)
    requires Prepare(c, js, pf, req).Success?
    ensures var r := Injected(c.injectors, req).value;
            var given := if r.headers.None? then [] else r.headers.value;
            Get(Prepare(c, js, pf, req).value.request.headers.value, "User-Agent")
            == if UserAgentDue(given) then Some(UserAgent) else Get(given, "User-Agent")
  {
    var r := Injected(c.injectors, req).value;
    PreparedHeaders(c, js, pf, req);
    if js.truthy(r.body) {
      var length := Show(|Utf8.Encode(js.stringify(js.underscoreKeys(r.body)).value)|);
      GetSetOther(DefaultHeaders(r.headers), "Content-Length", length, "User-Agent");
    }
  }

  /** Content-Length is the decimal byte length of the body text when there is a body, and
      whatever the caller set otherwise. */
  lemma ContentLengthRule<V>(c: Client<V>, js: Runtime<V>, pf: Platform, req: Request<V>)
    requires Prepare(c, js, pf, req).Success?
    ensures var r := Injected(c.injectors, req).value;
            var p := Prepare(c, js, pf, req).value;
            && (js.truthy(r.body)
                ==> Get(p.request.headers.value, "Content-Length") == Some(Show(|Utf8.Encode(p.payload.value)|))
                    && Value(Show(|Utf8.Encode(p.payload.value)|)) == |Utf8.Encode(p.payload.value)|)
            && (!js.truthy(r.body)
                ==> Get(p.request.headers.value, "Content-Length")
                    == Get(if r.headers.None? then [] else r.headers.value, "Content-Length"))
  {
    var r := Injected(c.injectors, req).value;
    PreparedHeaders(c, js, pf, req);
    if js.truthy(r.body) {
      ValueShow(|Utf8.Encode(Prepare(c, js, pf, req).value.payload.value)|);
    }
  }

  /** Every other header the caller or the injectors set goes out unchanged. */
  lemma OtherHeadersKept<V>(c: Client<V>, js: Runtime<V>, pf: Platform, req: Request<V>, k: string)
    requires Prepare(c, js, pf, req).Success?
    requires Injected(c.injectors, req).value.headers.Some?
    requires k != "User-Agent" && k != "Content-Length"
    ensures Get(Prepare(c, js, pf, req).value.request.headers.value, k)
         == Get(Injected(c.injectors, req).value.headers.value, k)
  {
    var r := Injected(c.injectors, req).value;
    PreparedHeaders(c, js, pf, req);
    if js.truthy(r.body) {
      var length := Show(|Utf8.Encode(js.stringify(js.underscoreKeys(r.body)).value)|);
      GetSetOther(DefaultHeaders(r.headers), "Content-Length", length, k);
    }
  }

  /** The injector of the client test that replaces the headers by `{'Some-Key': 'Some Value'}`. */
  function SomeKeyInjector<V>(): Injector<V> {
    Injector((r: Request<V>) => Success(r.(headers := Some([("Some-Key", "Some Value")]))))
  }

  /** Headers set by an injector reach the request. */
  lemma InjectorHeadersKept<V>(baseUrl: string, js: Runtime<V>, pf: Platform, req: Request<V>)
    requires Prepare(AddInjector(Client(baseUrl, []), SomeKeyInjector()), js, pf, req).Success?
    ensures Get(Prepare(AddInjector(Client(baseUrl, []), SomeKeyInjector()), js, pf, req).value.request.headers.value,
                "Some-Key")
         == Some("Some Value")
  {
    var c := AddInjector(Client(baseUrl, []), SomeKeyInjector<V>());
    assert c.injectors == [SomeKeyInjector()];
    assert Injected(c.injectors, req) == Success(req.(headers := Some([("Some-Key", "Some Value")]))) by {
      assert c.injectors[1..] == [];
    }
    OtherHeadersKept(c, js, pf, req, "Some-Key");
  }

  /** An injector that assigns one header, `request.headers[name] = value`. */
  function HeaderWriter<V>(name: string, value: string): Injector<V> {
    Injector((r: Request<V>) =>
      if r.headers.None? then Failure(WriteOfNothing(name))
      else Success(r.(headers := Some(Set(r.headers.value, name, value)))))
  }

  /** The injectors run before the headers default to an empty object, so one that assigns a
      header on a request without headers throws, and the call throws with it. */
  lemma HeaderlessInjectorThrows<V>(baseUrl: string, js: Runtime<V>, pf: Platform, req: Request<V>,
                                    name: string, value: string)
    requires req.headers.None?
    ensures Prepare(AddInjector(Client(baseUrl, []), HeaderWriter(name, value)), js, pf, req)
         == Failure(WriteOfNothing(name))
  {
    var c := AddInjector(Client(baseUrl, []), HeaderWriter<V>(name, value));
    assert c.injectors == [HeaderWriter(name, value)] && c.injectors[1..] == [];
  }

  /** A request without headers goes out with the default User-Agent. */
  lemma UserAgentDefaulted<V>(c: Client<V>, js: Runtime<V>, pf: Platform, req: Request<V>)
    requires Prepare(c, js, pf, req).Success? && Injected(c.injectors, req).value.headers.None?
    ensures Get(Prepare(c, js, pf, req).value.request.headers.value, "User-Agent") == Some(UserAgent)
  {
    UserAgentRule(c, js, pf, req);
  }

  /** A caller's `User-Agent: Not Node/1.1` is kept. */
  lemma UserAgentKept<V>(c: Client<V>, js: Runtime<V>, pf: Platform, req: Request<V>)
    requires Prepare(c, js, pf, req).Success?
    requires Injected(c.injectors, req).value.headers == Some([("User-Agent", "Not Node/1.1")])
    ensures Get(Prepare(c, js, pf, req).value.request.headers.value, "User-Agent") == Some("Not Node/1.1")
  {
    UserAgentRule(c, js, pf, req);
  }

  /** `parseResponseBody(body)`. */
  function ParseResponseBody(body: string): string {
    body
  }

  /** `body += chunk` over the 'data' events: each chunk is decoded as UTF-8 on its own. */
  function ResponseText(pf: Platform, chunks: seq<seq<Utf8.byte>>): string
  {
    if chunks == [] then "" else ResponseText(pf, chunks[..|chunks| - 1]) + pf.decodeUtf8(chunks[|chunks| - 1])
  }

  lemma {:induction false} ResponseTextAppend(pf: Platform, a: seq<seq<Utf8.byte>>, b: seq<seq<Utf8.byte>>)
    ensures ResponseText(pf, a + b) == ResponseText(pf, a) + ResponseText(pf, b)
    decreases |b|
  {
    if b == [] {
      assert a + b == a;
    } else {
      assert (a + b)[..|a + b| - 1] == a + b[..|b| - 1];
      ResponseTextAppend(pf, a, b[..|b| - 1]);
    }
  }

  /** The 'end' handler: the status is never looked at. */
  function OnEnd(pf: Platform, chunks: seq<seq<Utf8.byte>>): EndResult<Option<string>, string>
  {
    var body := ResponseText(pf, chunks);
    if body != " " then Settles(Resolved(Some(ParseResponseBody(body)))) else Settles(Resolved(None))
  }

  /** Every response resolves: with its text, or with nothing when the text is one space.
      An empty text resolves as the empty string. */
  lemma ResponseResolves(pf: Platform, chunks: seq<seq<Utf8.byte>>)
    ensures OnEnd(pf, chunks).Settles? && OnEnd(pf, chunks).settlement.Resolved?
    ensures OnEnd(pf, chunks).settlement.value.None? <==> ResponseText(pf, chunks) == " "
    ensures ResponseText(pf, chunks) != " " ==> OnEnd(pf, chunks).settlement.value == Some(ResponseText(pf, chunks))
    ensures chunks == [] ==> OnEnd(pf, chunks).settlement.value == Some("")
  {
  }

  /** The text resolved with is the texts of the chunks received, in turn, unless together
      they are one space. */
  lemma OnEndAppend(pf: Platform, a: seq<seq<Utf8.byte>>, b: seq<seq<Utf8.byte>>)
    ensures ResponseText(pf, a) + ResponseText(pf, b) != " "
            ==> OnEnd(pf, a + b) == Settles(Resolved(Some(ResponseText(pf, a) + ResponseText(pf, b))))
    ensures ResponseText(pf, a) + ResponseText(pf, b) == " " ==> OnEnd(pf, a + b) == Settles(Resolved(None))
  {
    ResponseTextAppend(pf, a, b);
  }

  /** Chunks that each decode to a text read as those texts joined. */
  lemma {:induction false} DecodedChunksText(pf: Platform, chunks: seq<seq<Utf8.byte>>, texts: seq<string>)
    requires |chunks| == |texts| && forall i :: 0 <= i < |chunks| ==> pf.decodeUtf8(chunks[i]) == texts[i]
    ensures ResponseText(pf, chunks) == Join(texts, "")
    decreases |chunks|
  {
    if chunks != [] {
      var n := |chunks|;
      var init, firsts, last := chunks[..n - 1], texts[..n - 1], texts[n - 1];
      assert forall i :: 0 <= i < |init| ==> pf.decodeUtf8(init[i]) == firsts[i];
      DecodedChunksText(pf, init, firsts);
      assert ResponseText(pf, chunks) == ResponseText(pf, init) + last;
      if n == 1 {
        assert Join(texts, "") == last && ResponseText(pf, init) == "";
      } else {
        assert Join(texts, "") == Join(firsts, "") + "" + last;
      }
    }
  }

  /** Chunks that each hold the UTF-8 encoding of a text read as those texts joined, under a
      decoder that reads well-formed UTF-8 strictly. */
  lemma EncodedChunksText(pf: Platform, chunks: seq<seq<Utf8.byte>>, texts: seq<string>)
    requires DecodesWellFormed(pf)
    requires |chunks| == |texts| && forall i :: 0 <= i < |chunks| ==> chunks[i] == Utf8.Encode(texts[i])
    ensures ResponseText(pf, chunks) == Join(texts, "")
  {
    forall i | 0 <= i < |chunks|
      ensures pf.decodeUtf8(chunks[i]) == texts[i]
    {
      DecodesEncoded(pf, texts[i]);
    }
    DecodedChunksText(pf, chunks, texts);
  }

  /** From the bytes received to the resolved value: chunks holding the encodings of texts
      resolve with the texts joined, unless that is one space. */
  lemma EncodedResponseResolves(pf: Platform, chunks: seq<seq<Utf8.byte>>, texts: seq<string>)
    requires DecodesWellFormed(pf)
    requires |chunks| == |texts| && forall i :: 0 <= i < |chunks| ==> chunks[i] == Utf8.Encode(texts[i])
    requires Join(texts, "") != " "
    ensures OnEnd(pf, chunks) == Settles(Resolved(Some(Join(texts, ""))))
  {
    EncodedChunksText(pf, chunks, texts);
  }

  /** The braintree error wiring: fixed texts around the underlying error's text. */
  function Wired(): (w: Wiring<string>)
    ensures w.timeoutError == TimedOut
    ensures forall e :: w.requestError(e) == "Unexpected request error: " + e
    ensures forall e :: w.responseError(e) == "Unexpected response error: " + e
  {
    Wiring(TimedOut, e => "Unexpected request error: " + e, e => "Unexpected response error: " + e, NullSocket)
  }

  /** A timeout before any settlement rejects with "Request timed out", and request errors
      after it are ignored. */
  lemma TimeoutRejects<R>(st: State<R, string>, later: seq<Event<R, string>>, errs: seq<string>)
    requires Outcome(st).None? && st.timerAttached
    ensures Outcome(Run(Wired(), st, [TimeoutFired] + later)) == Some(Rejected(TimedOut))
    ensures Run(Wired(), Step(Wired(), st, TimeoutFired), RequestErrors<R, string>(errs))
         == Step(Wired(), st, TimeoutFired)
  {
    TimeoutWins(Wired(), st, later);
    AbortedIgnoresRequestErrors(Wired(), Step(Wired(), st, TimeoutFired), errs);
  }

  /** A request error on an assigned socket, before the timeout, rejects with its text. */
  lemma RequestErrorRejects<R>(st: State<R, string>, e: string, later: seq<Event<R, string>>)
    requires Outcome(st).None? && st.socket && !st.aborted
    ensures Outcome(Run(Wired(), st, [RequestError(e)] + later)) == Some(Rejected("Unexpected request error: " + e))
  {
    RequestErrorWins(Wired(), st, e, later);
  }
}

=== FILE: case_fold.dfy ===
/** Case-insensitive header handling: the lower-casing copy made by the paypal client's
    `formatHeaders` and by the `FormPart` constructor, and `mapHeader`, which writes
    lower-cased values back onto the caller's raw header names. */
module CaseFold {
  import opened Outcomes
  import opened Strings
  import opened OrderedMap

  /** The lower-cased keys of `m`, in order, duplicates included. */
  function Lowered<V>(m: Entries<V>): (ks: seq<string>)
    ensures |ks| == |m|
    ensures forall i :: 0 <= i < |m| ==> ks[i] == Lower(m[i].0)
  {
    seq(|m|, i requires 0 <= i < |m| => Lower(m[i].0))
  }

  /** Each string of `xs` once, at the position of its first occurrence. */
  function FirstOccurrences(xs: seq<string>): seq<string>
  {
    if xs == [] then []
    else
      var init := xs[..|xs| - 1];
      FirstOccurrences(init) + (if xs[|xs| - 1] in init then [] else [xs[|xs| - 1]])
  }

  /** The value of the LAST entry of `m` whose key lower-cases to `k`. */
  function LastWith<V>(m: Entries<V>, k: string): Option<V>
  {
    if m == [] then None
    else if Lower(m[|m| - 1].0) == k then Some(m[|m| - 1].1)
    else LastWith(m[..|m| - 1], k)
  }

  /** Runs `out[key.toLowerCase()] = m[key]` over the keys of `m`, in order, on `out`. */
  function AssignLowered<V>(out: Entries<V>, m: Entries<V>): Entries<V>
    decreases |m|
  {
    if m == [] then out else AssignLowered(Set(out, Lower(m[0].0), m[0].1), m[1..])
  }

  /** A fresh object holding `m` under lower-cased keys: `formatHeaders(m)`, and the
      `headers` of `new FormPart(value, m)`. */
  function LowerCaseKeys<V>(m: Entries<V>): Entries<V>
  {
    AssignLowered([], m)
  }

  /** The last assignment of the loop can be split off. */
  lemma {:induction false} AssignLoweredSnoc<V>(out: Entries<V>, m: Entries<V>)
    requires m != []
    ensures AssignLowered(out, m)
         == Set(AssignLowered(out, m[..|m| - 1]), Lower(m[|m| - 1].0), m[|m| - 1].1)
    decreases |m|
  {
    if |m| > 1 {
      var out' := Set(out, Lower(m[0].0), m[0].1);
      var init, tail := m[..|m| - 1], m[1..];
      AssignLoweredSnoc(out', tail);
      assert tail[..|tail| - 1] == init[1..];
      assert tail[|tail| - 1] == m[|m| - 1];
      assert init[0] == m[0];
      assert AssignLowered(out, init) == AssignLowered(out', init[1..]);
    } else {
      assert m[..0] == [];
      assert m[1..] == [];
    }
  }

  /** `formatHeaders` / `FormPart`: the result has unique keys. */
  lemma {:induction false} LowerCaseKeysUnique<V>(m: Entries<V>)
    ensures UniqueKeys(LowerCaseKeys(m))
    decreases |m|
  {
    if m != [] {
      var last := m[|m| - 1];
      LowerCaseKeysUnique(m[..|m| - 1]);
      AssignLoweredSnoc([], m);
      SetUnique(LowerCaseKeys(m[..|m| - 1]), Lower(last.0), last.1);
    }
  }

  /** `formatHeaders` / `FormPart`: the keys are the lower-cased input keys, each once, in the
      order in which each first occurs. */
  lemma {:induction false} LowerCaseKeysOrder<V>(m: Entries<V>)
    ensures Keys(LowerCaseKeys(m)) == FirstOccurrences(Lowered(m))
    decreases |m|
  {
    if m != [] {
      var init := m[..|m| - 1];
      var l := Lower(m[|m| - 1].0);
      var prev := LowerCaseKeys(init);
      LowerCaseKeysOrder(init);
      AssignLoweredSnoc([], m);
      KeysSet(prev, l, m[|m| - 1].1);
      LoweredSnoc(m);
      OrderStep(Keys(prev), Lowered(init), l);
    }
  }

  lemma LoweredSnoc<V>(m: Entries<V>)
    requires m != []
    ensures Lowered(m) == Lowered(m[..|m| - 1]) + [Lower(m[|m| - 1].0)]
  {
  }

  /** Appending `l` to a list adds it to its first-occurrence list exactly when it is new. */
  lemma OrderStep(prev: seq<string>, ys: seq<string>, l: string)
    requires prev == FirstOccurrences(ys)
    ensures FirstOccurrences(ys + [l]) == if l in prev then prev else prev + [l]
  {
    FirstOccurrencesMembers(ys, l);
    assert (ys + [l])[..|ys|] == ys;
    assert (ys + [l])[|ys|] == l;
  }

  /** Every string occurring in `xs` occurs in its first-occurrence list, and conversely. */
  lemma {:induction false} FirstOccurrencesMembers(xs: seq<string>, k: string)
    ensures k in FirstOccurrences(xs) <==> k in xs
    decreases |xs|
  {
    if xs != [] {
      var init := xs[..|xs| - 1];
      FirstOccurrencesMembers(init, k);
      assert xs == init + [xs[|xs| - 1]];
    }
  }

  /** `formatHeaders` / `FormPart`: under each key sits the value of the last input key that
      lower-cases to it, so a later key wins a case-insensitive collision. */
  lemma {:induction false} LowerCaseKeysValues<V>(m: Entries<V>, k: string)
    ensures Get(LowerCaseKeys(m), k) == LastWith(m, k)
    decreases |m|
  {
    if m != [] {
      var init := m[..|m| - 1];
      var last := m[|m| - 1];
      LowerCaseKeysValues(init, k);
      AssignLoweredSnoc([], m);
      if k != Lower(last.0) {
        GetSetOther(LowerCaseKeys(init), Lower(last.0), last.1, k);
      }
    }
  }

  /** `formatHeaders` / `FormPart`, all together. */
  lemma LowerCaseKeysSpec<V>(m: Entries<V>)
    ensures UniqueKeys(LowerCaseKeys(m))
    ensures Keys(LowerCaseKeys(m)) == FirstOccurrences(Lowered(m))
    ensures forall k :: k in Keys(LowerCaseKeys(m)) <==> k in Lowered(m)
    ensures forall k :: Get(LowerCaseKeys(m), k) == LastWith(m, k)
  {
    LowerCaseKeysUnique(m);
    LowerCaseKeysOrder(m);
    forall k
      ensures k in Keys(LowerCaseKeys(m)) <==> k in Lowered(m)
      ensures Get(LowerCaseKeys(m), k) == LastWith(m, k)
    {
      FirstOccurrencesMembers(Lowered(m), k);
      LowerCaseKeysValues(m, k);
    }
  }

  /** A key-collision-free input is copied entry by entry, with lower-cased keys. */
  lemma LowerCaseKeysNoCollision<V>(m: Entries<V>)
    requires forall i, j :: 0 <= i < j < |m| ==> Lower(m[i].0) != Lower(m[j].0)
    ensures LowerCaseKeys(m) == seq(|m|, i requires 0 <= i < |m| => (Lower(m[i].0), m[i].1))
  {
    var r := LowerCaseKeys(m);
    LowerCaseKeysSpec(m);
    FirstOccurrencesDistinct(Lowered(m));
    assert Keys(r) == Lowered(m);
    forall i | 0 <= i < |m|
      ensures r[i] == (Lower(m[i].0), m[i].1)
    {
      GetAt(r, i);
      LastWithUnique(m, i);
    }
  }

  lemma {:induction false} FirstOccurrencesDistinct(xs: seq<string>)
    requires forall i, j :: 0 <= i < j < |xs| ==> xs[i] != xs[j]
    ensures FirstOccurrences(xs) == xs
    decreases |xs|
  {
    if xs != [] {
      var init := xs[..|xs| - 1];
      FirstOccurrencesDistinct(init);
      assert xs[|xs| - 1] !in init;
      assert xs == init + [xs[|xs| - 1]];
    }
  }

  lemma {:induction false} LastWithUnique<V>(m: Entries<V>, i: nat)
    requires forall a, b :: 0 <= a < b < |m| ==> Lower(m[a].0) != Lower(m[b].0)
    requires i < |m|
    ensures LastWith(m, Lower(m[i].0)) == Some(m[i].1)
    decreases |m|
  {
    if i < |m| - 1 {
      var init := m[..|m| - 1];
      assert init[i] == m[i];
      LastWithUnique(init, i);
    }
  }

  /** The value `mapHeader` leaves under the raw entry `e`: the formatted value stored under
      its lower-cased name when there is one, its own value otherwise. */
  function Remapped<V>(formatted: Entries<V>, e: (string, V)): (r: (string, V))
    ensures r.0 == e.0
  {
    match Get(formatted, Lower(e.0))
    case Some(v) => (e.0, v)
    case None => e
  }

  /** Runs `if (formatted[key.toLowerCase()] != null) raw[key] = formatted[...]` for the keys
      `keys`, in order. */
  function MapHeaderFrom<V>(raw: Entries<V>, keys: seq<string>, formatted: Entries<V>)
    : Entries<V>
    decreases |keys|
  {
    if keys == [] then raw
    else
      var raw' := match Get(formatted, Lower(keys[0]))
                  case Some(v) => Set(raw, keys[0], v)
                  case None => raw;
      MapHeaderFrom(raw', keys[1..], formatted)
  }

  /** `mapHeader(rawHeaders, formattedHeaders)`. */
  function MapHeader<V>(raw: Entries<V>, formatted: Entries<V>): Entries<V>
  {
    MapHeaderFrom(raw, Keys(raw), formatted)
  }

  /** One round of the `mapHeader` loop rewrites exactly the entry at its position. */
  lemma MapHeaderStep<V>(raw: Entries<V>, j: nat, formatted: Entries<V>)
    requires UniqueKeys(raw) && j < |raw|
    ensures MapHeaderFrom(raw, Keys(raw)[j..], formatted)
         == MapHeaderFrom(raw[j := Remapped(formatted, raw[j])], Keys(raw)[j + 1..], formatted)
  {
    var k := raw[j].0;
    var keys := Keys(raw)[j..];
    assert keys != [] && keys[0] == k && keys[1..] == Keys(raw)[j + 1..];
    match Get(formatted, Lower(k)) {
      case Some(v) =>
        SetAt(raw, j, v);
      case None =>
        assert raw == raw[j := Remapped(formatted, raw[j])];
    }
  }

  /** Replacing one entry by one with the same key keeps the keys. */
  lemma ReplaceValue<V>(m: Entries<V>, j: nat, e: (string, V))
    requires UniqueKeys(m) && j < |m| && e.0 == m[j].0
    ensures Keys(m[j := e]) == Keys(m)
    ensures UniqueKeys(m[j := e])
  {
    var m' := m[j := e];
    assert forall i :: 0 <= i < |m| ==> m'[i].0 == m[i].0;
  }

  /** After the rounds for the keys from position `j` on, the entries before `j` are as they
      were and the others are remapped. */
  lemma {:induction false} MapHeaderFromSpec<V>(raw: Entries<V>, j: nat, formatted: Entries<V>)
    requires UniqueKeys(raw) && j <= |raw|
    ensures |MapHeaderFrom(raw, Keys(raw)[j..], formatted)| == |raw|
    ensures forall i :: 0 <= i < |raw|
              ==> MapHeaderFrom(raw, Keys(raw)[j..], formatted)[i]
                  == if i < j then raw[i] else Remapped(formatted, raw[i])
    decreases |raw| - j
  {
    if j == |raw| {
      assert Keys(raw)[j..] == [];
    } else {
      var e := Remapped(formatted, raw[j]);
      MapHeaderStep(raw, j, formatted);
      ReplaceValue(raw, j, e);
      MapHeaderFromSpec(raw[j := e], j + 1, formatted);
    }
  }

  /** `mapHeader` never adds, removes or reorders keys, and overwrites exactly the entries whose
      lower-cased name has a value in `formatted`, with that value. */
  lemma MapHeaderSpec<V>(raw: Entries<V>, formatted: Entries<V>)
    requires UniqueKeys(raw)
    ensures Keys(MapHeader(raw, formatted)) == Keys(raw)
    ensures |MapHeader(raw, formatted)| == |raw|
    ensures forall i :: 0 <= i < |raw| ==> MapHeader(raw, formatted)[i] == Remapped(formatted, raw[i])
  {
    MapHeaderFromSpec(raw, 0, formatted);
    assert Keys(raw)[0..] == Keys(raw);
    var r := MapHeader(raw, formatted);
    forall i | 0 <= i < |raw|
      ensures Keys(r)[i] == Keys(raw)[i]
    {
      assert r[i] == Remapped(formatted, raw[i]);
    }
  }

  /** Looking a name up after `mapHeader`: the formatted value under its lower-cased form if
      there is one and the name was present, the raw value otherwise. */
  lemma MapHeaderGet<V>(raw: Entries<V>, formatted: Entries<V>, k: string)
    requires UniqueKeys(raw)
    ensures Get(MapHeader(raw, formatted), k)
         == if k in Keys(raw) && Get(formatted, Lower(k)).Some? then Get(formatted, Lower(k)) else Get(raw, k)
  {
    MapHeaderSpec(raw, formatted);
    var r := MapHeader(raw, formatted);
    if k in Keys(raw) {
      var i :| 0 <= i < |raw| && Keys(raw)[i] == k;
      UniqueKeysByKeys(raw, r);
      GetAt(raw, i);
      GetAt(r, i);
    }
  }
}

=== FILE: decimal.dfy ===
/** `Number#toString()` for the non-negative integers the clients print: millisecond
    time stamps (the multipart boundary) and byte counts (`Content-Length`). */
module Decimal {

  predicate IsDigit(c: char) {
    '0' <= c <= '9'
  }

  predicate AllDigits(s: string) {
    forall i :: 0 <= i < |s| ==> IsDigit(s[i])
  }

  function DigitChar(d: nat): (c: char)
    requires d < 10
    ensures IsDigit(c) && c as int - '0' as int == d
  {
    ('0' as int + d) as char
  }

  /** The decimal numeral of `n`: at least one digit, no leading zero. */
  function Show(n: nat): (r: string)
    ensures |r| >= 1 && AllDigits(r)
    ensures |r| > 1 ==> r[0] != '0'
    ensures n < 10 <==> |r| == 1
    decreases n
  {
    if n < 10 then [DigitChar(n)] else Show(n / 10) + [DigitChar(n % 10)]
  }

  /** The value of a numeral, most significant digit first. */
  function Value(s: string): nat
    requires AllDigits(s)
  {
    if s == [] then 0 else Value(s[..|s| - 1]) * 10 + (s[|s| - 1] as int - '0' as int)
  }

  /** Reading back a printed number gives the number. */
  lemma {:induction false} ValueShow(n: nat)
    ensures Value(Show(n)) == n
    decreases n
  {
    if n >= 10 {
      var s := Show(n);
      assert s[..|s| - 1] == Show(n / 10);
      ValueShow(n / 10);
    }
  }

  /** Distinct numbers print differently. */
  lemma ShowInjective(m: nat, n: nat)
    ensures Show(m) == Show(n) ==> m == n
  {
    if Show(m) == Show(n) {
      ValueShow(m);
      ValueShow(n);
    }
  }
}

=== FILE: encoder.dfy ===
/** The braintree `Encoder`: serialises a request body and deserialises a response body by
    the declared Content-Type, supporting exactly `application/json` and failing with fixed
    messages otherwise. Both operations only read their arguments. */
module Encoder {
  import opened Outcomes
  import opened Strings
  import opened OrderedMap
  import opened Js
  import JsonCodec

  const Json: string := "application/json"

  /** `supportedEncodings()`. */
  function SupportedEncodings(): seq<string>
  {
    [Json]
  }

  /** `supportedDecodings()`. */
  function SupportedDecodings(): seq<string>
  {
    [Json]
  }

  const MissingRequestType: string := "HttpRequest does not have Content-Type header set"
  const MissingResponseType: string := "HttpResponse does not have Content-Type header set"

  /** The message for a request whose content type is not supported; the list of supported
      encodings is interpolated as `Array#join(",")` does it. */
  function UnsupportedEncoding(ct: Option<string>): string
  {
    "Unable to serialize request with Content-Type " + Interpolate(ct)
    + ". Supported encodings are " + Join(SupportedEncodings(), ",")
  }

  function UnsupportedDecoding(ct: Option<string>): string
  {
    "Unable to deserialize response with Content-Type " + Interpolate(ct)
    + ". Supported decodings are " + Join(SupportedDecodings(), ",")
  }

  /** `headers['content-type'] || headers['Content-Type']`: the lower-case name is read
      first and wins unless it is missing or empty. */
  function ContentType(h: Headers): (r: Option<string>)
    ensures r.Some? ==> r == Get(h, "content-type") || r == Get(h, "Content-Type")
    ensures Truthy(Get(h, "content-type")) ==> r == Get(h, "content-type")
    ensures !Truthy(Get(h, "content-type")) ==> r == Get(h, "Content-Type")
  {
    Or(Get(h, "content-type"), Get(h, "Content-Type"))
  }

  /** `serializeRequest(request)`. */
  function SerializeRequest<V>(js: Runtime<V>, request: Request<V>): (r: Result<string, string>)
    ensures request.headers.None? ==> r == Failure(MissingRequestType)
    ensures request.headers.Some? && ContentType(request.headers.value) == Some(Json)
            ==> r == js.stringify(request.body)
    ensures request.headers.Some? && ContentType(request.headers.value) != Some(Json)
            ==> r == Failure(UnsupportedEncoding(ContentType(request.headers.value)))
  {
    match request.headers
    case None => Failure(MissingRequestType)
    case Some(h) =>
      var ct := ContentType(h);
      if ct == Some(Json) then js.stringify(request.body) else Failure(UnsupportedEncoding(ct))
  }

  /** `deserializeResponse(responseBody, headers)`. */
  function DeserializeResponse<V>(js: Runtime<V>, body: string, headers: Option<Headers>)
    : (r: Result<V, string>)
    ensures headers.None? ==> r == Failure(MissingResponseType)
    ensures headers.Some? && ContentType(headers.value) == Some(Json) ==> r == js.parse(body)
    ensures headers.Some? && ContentType(headers.value) != Some(Json)
            ==> r == Failure(UnsupportedDecoding(ContentType(headers.value)))
  {
    match headers
    case None => Failure(MissingResponseType)
    case Some(h) =>
      var ct := ContentType(h);
      if ct == Some(Json) then js.parse(body) else Failure(UnsupportedDecoding(ct))
  }

  /** Serialisation succeeds exactly when headers are present, the content type is exactly
      `application/json`, and the body has a JSON text; it then returns that text. */
  lemma SerializeSucceedsIff<V>(js: Runtime<V>, request: Request<V>)
    ensures SerializeRequest(js, request).Success?
        <==> request.headers.Some? && ContentType(request.headers.value) == Some(Json)
             && js.stringify(request.body).Success?
    ensures SerializeRequest(js, request).Success?
        ==> SerializeRequest(js, request).value == js.stringify(request.body).value
  {
  }

  /** Headers without either content-type name give the unsupported-type error naming
      `undefined`, not the missing-header error. */
  lemma SerializeWithoutContentTypeKey<V>(js: Runtime<V>, request: Request<V>)
    requires request.headers.Some?
    requires "content-type" !in Keys(request.headers.value)
    requires "Content-Type" !in Keys(request.headers.value)
    ensures SerializeRequest(js, request)
         == Failure("Unable to serialize request with Content-Type " + "undefined"
                    + ". Supported encodings are " + "application/json")
  {
    EncodingsText();
  }

  /** Matching is exact equality: a charset parameter is refused here, although the paypal
      `Json` matcher accepts the same value. */
  lemma SerializeRefusesParameters<V>(js: Runtime<V>, request: Request<V>)
    requires request.headers == Some([("Content-Type", "application/json; charset=utf-8")])
    ensures SerializeRequest(js, request)
         == Failure(UnsupportedEncoding(Some("application/json; charset=utf-8")))
    ensures JsonCodec.Matches("application/json; charset=utf-8")
  {
    JsonCodec.MatchesWithParameters();
  }

  /** Every content type this encoder accepts is accepted by the paypal `Json` matcher. */
  lemma AcceptedTypesMatchJson<V>(js: Runtime<V>, request: Request<V>)
    requires SerializeRequest(js, request).Success?
    ensures JsonCodec.Matches(ContentType(request.headers.value).value)
  {
    assert Json[..12] == "application/" && Json[12..16] == "json";
  }

  /** The fixed messages of the unit tests. */
  lemma UnsupportedMessages()
    ensures UnsupportedEncoding(Some("not application/json"))
         == "Unable to serialize request with Content-Type " + "not application/json"
            + ". Supported encodings are " + "application/json"
    ensures UnsupportedDecoding(Some("not application/json"))
         == "Unable to deserialize response with Content-Type " + "not application/json"
            + ". Supported decodings are " + "application/json"
  {
    EncodingsText();
  }

  /** Each supported list is `application/json` alone, and prints as it. */
  lemma EncodingsText()
    ensures SupportedEncodings() == SupportedDecodings() == [Json]
    ensures Join(SupportedEncodings(), ",") == Json
    ensures Join(SupportedDecodings(), ",") == Json
  {
  }

  /** Deserialisation succeeds exactly when headers are present, the content type is exactly
      `application/json`, and the body parses. */
  lemma DeserializeSucceedsIff<V>(js: Runtime<V>, body: string, headers: Option<Headers>)
    ensures DeserializeResponse(js, body, headers).Success?
        <==> headers.Some? && ContentType(headers.value) == Some(Json) && js.parse(body).Success?
  {
  }

  /** Serialising and then deserialising under the same headers gives the body back whenever
      `JSON.parse` undoes `JSON.stringify` on it. */
  lemma RoundTrip<V>(js: Runtime<V>, request: Request<V>)
    requires SerializeRequest(js, request).Success?
    requires js.parse(js.stringify(request.body).value) == Success(request.body)
    ensures DeserializeResponse(js, SerializeRequest(js, request).value, request.headers)
         == Success(request.body)
  {
  }
}

=== FILE: js.dfy ===
/** The JavaScript and Node.js facilities the core relies on. The ones whose behaviour is not
    modelled (JSON, the `v + '\r\n'` string conversion, `path`, `url`, `zlib`, UTF-8
    decoding) are fields of `Runtime` and `Platform`, passed in by the caller; truthiness of
    strings, `||` and template interpolation are spelled out here. */
module Js {
  import opened Outcomes
  import opened Utf8
  import opened OrderedMap

  /** A header object: names to string values, in insertion order. */
  type Headers = Entries<string>

  /** Operations on the JavaScript values `V` that request and response bodies hold. */
  datatype Runtime<!V> = Runtime(
    truthy: V -> bool,                        // `if (v)`
    stringify: V -> Result<string, string>,   // `JSON.stringify(v)`; Failure: throws or yields no text
    parse: string -> Result<V, string>,       // `JSON.parse(s)`; Failure: throws
    show: V -> Result<string, string>,        // `v + "..."`; Failure: throws (a Symbol, or an
                                              // object with no primitive conversion)
    underscoreKeys: V -> V)                   // `Util.convertObjectKeysToUnderscores(v)`

  /** Node.js library calls. */
  datatype Platform = Platform(
    basename: string -> string,               // `path.basename(p)`
    extname: string -> string,                // `path.extname(p)`
    hostname: string -> Option<string>,       // `url.parse(u).hostname`
    port: string -> Option<string>,           // `url.parse(u).port`
    gunzip: seq<byte> -> Result<seq<byte>, string>,  // `zlib.gunzipSync(b)`; Failure: throws
    decodeUtf8: seq<byte> -> string)          // `buffer.toString('utf8')`

  /** A `toString('utf8')` that reads well-formed UTF-8 as the strict decoder does. On
      ill-formed bytes Node.js substitutes U+FFFD, which the model leaves to the parameter. */
  ghost predicate DecodesWellFormed(pf: Platform) {
    forall bs :: Decode(bs).Some? ==> pf.decodeUtf8(bs) == Decode(bs).value
  }

  /** Such a decoder reads an encoded text back. */
  lemma DecodesEncoded(pf: Platform, s: string)
    requires DecodesWellFormed(pf)
    ensures pf.decodeUtf8(Encode(s)) == s
  {
    DecodeEncode(s);
  }

  /** The TypeError of `Object.keys(undefined)` or `Object.keys(null)`. */
  const KeysOfNothing: string := "TypeError: Cannot convert undefined or null to object"

  /** The TypeError of reading `o[name]` on an undefined `o`. */
  function ReadOfNothing(name: string): string {
    "TypeError: Cannot read properties of undefined (reading '" + name + "')"
  }

  /** The TypeError of assigning `o[name]` on an undefined `o`. */
  function WriteOfNothing(name: string): string {
    "TypeError: Cannot set properties of undefined (setting '" + name + "')"
  }

  /** Truthiness of an optional string: `undefined` and `""` are falsy. */
  predicate Truthy(s: Option<string>) {
    s.Some? && s.value != ""
  }

  /** `a || b` on two optional strings. */
  function Or(a: Option<string>, b: Option<string>): (r: Option<string>)
    ensures Truthy(a) ==> r == a
    ensures !Truthy(a) ==> r == b
  {
    if Truthy(a) then a else b
  }

  /** `${s}` for an optional string: `undefined` prints as "undefined". */
  function Interpolate(s: Option<string>): (r: string)
    ensures s.Some? ==> r == s.value
  {
    match s
    case None => "undefined"
    case Some(v) => v
  }

  /** `o + ''` of a plain object such as a `FormPart`. */
  const ObjectText: string := "[object Object]"

  /** A request object as the clients, the encoder and the codecs see it. */
  datatype Request<+V> = Request(
    verb: Option<string>,
    methodName: Option<string>,   // the `method` property
    path: string,
    headers: Option<Headers>,
    body: V,
    host: Option<string>,
    port: Option<string>)

  /** A serialised request body: a string, or a `Buffer` (as the multipart codecs return). */
  datatype Payload = Text(text: string) | Bytes(bytes: seq<byte>)

  /** `Buffer.byteLength(payload)`. */
  function ByteLength(p: Payload): (n: nat)
    ensures p.Text? ==> n == |Encode(p.text)|
    ensures p.Bytes? ==> n == |p.bytes|
  {
    match p
    case Text(s) => |Encode(s)|
    case Bytes(b) => |b|
  }
}

=== FILE: json_codec.dfy ===
/** The paypal `Json` codec: its content-type matcher `/^application\/(json|JSON)/` and its
    encode/decode, which hand the body to `JSON.stringify` / `JSON.parse`. */
module JsonCodec {
  import opened Outcomes
  import opened Strings
  import opened Js

  const JsonLower: string := "application/json"
  const JsonUpper: string := "application/JSON"

  /** `/^application\/(json|JSON)/.test(ct)`: anchored at the start only, so any suffix
      (such as `; charset=utf-8`) is allowed; the subtype is all lower or all upper case. */
  function Matches(ct: string): (r: bool)
    ensures r <==> |ct| >= 16 && ct[..12] == "application/"
                   && (ct[12..16] == "json" || ct[12..16] == "JSON")
  {
    assert JsonLower == "application/" + "json" && JsonUpper == "application/" + "JSON";
    assert |ct| >= 16 ==> ct[..16] == ct[..12] + ct[12..16];
    StartsWith(ct, JsonLower) || StartsWith(ct, JsonUpper)
  }

  /** No end anchor: a parameter suffix is accepted. */
  lemma MatchesWithParameters()
    ensures Matches("application/json; charset=utf-8")
  {
    var ct := "application/json; charset=utf-8";
    assert ct[..16] == JsonLower;
  }

  /** Mixed case is refused: only all-lower and all-upper subtypes are listed. */
  lemma RefusesMixedCase()
    ensures !Matches("application/Json")
  {
    var ct := "application/Json";
    assert ct[12] == 'J';
    assert ct[12..16][0] == 'J' && ct[12..16][1] == 's';
  }

  /** Another top-level type is refused even with the same subtype. */
  lemma RefusesOtherType()
    ensures !Matches("text/json")
  {
  }

  /** `encode(request)`: `JSON.stringify(request.body)`. */
  function Encode<V>(js: Runtime<V>, request: Request<V>): Result<string, string>
  {
    js.stringify(request.body)
  }

  /** Encoding reads the body only: requests that differ in anything else encode alike. */
  lemma EncodeReadsOnlyBody<V>(js: Runtime<V>, a: Request<V>, b: Request<V>)
    requires a.body == b.body
    ensures Encode(js, a) == Encode(js, b)
  {
  }

  /** `decode(body)`: `JSON.parse(body)`. */
  function Decode<V>(js: Runtime<V>, body: string): Result<V, string>
  {
    js.parse(body)
  }

  /** Decoding what was encoded gives the body back whenever `JSON.parse` undoes
      `JSON.stringify` on it; an encoding error is `JSON.stringify`'s. */
  lemma EncodeDecode<V>(js: Runtime<V>, request: Request<V>)
    requires js.stringify(request.body).Success? ==> js.parse(js.stringify(request.body).value) == Success(request.body)
    ensures Encode(js, request).Success? ==> Decode(js, Encode(js, request).value) == Success(request.body)
    ensures Encode(js, request).Failure? ==> Encode(js, request).error == js.stringify(request.body).error
  {
  }
}

=== FILE: multipart.dfy ===
/** The braintree `Multipart` serializer: one multipart/form-data part per body key, in key
    order, with a `; boundary=` parameter appended to the request's Content-Type. File
    entries (read streams) carry a filename and a content type from the extension table;
    every other value is sent as its string form. */
module Multipart {
  import opened Outcomes
  import opened Strings
  import Utf8
  import opened OrderedMap
  import opened Js
  import opened MultipartWire

  const DecodeError: string := "Multipart does not support deserialization."

  /** `_filetype`'s table, on the extension `path.extname` returns. */
  function MimeType(ext: string): (r: string)
    ensures r == "image/jpeg" <==> ext == ".jpeg" || ext == ".jpg"
    ensures r == "image/png" <==> ext == ".png"
    ensures r == "application/pdf" <==> ext == ".pdf"
    ensures r == "application/octet-stream"
        <==> ext != ".jpeg" && ext != ".jpg" && ext != ".png" && ext != ".pdf"
  {
    if ext == ".jpeg" || ext == ".jpg" then "image/jpeg"
    else if ext == ".png" then "image/png"
    else if ext == ".pdf" then "application/pdf"
    else "application/octet-stream"
  }

  /** This table has no GIF entry. */
  lemma GifIsOctetStream()
    ensures MimeType(".gif") == "application/octet-stream"
  {
  }

  /** The part for one body entry (`_filePart` or `_formPart` with `_partHeader`). A file
      gets the filename and Content-Type lines only when its basename is non-empty. Only a
      plain value can fail: `formPart + CRLF` throws when the value has no string form. */
  function Describe<V>(js: Runtime<V>, pf: Platform, key: string, e: Entry<V>): (r: Result<PartSpec, string>)
    ensures r.Failure? <==> e.Value? && js.show(e.value).Failure?
    ensures r.Failure? ==> r.error == js.show(e.value).error
    ensures r.Success? ==> r.value.name == key
    ensures e.File? && pf.basename(e.path) != ""
            ==> r.Success? && r.value.filename == Some(pf.basename(e.path))
                && r.value.fields == [("Content-Type", MimeType(pf.extname(pf.basename(e.path))))]
    ensures r.Success? && !(e.File? && pf.basename(e.path) != "") ==> r.value.filename.None? && r.value.fields == []
    ensures e.File? ==> r.Success? && r.value.content == e.contents + Utf8.Encode(CRLF)
    ensures e.Part? ==> r.Success? && r.value.content == Utf8.Encode(ObjectText + CRLF)
    ensures e.Value? && r.Success? ==> r.value.content == Utf8.Encode(js.show(e.value).value + CRLF)
  {
    match e
    case File(path, contents) =>
      var f := pf.basename(path);
      if f != "" then Success(PartSpec(key, Some(f), [("Content-Type", MimeType(pf.extname(f)))], contents + Utf8.Encode(CRLF)))
      else Success(PartSpec(key, None, [], contents + Utf8.Encode(CRLF)))
    case Part(_) => Success(PartSpec(key, None, [], Utf8.Encode(ObjectText + CRLF)))
    case Value(v) =>
      var text :- js.show(v);
      Success(PartSpec(key, None, [], Utf8.Encode(text + CRLF)))
  }

  /** `Describe` as the describer the part list is built with. */
  function PartOf<V>(js: Runtime<V>, pf: Platform): Describer<V>
  {
    (key, e) => Describe(js, pf, key, e)
  }

  /** Whether an entry makes `_formPart` throw. */
  predicate Unprintable<V>(js: Runtime<V>, e: Entry<V>) {
    e.Value? && js.show(e.value).Failure?
  }

  /** The header text `_partHeader` writes for a file with a non-empty basename: the
      filename parameter, then a Content-Type line from the extension table. */
  lemma FileHeaderText<V>(js: Runtime<V>, pf: Platform, b: string, key: string, path: string,
                          contents: seq<Utf8.byte>)
    requires pf.basename(path) != ""
    ensures var f := pf.basename(path);
            HeaderText(b, Describe(js, pf, key, File(path, contents)).value)
            == "--" + b + CRLF + "Content-Disposition: form-data; name=\"" + key + "\"; filename=\"" + f + "\""
               + CRLF + "Content-Type: " + MimeType(pf.extname(f)) + CRLF + CRLF
  {
    FileHeaderTextWith(b, Describe(js, pf, key, File(path, contents)).value, MimeType(pf.extname(pf.basename(path))));
  }

  /** The header text of any other part, a file with an empty basename included: the
      disposition naming the key, and nothing else. */
  lemma PlainHeaderText<V>(js: Runtime<V>, pf: Platform, b: string, key: string, e: Entry<V>)
    requires !(e.File? && pf.basename(e.path) != "")
    ensures Describe(js, pf, key, e).Success?
            ==> HeaderText(b, Describe(js, pf, key, e).value)
                == "--" + b + CRLF + "Content-Disposition: form-data; name=\"" + key + "\"" + CRLF + CRLF
  {
    if Describe(js, pf, key, e).Success? {
      var p := Describe(js, pf, key, e).value;
      HeaderTextWithoutFilename(b, p);
      assert FieldLines(p.fields) == "";
      var x := "--" + b + CRLF + "Content-Disposition: form-data; name=\"" + key + "\"";
      assert x + "" == x;
    }
  }

  /** One part per body key, in key order, or the error of the first entry that throws. */
  function Parts<V>(js: Runtime<V>, pf: Platform, body: Entries<Entry<V>>): (r: Result<seq<PartSpec>, string>)
    ensures r.Success? ==> |r.value| == |body|
    ensures r.Success? ==> forall i :: 0 <= i < |body| ==> Describe(js, pf, body[i].0, body[i].1) == Success(r.value[i])
  {
    DescribeAll(PartOf(js, pf), body)
  }

  /** A body whose every value has a string form is encoded in full. */
  lemma PartsSucceed<V>(js: Runtime<V>, pf: Platform, body: Entries<Entry<V>>)
    requires forall i :: 0 <= i < |body| ==> !Unprintable(js, body[i].1)
    ensures Parts(js, pf, body).Success?
  {
    DescribeAllSucceeds(PartOf(js, pf), body);
  }

  /** Otherwise the first value without a string form ends `encode` with its error. */
  lemma PartsFirstFailure<V>(js: Runtime<V>, pf: Platform, body: Entries<Entry<V>>, i: nat)
    requires i < |body| && Unprintable(js, body[i].1)
    requires forall j :: 0 <= j < i ==> !Unprintable(js, body[j].1)
    ensures Parts(js, pf, body) == Failure(js.show(body[i].1.value).error)
  {
    DescribeAllFirstFailure(PartOf(js, pf), body, i);
  }

  /** `request.headers['Content-Type'] += '; boundary=' + b`: the old value (or "undefined"
      when missing) with the boundary parameter appended; nothing else in the headers
      changes, and a missing Content-Type is added last. */
  function AppendBoundary(headers: Headers, b: string): (out: Headers)
    ensures Get(out, "Content-Type") == Some(Interpolate(Get(headers, "Content-Type")) + "; boundary=" + b)
    ensures forall k :: k != "Content-Type" ==> Get(out, k) == Get(headers, k)
    ensures Keys(out) == if "Content-Type" in Keys(headers) then Keys(headers)
                         else Keys(headers) + ["Content-Type"]
  {
    var v := Interpolate(Get(headers, "Content-Type")) + "; boundary=" + b;
    var out := Set(headers, "Content-Type", v);
    forall k | k != "Content-Type"
      ensures Get(out, k) == Get(headers, k)
    {
      GetSetOther(headers, "Content-Type", v, k);
    }
    KeysSet(headers, "Content-Type", v);
    out
  }

  /** `encode(request)`, given the request's headers and body (`None` for `undefined` or
      `null`) and the clock reading. Without headers the `+=` on `Content-Type` throws. Otherwise the
      headers gain the boundary parameter; then a missing body makes `Object.keys` throw, and
      a present one is sent as one part per key, in key order, unless a value has no string
      form, whose error ends the call. */
  method Encode<V>(js: Runtime<V>, pf: Platform, headers: Option<Headers>, body: Option<Entries<Entry<V>>>, now: nat)
    returns (out: Option<Headers>, r: Result<seq<Utf8.byte>, string>)
    ensures headers.None? ==> out.None? && r == Failure(ReadOfNothing("Content-Type"))
    ensures headers.Some? ==> out == Some(AppendBoundary(headers.value, Boundary(now)))
    ensures headers.Some? && body.None? ==> r == Failure(KeysOfNothing)
    ensures headers.Some? && body.Some? ==> (r.Success? <==> Parts(js, pf, body.value).Success?)
    ensures headers.Some? && body.Some? && r.Success?
            ==> r.value == Body(Boundary(now), Parts(js, pf, body.value).value)
    ensures headers.Some? && body.Some? && r.Failure? ==> r.error == Parts(js, pf, body.value).error
  {
    if headers.None? {
      return None, Failure(ReadOfNothing("Content-Type"));
    }
    var b := Boundary(now);
    out := Some(AppendBoundary(headers.value, b));
    if body.None? {
      return out, Failure(KeysOfNothing);
    }
    r := EncodeParts(js, pf, body.value, b);
  }

  /** The loop of `encode` and the close delimiter. */
  method EncodeParts<V>(js: Runtime<V>, pf: Platform, body: Entries<Entry<V>>, b: string)
    returns (r: Result<seq<Utf8.byte>, string>)
    ensures r.Success? <==> Parts(js, pf, body).Success?
    ensures r.Success? ==> r.value == Body(b, Parts(js, pf, body).value)
    ensures r.Failure? ==> r.error == Parts(js, pf, body).error
  {
    ghost var ps: seq<PartSpec> := [];
    var buffers: seq<seq<Utf8.byte>> := [];
    for i := 0 to |body|
      invariant DescribeAll(PartOf(js, pf), body[..i]) == Success(ps)
      invariant buffers == Rendered(b, ps)
    {
      var p := Describe(js, pf, body[i].0, body[i].1);
      LoopStep(js, pf, body, i, ps);
      if p.Failure? {
        return Failure(p.error);
      }
      RenderedSnoc(b, ps, p.value);
      buffers := buffers + [Render(b, p.value)];
      ps := ps + [p.value];
    }
    assert body[..|body|] == body;
    var tail := [Utf8.Encode("--" + b + "--"), Utf8.Encode(CRLF), Utf8.Encode(CRLF)];
    var bytes := Utf8.Concat(buffers + tail);
    assert bytes == Body(b, ps);
    r := Success(bytes);
  }

  /** One step of `encode`'s loop: the entry's part extends the parts so far, or its error
      is the error of the whole body. */
  lemma LoopStep<V>(js: Runtime<V>, pf: Platform, body: Entries<Entry<V>>, i: nat, ps: seq<PartSpec>)
    requires i < |body| && DescribeAll(PartOf(js, pf), body[..i]) == Success(ps)
    ensures Describe(js, pf, body[i].0, body[i].1).Success?
            ==> DescribeAll(PartOf(js, pf), body[..i + 1]) == Success(ps + [Describe(js, pf, body[i].0, body[i].1).value])
    ensures Describe(js, pf, body[i].0, body[i].1).Failure?
            ==> Parts(js, pf, body) == Failure(Describe(js, pf, body[i].0, body[i].1).error)
  {
    var d := PartOf(js, pf);
    assert body[..i + 1] == body[..i] + [body[i]];
    DescribeAllSnoc(d, body[..i], body[i]);
    assert d(body[i].0, body[i].1) == Describe(js, pf, body[i].0, body[i].1);
    assert body[..i + 1] + body[i + 1..] == body;
    DescribeAllAppend(d, body[..i + 1], body[i + 1..]);
  }

  /** The encoded body lists the parts in key order and ends with the close delimiter. */
  lemma EncodeLayout<V>(js: Runtime<V>, pf: Platform, body: Entries<Entry<V>>, now: nat)
    ensures Parts(js, pf, body).Success?
            ==> Body(Boundary(now), Parts(js, pf, body).value)
                == Utf8.Concat(Rendered(Boundary(now), Parts(js, pf, body).value)) + Utf8.Encode(CloseDelimiter(Boundary(now)))
  {
    if Parts(js, pf, body).Success? {
      BodyLayout(Boundary(now), Parts(js, pf, body).value);
    }
  }

  /** Encoding a body split in two: the first half's error, else the second half's, else
      the halves' parts one after the other. */
  lemma PartsAppend<V>(js: Runtime<V>, pf: Platform, a: Entries<Entry<V>>, c: Entries<Entry<V>>)
    ensures Parts(js, pf, a).Failure? ==> Parts(js, pf, a + c) == Parts(js, pf, a)
    ensures Parts(js, pf, a).Success? && Parts(js, pf, c).Failure?
            ==> Parts(js, pf, a + c) == Failure(Parts(js, pf, c).error)
    ensures Parts(js, pf, a).Success? && Parts(js, pf, c).Success?
            ==> Parts(js, pf, a + c) == Success(Parts(js, pf, a).value + Parts(js, pf, c).value)
  {
    DescribeAllAppend(PartOf(js, pf), a, c);
  }

  /** `contentType()`: `/^multipart\/.* /`, that is, any string starting with `multipart/`. */
  function Matches(ct: string): (r: bool)
    ensures r <==> |ct| >= 10 && ct[..10] == "multipart/"
  {
    StartsWith(ct, "multipart/")
  }

  /** `decode()` always throws. */
  function Decode<V>(body: string): (r: Result<V, string>)
    ensures r.Failure? && r.error == DecodeError
  {
    Failure(DecodeError)
  }
}

=== FILE: multipart_related.dfy ===
/** The braintree `MultipartRelated` serializer and its `FormPart`. All non-file parts come
    first and all file parts after them, each group in body key order; a `FormPart` adds its
    own headers to its part, and one whose content type is `application/json` is sent as the
    JSON text of its value under the filename `<key>.json`. The request's Content-Type is
    overwritten with a multipart/form-data type carrying the boundary. */
module MultipartRelated {
  import opened Outcomes
  import opened Strings
  import Utf8
  import opened OrderedMap
  import opened CaseFold
  import opened Js
  import opened MultipartWire
  import Multipart

  const DecodeError: string := "MultipartRelated does not support deserialization."

  /** `new FormPart(value, headers)`: keeps the value and lower-cases every header name.
      When two names fold to the same key the later value wins, at the earlier position.
      Without headers (`undefined` or `null`), `Object.keys` throws. */
  function NewFormPart<V>(value: V, headers: Option<Headers>): (r: Result<FormPart<V>, string>)
    ensures headers.None? ==> r == Failure(KeysOfNothing)
    ensures headers.Some? ==> r.Success? && r.value.value == value
    ensures headers.Some? ==> UniqueKeys(r.value.headers)
    ensures headers.Some? ==> Keys(r.value.headers) == FirstOccurrences(Lowered(headers.value))
    ensures headers.Some? ==> forall k :: k in Keys(r.value.headers) <==> k in Lowered(headers.value)
    ensures headers.Some? ==> forall k :: Get(r.value.headers, k) == LastWith(headers.value, k)
  {
    match headers
    case None => Failure(KeysOfNothing)
    case Some(h) =>
      LowerCaseKeysSpec(h);
      Success(FormPart(value, LowerCaseKeys(h)))
  }

  /** `_filetype`'s table: the `Multipart` table with a GIF entry. */
  function MimeType(ext: string): (r: string)
    ensures r == if ext == ".gif" then "image/gif" else Multipart.MimeType(ext)
  {
    if ext == ".jpeg" || ext == ".jpg" then "image/jpeg"
    else if ext == ".png" then "image/png"
    else if ext == ".gif" then "image/gif"
    else if ext == ".pdf" then "application/pdf"
    else "application/octet-stream"
  }

  /** The table on the extensions of the unit tests' file names. */
  lemma MimeTypeExamples()
    ensures MimeType(".jpg") == "image/jpeg" && MimeType(".jpeg") == "image/jpeg"
    ensures MimeType(".gif") == "image/gif" && MimeType(".pdf") == "application/pdf"
    ensures MimeType(".tar") == "application/octet-stream"
  {
  }

  /** A `FormPart` whose `content-type` header is exactly `application/json`. */
  predicate IsJsonPart<V>(fp: FormPart<V>) {
    Get(fp.headers, "content-type") == Some("application/json")
  }

  /** The part for one body entry (`_filePart` or `_formPart` with `_partHeader`). A JSON
      `FormPart` fails when `JSON.stringify` of its value throws, and a plain value when
      `formPart + CRLF` throws because it has no string form. */
  function Describe<V>(js: Runtime<V>, pf: Platform, key: string, e: Entry<V>): (r: Result<PartSpec, string>)
    ensures r.Failure? <==> (e.Part? && IsJsonPart(e.part) && js.stringify(e.part.value).Failure?)
                            || (e.Value? && js.show(e.value).Failure?)
  {
    match e
    case File(path, contents) =>
      var f := pf.basename(path);
      if f != "" then Success(PartSpec(key, Some(f), [("Content-Type", MimeType(pf.extname(f)))], contents + Utf8.Encode(CRLF)))
      else Success(PartSpec(key, None, [], contents + Utf8.Encode(CRLF)))
    case Part(fp) =>
      if IsJsonPart(fp) then
        var text :- js.stringify(fp.value);
        Success(PartSpec(key, Some(key + ".json"), fp.headers, Utf8.Encode(text + CRLF)))
      else Success(PartSpec(key, None, fp.headers, Utf8.Encode(ObjectText + CRLF)))
    case Value(v) =>
      var text :- js.show(v);
      Success(PartSpec(key, None, [], Utf8.Encode(text + CRLF)))
  }

  /** `Describe` as the describer the part lists are built with. */
  function PartOf<V>(js: Runtime<V>, pf: Platform): Describer<V>
  {
    (key, e) => Describe(js, pf, key, e)
  }

  /** A JSON `FormPart` is named `<key>.json`, keeps its own headers and carries the JSON
      text of its value; when that text cannot be produced, the error is `JSON.stringify`'s. */
  lemma DescribeJsonPart<V>(js: Runtime<V>, pf: Platform, key: string, fp: FormPart<V>)
    requires IsJsonPart(fp)
    ensures js.stringify(fp.value).Failure?
            ==> Describe(js, pf, key, Part(fp)) == Failure(js.stringify(fp.value).error)
    ensures js.stringify(fp.value).Success?
            ==> Describe(js, pf, key, Part(fp))
                == Success(PartSpec(key, Some(key + ".json"), fp.headers,
                                    Utf8.Encode(js.stringify(fp.value).value + CRLF)))
  {
  }

  /** Any other `FormPart` keeps its headers but is sent as "[object Object]"; a plain value
      is sent as its string form, without extra headers, and fails when it has none. */
  lemma DescribeOtherValues<V>(js: Runtime<V>, pf: Platform, key: string, e: Entry<V>)
    ensures e.Part? && !IsJsonPart(e.part)
            ==> Describe(js, pf, key, e)
                == Success(PartSpec(key, None, e.part.headers, Utf8.Encode(ObjectText + CRLF)))
    ensures e.Value? && js.show(e.value).Success?
            ==> Describe(js, pf, key, e) == Success(PartSpec(key, None, [], Utf8.Encode(js.show(e.value).value + CRLF)))
    ensures e.Value? && js.show(e.value).Failure?
            ==> Describe(js, pf, key, e) == Failure(js.show(e.value).error)
  {
  }

  /** A file part carries the file bytes and CRLF; it gets the filename and Content-Type
      lines only when its basename is non-empty. */
  lemma DescribeFile<V>(js: Runtime<V>, pf: Platform, key: string, path: string, contents: seq<Utf8.byte>)
    ensures var f := pf.basename(path);
            Describe(js, pf, key, File(path, contents))
            == if f != "" then Success(PartSpec(key, Some(f), [("Content-Type", MimeType(pf.extname(f)))],
                                                contents + Utf8.Encode(CRLF)))
               else Success(PartSpec(key, None, [], contents + Utf8.Encode(CRLF)))
  {
  }

  /** The header text of a JSON `FormPart`: the filename `<key>.json`, then its own header
      lines in key order. */
  lemma JsonPartHeaderText<V>(js: Runtime<V>, pf: Platform, b: string, key: string, fp: FormPart<V>)
    requires IsJsonPart(fp) && js.stringify(fp.value).Success?
    ensures HeaderText(b, Describe(js, pf, key, Part(fp)).value)
            == "--" + b + CRLF + "Content-Disposition: form-data; name=\"" + key + "\"; filename=\"" + key + ".json\""
               + FieldLines(fp.headers) + CRLF + CRLF
  {
    DescribeJsonPart(js, pf, key, fp);
    JsonHeaderTextWith(b, Describe(js, pf, key, Part(fp)).value);
  }

  /** A JSON `FormPart` whose only header is its content type: that header is written with
      its lower-cased name. */
  lemma JsonOnlyHeaderText<V>(js: Runtime<V>, pf: Platform, b: string, key: string, v: V)
    requires js.stringify(v).Success?
    ensures var fp := FormPart(v, [("content-type", "application/json")]);
            HeaderText(b, Describe(js, pf, key, Part(fp)).value)
            == "--" + b + CRLF + "Content-Disposition: form-data; name=\"" + key + "\"; filename=\"" + key + ".json\""
               + CRLF + "content-type: " + "application/json" + CRLF + CRLF
  {
    var fp := FormPart(v, [("content-type", "application/json")]);
    assert IsJsonPart(fp);
    DescribeJsonPart(js, pf, key, fp);
    JsonOnlyHeaderTextWith(b, Describe(js, pf, key, Part(fp)).value, "application/json");
  }

  /** The header text of a file with a non-empty basename: the filename parameter, then a
      Content-Type line from this codec's table. */
  lemma FileHeaderText<V>(js: Runtime<V>, pf: Platform, b: string, key: string, path: string,
                          contents: seq<Utf8.byte>)
    requires pf.basename(path) != ""
    ensures var f := pf.basename(path);
            HeaderText(b, Describe(js, pf, key, File(path, contents)).value)
            == "--" + b + CRLF + "Content-Disposition: form-data; name=\"" + key + "\"; filename=\"" + f + "\""
               + CRLF + "Content-Type: " + MimeType(pf.extname(f)) + CRLF + CRLF
  {
    FileHeaderTextWith(b, Describe(js, pf, key, File(path, contents)).value, MimeType(pf.extname(pf.basename(path))));
  }

  /** Any other `FormPart` has no filename but writes its own header lines; a plain value
      writes the disposition alone. */
  lemma OtherHeaderText<V>(js: Runtime<V>, pf: Platform, b: string, key: string, e: Entry<V>)
    requires e.Value? || (e.Part? && !IsJsonPart(e.part))
    ensures e.Part?
            ==> HeaderText(b, Describe(js, pf, key, e).value)
                == "--" + b + CRLF + "Content-Disposition: form-data; name=\"" + key + "\"" + FieldLines(e.part.headers)
                   + CRLF + CRLF
    ensures e.Value? && js.show(e.value).Success?
            ==> HeaderText(b, Describe(js, pf, key, e).value)
                == "--" + b + CRLF + "Content-Disposition: form-data; name=\"" + key + "\"" + CRLF + CRLF
  {
    if Describe(js, pf, key, e).Success? {
      var p := Describe(js, pf, key, e).value;
      HeaderTextWithoutFilename(b, p);
      if e.Value? {
        assert FieldLines(p.fields) == "";
        var x := "--" + b + CRLF + "Content-Disposition: form-data; name=\"" + key + "\"";
        assert x + "" == x;
      }
    }
  }

  /** The entries that are not files, in order. */
  function Values<V>(body: Entries<Entry<V>>): (r: Entries<Entry<V>>)
    ensures forall i :: 0 <= i < |r| ==> !r[i].1.File?
    ensures |r| <= |body|
  {
    if body == [] then []
    else Values(body[..|body| - 1]) + (if body[|body| - 1].1.File? then [] else [body[|body| - 1]])
  }

  /** The file entries, in order. */
  function Files<V>(body: Entries<Entry<V>>): (r: Entries<Entry<V>>)
    ensures forall i :: 0 <= i < |r| ==> r[i].1.File?
    ensures |r| <= |body|
  {
    if body == [] then []
    else Files(body[..|body| - 1]) + (if body[|body| - 1].1.File? then [body[|body| - 1]] else [])
  }

  /** The order in which the parts are sent. */
  function SendOrder<V>(body: Entries<Entry<V>>): Entries<Entry<V>>
  {
    Values(body) + Files(body)
  }

  lemma {:induction false} ValuesAppend<V>(a: Entries<Entry<V>>, c: Entries<Entry<V>>)
    ensures Values(a + c) == Values(a) + Values(c)
    decreases |c|
  {
    if c == [] {
      assert a + c == a;
    } else {
      assert (a + c)[..|a + c| - 1] == a + c[..|c| - 1];
      ValuesAppend(a, c[..|c| - 1]);
    }
  }

  lemma {:induction false} FilesAppend<V>(a: Entries<Entry<V>>, c: Entries<Entry<V>>)
    ensures Files(a + c) == Files(a) + Files(c)
    decreases |c|
  {
    if c == [] {
      assert a + c == a;
    } else {
      assert (a + c)[..|a + c| - 1] == a + c[..|c| - 1];
      FilesAppend(a, c[..|c| - 1]);
    }
  }

  /** A sequence holding only values is its own value group and has no files. */
  lemma {:induction false} ValuesOnly<V>(s: Entries<Entry<V>>)
    requires forall i :: 0 <= i < |s| ==> !s[i].1.File?
    ensures Values(s) == s && Files(s) == []
  {
    if s != [] {
      var init, last := s[..|s| - 1], s[|s| - 1];
      assert forall i :: 0 <= i < |init| ==> !init[i].1.File? by {
        forall i | 0 <= i < |init| ensures !init[i].1.File? { assert init[i] == s[i]; }
      }
      ValuesOnly(init);
      assert Values(s) == Values(init) + [last] && Files(s) == Files(init);
      assert init + [last] == s;
    }
  }

  /** A sequence holding only files is its own file group and has no values. */
  lemma {:induction false} FilesOnly<V>(s: Entries<Entry<V>>)
    requires forall i :: 0 <= i < |s| ==> s[i].1.File?
    ensures Files(s) == s && Values(s) == []
  {
    if s != [] {
      var init, last := s[..|s| - 1], s[|s| - 1];
      assert forall i :: 0 <= i < |init| ==> init[i].1.File? by {
        forall i | 0 <= i < |init| ensures init[i].1.File? { assert init[i] == s[i]; }
      }
      FilesOnly(init);
      assert Files(s) == Files(init) + [last] && Values(s) == Values(init);
      assert init + [last] == s;
    }
  }

  /** The values all come before the files. */
  lemma ValuesBeforeFiles<V>(body: Entries<Entry<V>>, i: nat, j: nat)
    requires i < j < |SendOrder(body)|
    requires SendOrder(body)[i].1.File?
    ensures SendOrder(body)[j].1.File?
  {
    assert i >= |Values(body)|;
  }

  /** Each group keeps body key order: filtering the send order gives back the same groups. */
  lemma SendOrderStable<V>(body: Entries<Entry<V>>)
    ensures Values(SendOrder(body)) == Values(body)
    ensures Files(SendOrder(body)) == Files(body)
  {
    ValuesAppend(Values(body), Files(body));
    FilesAppend(Values(body), Files(body));
    ValuesOnly(Values(body));
    FilesOnly(Files(body));
  }

  /** The send order is a permutation of the body. */
  lemma {:induction false} SendOrderPermutes<V>(body: Entries<Entry<V>>)
    ensures multiset(SendOrder(body)) == multiset(body)
  {
    if body != [] {
      var init, last := body[..|body| - 1], body[|body| - 1];
      SendOrderPermutes(init);
      assert init + [last] == body;
    }
  }

  /** A body already listing its values first is sent as it is. */
  lemma SendOrderKeepsOrdered<V>(vs: Entries<Entry<V>>, fs: Entries<Entry<V>>)
    requires forall i :: 0 <= i < |vs| ==> !vs[i].1.File?
    requires forall i :: 0 <= i < |fs| ==> fs[i].1.File?
    ensures SendOrder(vs + fs) == vs + fs
  {
    ValuesAppend(vs, fs);
    FilesAppend(vs, fs);
    ValuesOnly(vs);
    FilesOnly(fs);
    assert Values(vs + fs) == vs + [] == vs;
    assert Files(vs + fs) == [] + fs == fs;
  }

  /** File parts never fail. */
  lemma FilesSucceed<V>(js: Runtime<V>, pf: Platform, body: Entries<Entry<V>>)
    ensures DescribeAll(PartOf(js, pf), Files(body)).Success?
  {
    DescribeAllSucceeds(PartOf(js, pf), Files(body));
  }

  /** The parts in send order, or the first error in body key order. */
  function SentParts<V>(js: Runtime<V>, pf: Platform, body: Entries<Entry<V>>): Result<seq<PartSpec>, string>
  {
    var vs :- DescribeAll(PartOf(js, pf), Values(body));
    var fs :- DescribeAll(PartOf(js, pf), Files(body));
    Success(vs + fs)
  }

  /** `request.headers['Content-Type'] = 'multipart/form-data; boundary=' + b`: set whatever
      the prior value, nothing else changes. */
  function SetContentType(headers: Headers, b: string): (out: Headers)
    ensures Get(out, "Content-Type") == Some("multipart/form-data; boundary=" + b)
    ensures forall k :: k != "Content-Type" ==> Get(out, k) == Get(headers, k)
    ensures Keys(out) == if "Content-Type" in Keys(headers) then Keys(headers)
                         else Keys(headers) + ["Content-Type"]
  {
    var v := "multipart/form-data; boundary=" + b;
    var out := Set(headers, "Content-Type", v);
    forall k | k != "Content-Type"
      ensures Get(out, k) == Get(headers, k)
    {
      GetSetOther(headers, "Content-Type", v, k);
    }
    KeysSet(headers, "Content-Type", v);
    out
  }

  /** `encode(request)`, given the request's headers and body (`None` for `undefined` or
      `null`) and the clock reading. Without headers the assignment to `Content-Type` throws. The
      Content-Type is set before the body is read, so it is changed when `Object.keys` throws
      on a missing body, and when a part fails, too. */
  method Encode<V>(js: Runtime<V>, pf: Platform, headers: Option<Headers>, body: Option<Entries<Entry<V>>>, now: nat)
    returns (out: Option<Headers>, r: Result<seq<Utf8.byte>, string>)
    ensures headers.None? ==> out.None? && r == Failure(WriteOfNothing("Content-Type"))
    ensures headers.Some? ==> out == Some(SetContentType(headers.value, Boundary(now)))
    ensures headers.Some? && body.None? ==> r == Failure(KeysOfNothing)
    ensures headers.Some? && body.Some? ==> (r.Success? <==> SentParts(js, pf, body.value).Success?)
    ensures headers.Some? && body.Some? && r.Success?
            ==> r.value == Body(Boundary(now), SentParts(js, pf, body.value).value)
    ensures headers.Some? && body.Some? && r.Failure? ==> r.error == SentParts(js, pf, body.value).error
  {
    if headers.None? {
      return None, Failure(WriteOfNothing("Content-Type"));
    }
    var b := Boundary(now);
    out := Some(SetContentType(headers.value, b));
    if body.None? {
      return out, Failure(KeysOfNothing);
    }
    r := EncodeParts(js, pf, body.value, b);
  }

  /** The loop of `encode`: the value parts and the file parts, then the close delimiter. */
  method EncodeParts<V>(js: Runtime<V>, pf: Platform, body: Entries<Entry<V>>, b: string)
    returns (r: Result<seq<Utf8.byte>, string>)
    ensures r.Success? <==> SentParts(js, pf, body).Success?
    ensures r.Success? ==> r.value == Body(b, SentParts(js, pf, body).value)
    ensures r.Failure? ==> r.error == SentParts(js, pf, body).error
  {
    var valueBuffers: seq<seq<Utf8.byte>> := [];
    var fileBuffers: seq<seq<Utf8.byte>> := [];
    ghost var vs: seq<PartSpec> := [];
    ghost var fs: seq<PartSpec> := [];
    for i := 0 to |body|
      invariant DescribeAll(PartOf(js, pf), Values(body[..i])) == Success(vs)
      invariant DescribeAll(PartOf(js, pf), Files(body[..i])) == Success(fs)
      invariant valueBuffers == Rendered(b, vs)
      invariant fileBuffers == Rendered(b, fs)
    {
      var key, val := body[i].0, body[i].1;
      var p := Describe(js, pf, key, val);
      if p.Failure? {
        StepFails(js, pf, body, i);
        r := Failure(p.error);
        return;
      }
      LoopStep(js, pf, body, i, vs, fs);
      if val.File? {
        RenderedSnoc(b, fs, p.value);
        fileBuffers := fileBuffers + [Render(b, p.value)];
        fs := fs + [p.value];
      } else {
        RenderedSnoc(b, vs, p.value);
        valueBuffers := valueBuffers + [Render(b, p.value)];
        vs := vs + [p.value];
      }
    }
    assert body[..|body|] == body;
    RenderedSplit(b, vs, fs);
    var buffers := valueBuffers + fileBuffers;
    buffers := buffers + [Utf8.Encode("--" + b + "--"), Utf8.Encode(CRLF), Utf8.Encode(CRLF)];
    r := Success(Utf8.Concat(buffers));
  }

  /** Extending the body by one entry extends exactly one of the two groups. */
  lemma FilterSnoc<V>(body: Entries<Entry<V>>, i: nat)
    requires i < |body|
    ensures Values(body[..i + 1]) == Values(body[..i]) + (if body[i].1.File? then [] else [body[i]])
    ensures Files(body[..i + 1]) == Files(body[..i]) + (if body[i].1.File? then [body[i]] else [])
  {
    assert body[..i + 1][..i] == body[..i];
  }

  /** One step of `encode`'s loop: the entry's part joins its own group. */
  lemma LoopStep<V>(js: Runtime<V>, pf: Platform, body: Entries<Entry<V>>, i: nat, vs: seq<PartSpec>, fs: seq<PartSpec>)
    requires i < |body| && Describe(js, pf, body[i].0, body[i].1).Success?
    requires DescribeAll(PartOf(js, pf), Values(body[..i])) == Success(vs)
    requires DescribeAll(PartOf(js, pf), Files(body[..i])) == Success(fs)
    ensures var p := Describe(js, pf, body[i].0, body[i].1).value;
            if body[i].1.File? then
              DescribeAll(PartOf(js, pf), Values(body[..i + 1])) == Success(vs)
              && DescribeAll(PartOf(js, pf), Files(body[..i + 1])) == Success(fs + [p])
            else
              DescribeAll(PartOf(js, pf), Values(body[..i + 1])) == Success(vs + [p])
              && DescribeAll(PartOf(js, pf), Files(body[..i + 1])) == Success(fs)
  {
    FilterSnoc(body, i);
    if body[i].1.File? {
      assert Values(body[..i + 1]) == Values(body[..i]);
      DescribeAllSnoc(PartOf(js, pf), Files(body[..i]), body[i]);
    } else {
      assert Files(body[..i + 1]) == Files(body[..i]);
      DescribeAllSnoc(PartOf(js, pf), Values(body[..i]), body[i]);
    }
  }

  /** A failing entry ends `encode` with its error, as `SentParts` reports it. */
  lemma StepFails<V>(js: Runtime<V>, pf: Platform, body: Entries<Entry<V>>, i: nat)
    requires i < |body| && Describe(js, pf, body[i].0, body[i].1).Failure?
    requires DescribeAll(PartOf(js, pf), Values(body[..i])).Success?
    ensures SentParts(js, pf, body) == Failure(Describe(js, pf, body[i].0, body[i].1).error)
  {
    FilterSnoc(body, i);
    DescribeAllSnoc(PartOf(js, pf), Values(body[..i]), body[i]);
    PrefixFailure(js, pf, body, i + 1);
  }

  /** A failure among the values of a prefix is the failure of the whole body. */
  lemma PrefixFailure<V>(js: Runtime<V>, pf: Platform, body: Entries<Entry<V>>, n: nat)
    requires n <= |body| && DescribeAll(PartOf(js, pf), Values(body[..n])).Failure?
    ensures SentParts(js, pf, body) == Failure(DescribeAll(PartOf(js, pf), Values(body[..n])).error)
  {
    var pre, post := body[..n], body[n..];
    var d := PartOf(js, pf);
    var vs, vpre, vpost := Values(body), Values(pre), Values(post);
    calc {
      vs;
      { assert pre + post == body; }
      Values(pre + post);
      { ValuesAppend(pre, post); }
      vpre + vpost;
    }
    DescribeAllAppend(d, vpre, vpost);
    assert DescribeAll(d, vs) == DescribeAll(d, vpre);
  }

  /** When every JSON value serialises, the body holds exactly the parts of the send order. */
  lemma SentPartsFollowSendOrder<V>(js: Runtime<V>, pf: Platform, body: Entries<Entry<V>>)
    requires SentParts(js, pf, body).Success?
    ensures |SentParts(js, pf, body).value| == |SendOrder(body)|
    ensures forall i :: 0 <= i < |SendOrder(body)|
              ==> Describe(js, pf, SendOrder(body)[i].0, SendOrder(body)[i].1)
                  == Success(SentParts(js, pf, body).value[i])
  {
    var vs, fs := DescribeAll(PartOf(js, pf), Values(body)).value, DescribeAll(PartOf(js, pf), Files(body)).value;
    var order := SendOrder(body);
    forall i | 0 <= i < |order|
      ensures Describe(js, pf, order[i].0, order[i].1) == Success((vs + fs)[i])
    {
      if i < |Values(body)| {
        assert order[i] == Values(body)[i];
      } else {
        assert order[i] == Files(body)[i - |Values(body)|];
      }
    }
  }

  /** `contentType()`: `/^multipart\/related/`. */
  function Matches(ct: string): (r: bool)
    ensures r <==> |ct| >= 17 && ct[..17] == "multipart/related"
  {
    StartsWith(ct, "multipart/related")
  }

  /** Every type this matcher accepts, the `Multipart` matcher accepts too; but the
      Content-Type that `encode` writes is not accepted here. */
  lemma MatchesNarrower(ct: string, now: nat)
    ensures Matches(ct) ==> Multipart.Matches(ct)
    ensures !Matches("multipart/form-data; boundary=" + Boundary(now))
  {
    if Matches(ct) {
      assert ct[..10] == ct[..17][..10];
    }
    var w := "multipart/form-data; boundary=" + Boundary(now);
    assert w[10] == 'f';
  }

  /** `decode()` always throws. */
  function Decode<V>(body: string): (r: Result<V, string>)
    ensures r.Failure? && r.error == DecodeError
  {
    Failure(DecodeError)
  }
}

=== FILE: multipart_wire.dfy ===
/** The multipart/form-data body layout both multipart codecs produce (section 5.1 of RFC 2046,
    with the form-data dispositions of RFC 7578). A part is first described without the
    boundary (`PartSpec`); rendering puts the dash-boundary line, the disposition, the extra
    header lines, an empty line and the content together, and the body ends with the close
    delimiter followed by two CRLFs. */
module MultipartWire {
  import opened Outcomes
  import opened Strings
  import opened Utf8
  import opened Decimal
  import opened Js

  /** A `FormPart`: a value with its own part headers (keys already lower-cased by the
      constructor). */
  datatype FormPart<+V> = FormPart(value: V, headers: Headers)

  /** A value of the request body: an `fs.ReadStream` (its path, and the bytes
      `fs.readFileSync` returns for it), a `FormPart`, or any other value. */
  datatype Entry<+V> = File(path: string, contents: seq<byte>) | Part(part: FormPart<V>) | Value(value: V)

  /** One part, before the boundary is known. */
  datatype PartSpec = PartSpec(
    name: string,                    // the disposition's `name` parameter: the body key
    filename: Option<string>,        // the disposition's `filename` parameter, if any
    fields: seq<(string, string)>,   // further header lines `name: value`, in order
    content: seq<byte>)              // everything after the empty line, trailing CRLF included

  /** `'boundary' + Date.now()`. */
  function Boundary(now: nat): (b: string)
    ensures StartsWith(b, "boundary")
    ensures AllDigits(b[8..]) && |b| > 8
  {
    "boundary" + Show(now)
  }

  /** Encodings made at different milliseconds use different boundaries. */
  lemma BoundaryDistinct(m: nat, n: nat)
    requires m != n
    ensures Boundary(m) != Boundary(n)
  {
    assert Boundary(m)[8..] == Show(m) && Boundary(n)[8..] == Show(n);
    ShowInjective(m, n);
  }

  /** `Content-Disposition: form-data; name="<name>"`, then `; filename="<f>"` if given. */
  function Disposition(p: PartSpec): (r: string)
    ensures StartsWith(r, "Content-Disposition: form-data; name=\"" + p.name + "\"")
  {
    var base := "Content-Disposition: form-data; name=\"" + p.name + "\"";
    match p.filename
    case None => base
    case Some(f) => base + "; filename=\"" + f + "\""
  }

  /** With a filename, the disposition ends with the `filename` parameter. */
  lemma FilenameDisposition(p: PartSpec)
    requires p.filename.Some?
    ensures Disposition(p)
            == "Content-Disposition: form-data; name=\"" + p.name + "\"; filename=\"" + p.filename.value + "\""
  {
    var lead, f := "Content-Disposition: form-data; name=\"", p.filename.value;
    assert "\"" + "; filename=\"" == "\"; filename=\"";
    assert Disposition(p) == lead + p.name + ("\"" + "; filename=\"") + f + "\"";
  }

  /** Each extra header as CRLF + `name: value`. */
  function FieldLines(fields: seq<(string, string)>): string
  {
    if fields == [] then ""
    else FieldLines(fields[..|fields| - 1]) + CRLF + fields[|fields| - 1].0 + ": " + fields[|fields| - 1].1
  }

  /** One header line is CRLF, the name, `: ` and the value. */
  lemma FieldLine(f: (string, string))
    ensures FieldLines([f]) == CRLF + f.0 + ": " + f.1
  {
    assert [f][..0] == [];
  }

  /** The header lines keep the order of the headers: the lines of a concatenation are the
      lines of its halves, one after the other. */
  lemma {:induction false} FieldLinesAppend(a: seq<(string, string)>, c: seq<(string, string)>)
    ensures FieldLines(a + c) == FieldLines(a) + FieldLines(c)
    decreases |c|
  {
    if c == [] {
      assert a + c == a;
    } else {
      var init := c[..|c| - 1];
      assert (a + c)[..|a + c| - 1] == a + init;
      assert (a + c)[|a + c| - 1] == c[|c| - 1];
      FieldLinesAppend(a, init);
    }
  }

  /** The text before a part's content: the dash-boundary line, the disposition, the extra
      header lines and an empty line. */
  function HeaderText(b: string, p: PartSpec): (r: string)
    ensures StartsWith(r, "--" + b + CRLF)
    ensures |r| >= 4 && r[|r| - 4..] == CRLF + CRLF
  {
    var rest := Disposition(p) + FieldLines(p.fields) + CRLF + CRLF;
    var r := "--" + b + CRLF + Disposition(p) + FieldLines(p.fields) + CRLF + CRLF;
    assert r == ("--" + b + CRLF) + rest;
    StartsWithConcat("--" + b + CRLF, rest);
    assert r[|r| - 4..] == CRLF + CRLF;
    r
  }

  /** The header text of a part with a filename, spelled out. */
  lemma HeaderTextWithFilename(b: string, p: PartSpec)
    requires p.filename.Some?
    ensures HeaderText(b, p)
            == "--" + b + CRLF + "Content-Disposition: form-data; name=\"" + p.name + "\"; filename=\""
               + p.filename.value + "\"" + FieldLines(p.fields) + CRLF + CRLF
  {
    FilenameDisposition(p);
    var x, lead, q, f := "--" + b + CRLF, "Content-Disposition: form-data; name=\"", "\"; filename=\"", p.filename.value;
    AppendAssoc(x, lead + p.name + q + f, "\"");
    AppendAssoc(x, lead + p.name + q, f);
    AppendAssoc(x, lead + p.name, q);
    AppendAssoc(x, lead, p.name);
  }

  /** The header text of a part without a filename, spelled out. */
  lemma HeaderTextWithoutFilename(b: string, p: PartSpec)
    requires p.filename.None?
    ensures HeaderText(b, p)
            == "--" + b + CRLF + "Content-Disposition: form-data; name=\"" + p.name + "\"" + FieldLines(p.fields)
               + CRLF + CRLF
  {
    var x, lead := "--" + b + CRLF, "Content-Disposition: form-data; name=\"";
    AppendAssoc(x, lead + p.name, "\"");
    AppendAssoc(x, lead, p.name);
  }

  /** The header text of a file part: its filename, then one Content-Type line. */
  lemma FileHeaderTextWith(b: string, p: PartSpec, t: string)
    requires p.filename.Some? && p.fields == [("Content-Type", t)]
    ensures HeaderText(b, p)
            == "--" + b + CRLF + "Content-Disposition: form-data; name=\"" + p.name + "\"; filename=\""
               + p.filename.value + "\"" + CRLF + "Content-Type: " + t + CRLF + CRLF
  {
    HeaderTextWithFilename(b, p);
    FieldLine(("Content-Type", t));
    var y := "--" + b + CRLF + "Content-Disposition: form-data; name=\"" + p.name + "\"; filename=\""
             + p.filename.value + "\"";
    assert "Content-Type" + ": " == "Content-Type: ";
    AppendAssoc(CRLF, "Content-Type", ": ");
    AppendAssoc(y, CRLF + "Content-Type: ", t);
    AppendAssoc(y, CRLF, "Content-Type: ");
  }

  /** The header text of a part whose filename is its name with `.json` appended. */
  lemma JsonHeaderTextWith(b: string, p: PartSpec)
    requires p.filename == Some(p.name + ".json")
    ensures HeaderText(b, p)
            == "--" + b + CRLF + "Content-Disposition: form-data; name=\"" + p.name + "\"; filename=\"" + p.name
               + ".json\"" + FieldLines(p.fields) + CRLF + CRLF
  {
    HeaderTextWithFilename(b, p);
    var z := "--" + b + CRLF + "Content-Disposition: form-data; name=\"" + p.name + "\"; filename=\"";
    assert ".json" + "\"" == ".json\"";
    AppendAssoc(z, p.name, ".json");
    AppendAssoc(z + p.name, ".json", "\"");
  }

  /** The same part with the single header line `content-type: <t>`. */
  lemma JsonOnlyHeaderTextWith(b: string, p: PartSpec, t: string)
    requires p.filename == Some(p.name + ".json") && p.fields == [("content-type", t)]
    ensures HeaderText(b, p)
            == "--" + b + CRLF + "Content-Disposition: form-data; name=\"" + p.name + "\"; filename=\"" + p.name
               + ".json\"" + CRLF + "content-type: " + t + CRLF + CRLF
  {
    JsonHeaderTextWith(b, p);
    FieldLine(("content-type", t));
    var y := "--" + b + CRLF + "Content-Disposition: form-data; name=\"" + p.name + "\"; filename=\"" + p.name
             + ".json\"";
    assert "content-type" + ": " == "content-type: ";
    AppendAssoc(CRLF, "content-type", ": ");
    AppendAssoc(y, CRLF + "content-type: ", t);
    AppendAssoc(y, CRLF, "content-type: ");
  }

  /** After the dash-boundary line comes the disposition naming the part. */
  lemma HeaderNamesPart(b: string, p: PartSpec)
    ensures StartsWith(HeaderText(b, p)[|b| + 4..], "Content-Disposition: form-data; name=\"" + p.name + "\"")
  {
    var d := "Content-Disposition: form-data; name=\"" + p.name + "\"";
    var x := Disposition(p)[|d|..];
    var tail := FieldLines(p.fields) + CRLF + CRLF;
    var lead := "--" + b + CRLF;
    assert Disposition(p) == d + x;
    assert HeaderText(b, p) == lead + (d + (x + tail));
    DropPrefix(lead, d + (x + tail));
    StartsWithConcat(d, x + tail);
  }

  /** A part's bytes: `Buffer.from(header)` followed by its content. */
  function Render(b: string, p: PartSpec): seq<byte>
  {
    Encode(HeaderText(b, p)) + p.content
  }

  /** The buffers pushed for the parts, in order. */
  function Rendered(b: string, ps: seq<PartSpec>): (r: seq<seq<byte>>)
    ensures |r| == |ps|
    ensures forall i :: 0 <= i < |ps| ==> r[i] == Render(b, ps[i])
  {
    seq(|ps|, i requires 0 <= i < |ps| => Render(b, ps[i]))
  }

  /** The close delimiter and the two CRLFs that end every body. */
  function CloseDelimiter(b: string): string
  {
    "--" + b + "--" + CRLF + CRLF
  }

  /** The whole body: the parts' buffers, then `--<b>--`, CRLF and CRLF pushed separately,
      all concatenated. */
  function Body(b: string, ps: seq<PartSpec>): seq<byte>
  {
    Concat(Rendered(b, ps) + [Encode("--" + b + "--"), Encode(CRLF), Encode(CRLF)])
  }

  /** The body is the parts in order followed by the close delimiter text. */
  lemma BodyLayout(b: string, ps: seq<PartSpec>)
    ensures Body(b, ps) == Concat(Rendered(b, ps)) + Encode(CloseDelimiter(b))
  {
    var tail := [Encode("--" + b + "--"), Encode(CRLF), Encode(CRLF)];
    ConcatAppend(Rendered(b, ps), tail);
    ConcatThree(Encode("--" + b + "--"), Encode(CRLF), Encode(CRLF));
    EncodeAppend("--" + b + "--", CRLF);
    EncodeAppend("--" + b + "--" + CRLF, CRLF);
  }

  /** Rendering distributes over concatenation of part lists. */
  lemma RenderedSplit(b: string, ps: seq<PartSpec>, qs: seq<PartSpec>)
    ensures Rendered(b, ps + qs) == Rendered(b, ps) + Rendered(b, qs)
  {
    var l, r := Rendered(b, ps + qs), Rendered(b, ps) + Rendered(b, qs);
    assert |l| == |r|;
    forall i | 0 <= i < |l|
      ensures l[i] == r[i]
    {
      if i < |ps| {
        assert (ps + qs)[i] == ps[i];
      } else {
        assert (ps + qs)[i] == qs[i - |ps|];
      }
    }
    assert l == r;
  }

  lemma RenderedSnoc(b: string, ps: seq<PartSpec>, p: PartSpec)
    ensures Rendered(b, ps + [p]) == Rendered(b, ps) + [Render(b, p)]
  {
    RenderedSplit(b, ps, [p]);
  }

  /** Parts render independently: rendering a concatenation of part lists concatenates
      their renderings. */
  lemma RenderedAppend(b: string, ps: seq<PartSpec>, qs: seq<PartSpec>)
    ensures Concat(Rendered(b, ps + qs)) == Concat(Rendered(b, ps)) + Concat(Rendered(b, qs))
  {
    RenderedSplit(b, ps, qs);
    ConcatAppend(Rendered(b, ps), Rendered(b, qs));
  }

  /** A body without parts is the close delimiter alone. */
  lemma EmptyBody(b: string)
    ensures Body(b, []) == Encode(CloseDelimiter(b))
  {
    BodyLayout(b, []);
    assert Rendered(b, []) == [];
  }

  /** A body with parts starts with the first part, hence with its dash-boundary line. */
  lemma BodyStartsWithFirstPart(b: string, ps: seq<PartSpec>)
    requires ps != []
    ensures Body(b, ps) == Render(b, ps[0]) + Concat(Rendered(b, ps[1..])) + Encode(CloseDelimiter(b))
  {
    var head, rest := [ps[0]], ps[1..];
    assert head + rest == ps;
    BodyLayout(b, ps);
    RenderedAppend(b, head, rest);
    RenderedSingle(b, ps[0]);
    var x, y, z := Render(b, ps[0]), Concat(Rendered(b, rest)), Encode(CloseDelimiter(b));
    assert Concat(Rendered(b, ps)) == x + y;
    assert Body(b, ps) == (x + y) + z;
  }

  lemma RenderedSingle(b: string, p: PartSpec)
    ensures Concat(Rendered(b, [p])) == Render(b, p)
  {
    var one := Rendered(b, [p]);
    assert one[..0] == [];
  }

  /** A body ends with the close delimiter. */
  lemma BodyEndsWithClose(b: string, ps: seq<PartSpec>)
    ensures |Body(b, ps)| >= |Encode(CloseDelimiter(b))|
    ensures Body(b, ps)[|Body(b, ps)| - |Encode(CloseDelimiter(b))|..] == Encode(CloseDelimiter(b))
  {
    BodyLayout(b, ps);
  }

  /** How a codec describes one body entry, failing where `_formPart` throws. */
  type Describer<!V> = (string, Entry<V>) -> Result<PartSpec, string>

  /** The entries described in order, stopping at the first failure, as `encode`'s loop
      stops at the first throw. */
  function DescribeAll<V>(describe: Describer<V>, es: seq<(string, Entry<V>)>): (r: Result<seq<PartSpec>, string>)
    ensures r.Success? ==> |r.value| == |es|
    ensures r.Success? ==> forall i :: 0 <= i < |es| ==> describe(es[i].0, es[i].1) == Success(r.value[i])
  {
    if es == [] then Success([])
    else
      var init :- DescribeAll(describe, es[..|es| - 1]);
      var p :- describe(es[|es| - 1].0, es[|es| - 1].1);
      Success(init + [p])
  }

  /** When no entry fails, neither does the whole. */
  lemma {:induction false} DescribeAllSucceeds<V>(describe: Describer<V>, es: seq<(string, Entry<V>)>)
    requires forall i :: 0 <= i < |es| ==> describe(es[i].0, es[i].1).Success?
    ensures DescribeAll(describe, es).Success?
  {
    if es != [] {
      var init := es[..|es| - 1];
      assert forall j :: 0 <= j < |init| ==> init[j] == es[j];
      DescribeAllSucceeds(describe, init);
    }
  }

  /** The error reported is the one of the first entry that fails. */
  lemma {:induction false} DescribeAllFirstFailure<V>(describe: Describer<V>, es: seq<(string, Entry<V>)>, i: nat)
    requires i < |es| && describe(es[i].0, es[i].1).Failure?
    requires forall j :: 0 <= j < i ==> describe(es[j].0, es[j].1).Success?
    ensures DescribeAll(describe, es) == Failure(describe(es[i].0, es[i].1).error)
    decreases |es|
  {
    var init := es[..|es| - 1];
    if i < |es| - 1 {
      assert init[i] == es[i];
      assert forall j :: 0 <= j < i ==> init[j] == es[j];
      DescribeAllFirstFailure(describe, init, i);
    } else {
      assert forall j :: 0 <= j < |init| ==> init[j] == es[j];
      DescribeAllSucceeds(describe, init);
    }
  }

  /** Describing one more entry. */
  lemma DescribeAllSnoc<V>(describe: Describer<V>, es: seq<(string, Entry<V>)>, e: (string, Entry<V>))
    requires DescribeAll(describe, es).Success?
    ensures describe(e.0, e.1).Success?
            ==> DescribeAll(describe, es + [e]) == Success(DescribeAll(describe, es).value + [describe(e.0, e.1).value])
    ensures describe(e.0, e.1).Failure?
            ==> DescribeAll(describe, es + [e]) == Failure(describe(e.0, e.1).error)
  {
    assert (es + [e])[..|es|] == es;
  }

  /** Describing a list split in two: the first half's failure, else the second half's,
      else both halves' parts in order. */
  lemma {:induction false} DescribeAllAppend<V>(describe: Describer<V>, a: seq<(string, Entry<V>)>, c: seq<(string, Entry<V>)>)
    ensures DescribeAll(describe, a).Failure? ==> DescribeAll(describe, a + c) == DescribeAll(describe, a)
    ensures DescribeAll(describe, a).Success? && DescribeAll(describe, c).Failure?
            ==> DescribeAll(describe, a + c) == Failure(DescribeAll(describe, c).error)
    ensures DescribeAll(describe, a).Success? && DescribeAll(describe, c).Success?
            ==> DescribeAll(describe, a + c) == Success(DescribeAll(describe, a).value + DescribeAll(describe, c).value)
    decreases |c|
  {
    if c == [] {
      assert a + c == a;
      if DescribeAll(describe, a).Success? {
        assert DescribeAll(describe, a).value + [] == DescribeAll(describe, a).value;
      }
    } else {
      var init, last := c[..|c| - 1], c[|c| - 1];
      assert (a + c)[..|a + c| - 1] == a + init && (a + c)[|a + c| - 1] == last;
      DescribeAllAppend(describe, a, init);
      if DescribeAll(describe, a).Success? && DescribeAll(describe, init).Success? && describe(last.0, last.1).Success? {
        var pa, pi := DescribeAll(describe, a).value, DescribeAll(describe, init).value;
        assert pa + (pi + [describe(last.0, last.1).value]) == pa + pi + [describe(last.0, last.1).value];
      }
    }
  }
}

=== FILE: ordered_map.dfy ===
/** A JavaScript object used as a dictionary: string keys in insertion order, each at most
    once. Reading a property is `Get`, assigning one is `Set`, `Object.keys` is `Keys`. */
module OrderedMap {
  import opened Outcomes

  type Entries<V> = seq<(string, V)>

  function Keys<V>(m: Entries<V>): (ks: seq<string>)
    ensures |ks| == |m|
    ensures forall i :: 0 <= i < |m| ==> ks[i] == m[i].0
  {
    if m == [] then [] else [m[0].0] + Keys(m[1..])
  }

  /** No key occurs twice, as in any object. */
  predicate UniqueKeys<V>(m: Entries<V>) {
    forall i, j :: 0 <= i < j < |m| ==> m[i].0 != m[j].0
  }

  /** `obj[k]`: the value stored under `k`, or `None` for `undefined`. */
  function Get<V>(m: Entries<V>, k: string): (r: Option<V>)
    ensures r.None? <==> k !in Keys(m)
    ensures r.Some? ==> (k, r.value) in m
  {
    if m == [] then None
    else if m[0].0 == k then Some(m[0].1)
    else Get(m[1..], k)
  }

  /** With unique keys, the value read under a key is the one stored at its position. */
  lemma {:induction false} GetAt<V>(m: Entries<V>, i: nat)
    requires UniqueKeys(m) && i < |m|
    ensures Get(m, m[i].0) == Some(m[i].1)
    decreases i
  {
    if i > 0 {
      GetAt(m[1..], i - 1);
    }
  }

  /** `obj[k] = v`: overwrites in place when `k` is present, appends otherwise. */
  function Set<V>(m: Entries<V>, k: string, v: V): (r: Entries<V>)
    ensures Get(r, k) == Some(v)
  {
    if m == [] then [(k, v)]
    else if m[0].0 == k then [(k, v)] + m[1..]
    else
      var tail := Set(m[1..], k, v);
      assert ([m[0]] + tail)[1..] == tail;
      [m[0]] + tail
  }

  lemma KeysCons<V>(e: (string, V), m: Entries<V>)
    ensures Keys([e] + m) == [e.0] + Keys(m)
  {
    assert ([e] + m)[1..] == m;
  }

  /** Assigning an existing key keeps the key order; assigning a new key appends it. */
  lemma {:induction false} KeysSet<V>(m: Entries<V>, k: string, v: V)
    ensures Keys(Set(m, k, v)) == if k in Keys(m) then Keys(m) else Keys(m) + [k]
    decreases |m|
  {
    if m != [] {
      var tail := m[1..];
      KeysCons(m[0], tail);
      assert m == [m[0]] + tail;
      if m[0].0 == k {
        KeysCons((k, v), tail);
      } else {
        var ks := Keys(tail);
        assert k in Keys(m) <==> k in ks;
        calc {
          Keys(Set(m, k, v));
          { SetPastHead(m, k, v); }
          Keys([m[0]] + Set(tail, k, v));
          { KeysCons(m[0], Set(tail, k, v)); }
          [m[0].0] + Keys(Set(tail, k, v));
          { KeysSet(tail, k, v); }
          [m[0].0] + (if k in ks then ks else ks + [k]);
        }
        if k !in ks {
          assert [m[0].0] + (ks + [k]) == ([m[0].0] + ks) + [k];
        }
      }
    }
  }

  /** Assigning one key leaves every other key's value alone. */
  lemma {:induction false} GetSetOther<V>(m: Entries<V>, k: string, v: V, k': string)
    requires k' != k
    ensures Get(Set(m, k, v), k') == Get(m, k')
    decreases |m|
  {
    if m != [] && m[0].0 != k {
      GetSetOther(m[1..], k, v, k');
      assert ([m[0]] + Set(m[1..], k, v))[1..] == Set(m[1..], k, v);
    }
  }

  /** Assigning keeps keys unique. */
  lemma SetUnique<V>(m: Entries<V>, k: string, v: V)
    requires UniqueKeys(m)
    ensures UniqueKeys(Set(m, k, v))
  {
    var r := Set(m, k, v);
    KeysSet(m, k, v);
    if k in Keys(m) {
      UniqueKeysByKeys(m, r);
    } else {
      var ks := Keys(m);
      assert Keys(r) == ks + [k];
      forall i, j | 0 <= i < j < |r|
        ensures r[i].0 != r[j].0
      {
        assert r[i].0 == Keys(r)[i] == ks[i] == m[i].0;
        if j < |m| {
          assert r[j].0 == Keys(r)[j] == ks[j] == m[j].0;
        } else {
          assert r[j].0 == Keys(r)[j] == k && ks[i] in ks;
        }
      }
    }
  }

  lemma UniqueTail<V>(m: Entries<V>)
    requires UniqueKeys(m) && m != []
    ensures UniqueKeys(m[1..]) && m[0].0 !in Keys(m[1..])
  {
    var tail := m[1..];
    forall a, b | 0 <= a < b < |tail|
      ensures tail[a].0 != tail[b].0
    {
      assert tail[a] == m[a + 1] && tail[b] == m[b + 1];
    }
    forall a | 0 <= a < |tail|
      ensures Keys(tail)[a] != m[0].0
    {
      assert Keys(tail)[a] == m[a + 1].0;
    }
  }

  /** On a map with unique keys, assigning a present key replaces exactly that entry. */
  lemma {:induction false} SetAt<V>(m: Entries<V>, i: nat, v: V)
    requires UniqueKeys(m) && i < |m|
    ensures Set(m, m[i].0, v) == m[i := (m[i].0, v)]
    decreases i
  {
    var k := m[i].0;
    var tail := m[1..];
    if i > 0 {
      assert tail[i - 1] == m[i];
      assert m[0].0 != m[i].0;
      calc {
        Set(m, k, v);
        { SetPastHead(m, k, v); }
        [m[0]] + Set(tail, k, v);
        { UniqueTail(m); SetAt(tail, i - 1, v); }
        [m[0]] + tail[i - 1 := (k, v)];
        { UpdateCons(m[0], tail, i - 1, (k, v)); }
        ([m[0]] + tail)[i := (k, v)];
        { assert [m[0]] + tail == m; }
        m[i := (k, v)];
      }
    } else {
      assert m[0 := (k, v)] == [(k, v)] + tail;
    }
  }

  /** Assigning a key the head does not hold leaves the head and assigns in the tail. */
  lemma SetPastHead<V>(m: Entries<V>, k: string, v: V)
    requires m != [] && m[0].0 != k
    ensures Set(m, k, v) == [m[0]] + Set(m[1..], k, v)
  {
  }

  /** Updating past the head of a sequence updates its tail. */
  lemma UpdateCons<T>(x: T, s: seq<T>, j: nat, y: T)
    requires j < |s|
    ensures ([x] + s)[j + 1 := y] == [x] + s[j := y]
  {
    var l, r := ([x] + s)[j + 1 := y], [x] + s[j := y];
    forall n | 0 <= n < |l|
      ensures l[n] == r[n]
    {
    }
  }

  /** Whether the keys are unique depends on the keys alone. */
  lemma UniqueKeysByKeys<V, W>(a: Entries<V>, b: Entries<W>)
    requires UniqueKeys(a) && Keys(a) == Keys(b)
    ensures UniqueKeys(b)
  {
    forall i, j | 0 <= i < j < |b|
      ensures b[i].0 != b[j].0
    {
      assert a[i].0 == Keys(a)[i] && a[j].0 == Keys(a)[j];
    }
  }
}

=== FILE: outcomes.dfy ===
/** Option and Result, the failure-compatible wrappers the rest of the model uses for
    JavaScript's `undefined` and for thrown exceptions. */
module Outcomes {

  /** `None` stands for a missing property (`undefined`). */
  datatype Option<+T> = None | Some(value: T) {

    predicate IsFailure() {
      None?
    }

    function PropagateFailure<U>(): Option<U>
      requires None?
    {
      None
    }

    function Extract(): T
      requires Some?
    {
      value
    }
  }

  /** `Failure(e)` stands for an exception thrown with message or value `e`. */
  datatype Result<+R, +E> = Success(value: R) | Failure(error: E) {

    predicate IsFailure() {
      Failure?
    }

    function PropagateFailure<U>(): Result<U, E>
      requires Failure?
    {
      Failure(error)
    }

    function Extract(): R
      requires Success?
    {
      value
    }
  }
}

=== FILE: paypal_client.dfy ===
/** The paypal `HttpClient` (`lib/paypalhttp/http_client.js`) without its transport. It
    registers injectors, and it prepares a request: a copy of the caller's request, default
    headers, injectors, host and port, the User-Agent default, and the serialised body with
    its Content-Length and the method. It classifies a finished response, and it wires the
    timeout and error events. The body codecs come from `lib/paypalhttp/encoder.js`, which is
    not part of this model; they are parameters. */
module PaypalClient {
  import opened Outcomes
  import opened Strings
  import opened Decimal
  import opened OrderedMap
  import opened CaseFold
  import opened Js
  import opened Race
  import Utf8

  const UserAgent: string := "PayPalHttp-Node HTTP/1.1"
  const ThirtySeconds: nat := 10 * 3000
  const InjectorError: string := "injector must be a function that takes one argument"
  const UnknownError: string := "An unknown error occured."
  const TimedOut: string := "Request timed out"
  /** The TypeError of `Object.keys(undefined)`, when an injector removed the headers. */
  const NoHeadersError: string := KeysOfNothing

  /** `getTimeout()`. */
  function GetTimeout(): (ms: nat)
    ensures ms == 30000
  {
    ThirtySeconds
  }

  /** An injector as `addInjector` sees it: whether it is a function, its declared parameter
      count (`length`), and what its synchronous part does to the request it is given, or the
      error it throws. */
  datatype Injector<!V> = Injector(isFunction: bool, arity: nat, apply: Request<V> -> Result<Request<V>, string>)

  datatype Client<!V> = Client(baseUrl: string, injectors: seq<Injector<V>>)

  /** `addInjector(injector)`: the new client and the error thrown, if any. */
  function AddInjector<V>(c: Client<V>, inj: Injector<V>): (r: (Client<V>, Option<string>))
    ensures r.1.Some? <==> !inj.isFunction || inj.arity != 1
    ensures r.1.Some? ==> r.1.value == InjectorError && r.0 == c
    ensures r.1.None? ==> r.0.baseUrl == c.baseUrl && r.0.injectors == c.injectors + [inj]
  {
    if !inj.isFunction || inj.arity != 1 then (c, Some(InjectorError))
    else (c.(injectors := c.injectors + [inj]), None)
  }

  /** `formatHeaders(headers)`: the names lower-cased; on a case-insensitive collision the later
      value wins, at the position of the first name. */
  function FormatHeaders(h: Headers): Headers
  {
    LowerCaseKeys(h)
  }

  /** The names of `formatHeaders(h)` are the lower-cased names of `h`, each once, in order of
      first appearance; each holds the value of the last name of `h` folding to it. */
  lemma FormatHeadersSpec(h: Headers)
    ensures UniqueKeys(FormatHeaders(h))
    ensures Keys(FormatHeaders(h)) == FirstOccurrences(Lowered(h))
    ensures forall k :: k in Keys(FormatHeaders(h)) <==> k in Lowered(h)
    ensures forall k :: Get(FormatHeaders(h), k) == LastWith(h, k)
  {
    LowerCaseKeysSpec(h);
  }

  /** The injectors' synchronous parts run in registration order on the request. The
      `map` call is outside the promise, so the first injector that throws ends `execute`
      with its error, and the later ones do not run. */
  function Injected<V>(injs: seq<Injector<V>>, req: Request<V>): Result<Request<V>, string>
    decreases |injs|
  {
    if injs == [] then Success(req)
    else
      var next :- injs[0].apply(req);
      Injected(injs[1..], next)
  }

  /** Registering more injectors runs them after the earlier ones, and only when none of
      those threw. */
  lemma {:induction false} InjectedAppend<V>(a: seq<Injector<V>>, b: seq<Injector<V>>, req: Request<V>)
    ensures Injected(a, req).Success? ==> Injected(a + b, req) == Injected(b, Injected(a, req).value)
    ensures Injected(a, req).Failure? ==> Injected(a + b, req) == Injected(a, req)
    decreases |a|
  {
    if a == [] {
      assert a + b == b;
    } else {
      assert (a + b)[0] == a[0] && (a + b)[1..] == a[1..] + b;
      if a[0].apply(req).Success? {
        InjectedAppend(a[1..], b, a[0].apply(req).value);
      }
    }
  }

  /** The start of `execute`, up to `formatHeaders`: the copy gets `{}` headers when it has
      none, the injectors run on it, and host and port come from the base URL. */
  function Setup<V>(c: Client<V>, pf: Platform, req: Request<V>): (r: Result<Request<V>, string>)
    ensures var copy := if req.headers.None? then req.(headers := Some([])) else req;
            r.Success? <==> Injected(c.injectors, copy).Success?
    ensures var copy := if req.headers.None? then req.(headers := Some([])) else req;
            r.Failure? ==> r.error == Injected(c.injectors, copy).error
    ensures r.Success? ==> r.value.host == pf.hostname(c.baseUrl) && r.value.port == pf.port(c.baseUrl)
  {
    var copy := if req.headers.None? then req.(headers := Some([])) else req;
    var injected :- Injected(c.injectors, copy);
    Success(injected.(host := pf.hostname(c.baseUrl), port := pf.port(c.baseUrl)))
  }

  /** Without injectors, a request without headers gets an empty header object. */
  lemma SetupDefaultsHeaders<V>(c: Client<V>, pf: Platform, req: Request<V>)
    requires c.injectors == []
    ensures Setup(c, pf, req).Success?
    ensures Setup(c, pf, req).value.headers == if req.headers.None? then Some([]) else req.headers
    ensures Setup(c, pf, req).value.body == req.body
  {
  }

  /** An injector that throws ends the preparation with its error, whatever was registered
      after it. */
  lemma InjectorThrows<V>(c: Client<V>, js: Runtime<V>, pf: Platform,
                          serialize: Request<V> -> Result<Serialized, string>, req: Request<V>,
                          a: seq<Injector<V>>, inj: Injector<V>, b: seq<Injector<V>>, r: Request<V>)
    requires c.injectors == a + [inj] + b
    requires Injected(a, if req.headers.None? then req.(headers := Some([])) else req) == Success(r)
    requires inj.apply(r).Failure?
    ensures Prepare(c, js, pf, serialize, req) == Failure(inj.apply(r).error)
    ensures PrepareAsWritten(c, js, pf, serialize, req) == Failure(inj.apply(r).error)
  {
    var copy := if req.headers.None? then req.(headers := Some([])) else req;
    InjectedAppend(a, [inj], copy);
    InjectedAppend(a + [inj], b, copy);
  }

  /** The User-Agent default applies when the lower-cased lookup is missing, empty or `Node`. */
  predicate WantsDefaultAgent(formatted: Headers) {
    !Truthy(Get(formatted, "user-agent")) || Get(formatted, "user-agent") == Some("Node")
  }

  /** What `serializeRequest` produced: the body, and the headers object it was given, as it
      left it. */
  datatype Serialized = Serialized(payload: Payload, headers: Headers)

  /** The request as `client.request` receives it. */
  datatype Prepared<V> = Prepared(request: Request<V>, https: bool, payload: Option<Payload>)

  /** The body step of `execute`: when the body is truthy it is serialised with the
      `formatted` headers in place; `mapHeader` then copies the formatted values back onto the
      raw names, and Content-Length is set to the decimal byte length of the payload. */
  function WithBody<V>(js: Runtime<V>, serialize: Request<V> -> Result<Serialized, string>,
                       r: Request<V>, raw: Headers, formatted: Headers)
    : (out: Result<(Headers, Option<Payload>), string>)
    ensures !js.truthy(r.body) ==> out == Success((raw, None))
    ensures js.truthy(r.body) ==> (out.Success? <==> serialize(r.(headers := Some(formatted))).Success?)
    ensures js.truthy(r.body) && out.Success?
            ==> var s := serialize(r.(headers := Some(formatted))).value;
                out.value.1 == Some(s.payload)
                && Get(out.value.0, "Content-Length") == Some(Show(ByteLength(s.payload)))
  {
    if !js.truthy(r.body) then Success((raw, None))
    else
      var s :- serialize(r.(headers := Some(formatted)));
      Success((Set(MapHeader(raw, s.headers), "Content-Length", Show(ByteLength(s.payload))), Some(s.payload)))
  }

  /** The `verb` to `method` copy of `execute`, and its choice of `https` or `http` by the
      base URL. */
  function Finish<V>(c: Client<V>, r: Request<V>, headers: Headers, payload: Option<Payload>): (p: Prepared<V>)
    ensures p.https <==> StartsWith(c.baseUrl, "https")
    ensures p.request.headers == Some(headers)
    ensures p.request.methodName == if Truthy(r.verb) then r.verb else r.methodName
    ensures p.request.body == r.body && p.request.path == r.path && p.request.verb == r.verb
    ensures p.request.host == r.host && p.request.port == r.port
    ensures p.payload == payload
  {
    var r' := r.(headers := Some(headers));
    Prepared(if Truthy(r.verb) then r'.(methodName := r.verb) else r', StartsWith(c.baseUrl, "https"), payload)
  }

  /** `execute` up to the transport call, as written: the lower-cased copy is taken before the
      User-Agent default is set on the raw headers, so a body request writes the caller's
      value back over the default. */
  function PrepareAsWritten<V>(c: Client<V>, js: Runtime<V>, pf: Platform,
                               serialize: Request<V> -> Result<Serialized, string>, req: Request<V>)
    : (out: Result<Prepared<V>, string>)
    ensures Setup(c, pf, req).Failure? ==> out == Failure(Setup(c, pf, req).error)
    ensures Setup(c, pf, req).Success? && Setup(c, pf, req).value.headers.None? ==> out == Failure(NoHeadersError)
  {
    var r :- Setup(c, pf, req);
    if r.headers.None? then Failure(NoHeadersError)
    else
      var formatted := FormatHeaders(r.headers.value);
      var raw := if WantsDefaultAgent(formatted) then Set(r.headers.value, "User-Agent", UserAgent)
                 else r.headers.value;
      var (headers, payload) :- WithBody(js, serialize, r, raw, formatted);
      Success(Finish(c, r, headers, payload))
  }

  /** `execute` with the default also written into the lower-cased copy, so that it survives
      serialisation and `mapHeader`. */
  function Prepare<V>(c: Client<V>, js: Runtime<V>, pf: Platform,
                      serialize: Request<V> -> Result<Serialized, string>, req: Request<V>)
    : (out: Result<Prepared<V>, string>)
    ensures Setup(c, pf, req).Failure? ==> out == Failure(Setup(c, pf, req).error)
    ensures Setup(c, pf, req).Success? && Setup(c, pf, req).value.headers.None? ==> out == Failure(NoHeadersError)
    ensures out.Success? ==> Setup(c, pf, req).Success?
    ensures out.Success? ==> (out.value.https <==> StartsWith(c.baseUrl, "https"))
    ensures out.Success? ==> out.value.request.host == pf.hostname(c.baseUrl)
                             && out.value.request.port == pf.port(c.baseUrl)
    ensures out.Success? ==> out.value.request.body == Setup(c, pf, req).value.body
    ensures out.Success? ==> (out.value.payload.Some? <==> js.truthy(Setup(c, pf, req).value.body))
    ensures out.Success? ==> out.value.request.methodName
                             == if Truthy(Setup(c, pf, req).value.verb) then Setup(c, pf, req).value.verb
                                else Setup(c, pf, req).value.methodName
  {
    var r :- Setup(c, pf, req);
    if r.headers.None? then Failure(NoHeadersError)
    else
      var formatted := FormatHeaders(r.headers.value);
      var wants := WantsDefaultAgent(formatted);
      var raw := if wants then Set(r.headers.value, "User-Agent", UserAgent) else r.headers.value;
      var formatted' := if wants then Set(formatted, "user-agent", UserAgent) else formatted;
      var (headers, payload) :- WithBody(js, serialize, r, raw, formatted');
      Success(Finish(c, r, headers, payload))
  }

  lemma LowerUserAgent()
    ensures Lower("User-Agent") == "user-agent"
  {
    var s, t := "User-Agent", "user-agent";
    assert s[0] == 'U' && t[0] == 'u' && s[5] == 'A' && t[5] == 'a';
    forall i | 0 <= i < |s|
      ensures LowerChar(s[i]) == t[i]
    {
      if i != 0 && i != 5 {
        assert s[i] == t[i] && !IsUpper(s[i]);
      }
    }
    LowerMatches(s, t);
  }

  /** With a truthy body, as written: the serializer sees the lower-cased copy without the
      default, and the headers it leaves are mapped back onto the raw names, which hold the
      default when it was due. */
  lemma AsWrittenWithBody<V>(c: Client<V>, js: Runtime<V>, pf: Platform,
                             serialize: Request<V> -> Result<Serialized, string>, req: Request<V>,
                             h: Headers, s: Serialized)
    requires Setup(c, pf, req).Success? && Setup(c, pf, req).value.headers == Some(h) && js.truthy(Setup(c, pf, req).value.body)
    requires serialize(Setup(c, pf, req).value.(headers := Some(FormatHeaders(h)))) == Success(s)
    ensures PrepareAsWritten(c, js, pf, serialize, req).Success?
    ensures PrepareAsWritten(c, js, pf, serialize, req).value.request.headers
         == Some(Set(MapHeader(if WantsDefaultAgent(FormatHeaders(h)) then Set(h, "User-Agent", UserAgent) else h,
                               s.headers),
                     "Content-Length", Show(ByteLength(s.payload))))
  {
  }

  /** With a truthy body, corrected: the serializer sees the lower-cased copy holding the
      default when it is due. */
  lemma PreparedWithBody<V>(c: Client<V>, js: Runtime<V>, pf: Platform,
                            serialize: Request<V> -> Result<Serialized, string>, req: Request<V>,
                            h: Headers, s: Serialized)
    requires Setup(c, pf, req).Success? && Setup(c, pf, req).value.headers == Some(h) && js.truthy(Setup(c, pf, req).value.body)
    requires WantsDefaultAgent(FormatHeaders(h))
    requires serialize(Setup(c, pf, req).value.(headers := Some(Set(FormatHeaders(h), "user-agent", UserAgent))))
             == Success(s)
    ensures Prepare(c, js, pf, serialize, req).Success?
    ensures Prepare(c, js, pf, serialize, req).value.request.headers
         == Some(Set(MapHeader(Set(h, "User-Agent", UserAgent), s.headers), "Content-Length", Show(ByteLength(s.payload))))
  {
  }

  lemma LowerContentType()
    ensures Lower("Content-Type") == "content-type"
  {
    var s, t := "Content-Type", "content-type";
    assert s[0] == 'C' && t[0] == 'c' && s[8] == 'T' && t[8] == 't';
    forall i | 0 <= i < |s|
      ensures LowerChar(s[i]) == t[i]
    {
      if i != 0 && i != 8 {
        assert s[i] == t[i] && !IsUpper(s[i]);
      }
    }
    LowerMatches(s, t);
  }

  /** The caller's headers of the reverted example: `User-Agent: Node` and a JSON body type. */
  const NodeJsonHeaders: Headers := [("User-Agent", "Node"), ("Content-Type", "application/json")]

  /** The same headers, lower-cased. */
  const NodeJsonFormatted: Headers := [("user-agent", "Node"), ("content-type", "application/json")]

  /** `formatHeaders` of the example headers. */
  lemma FormatNodeAgent()
    ensures FormatHeaders(NodeJsonHeaders) == NodeJsonFormatted
  {
    var h := NodeJsonHeaders;
    var agent: Headers := [("user-agent", "Node")];
    assert h[1..] == [("Content-Type", "application/json")] && h[1..][1..] == [];
    calc {
      FormatHeaders(h);
      AssignLowered([], h);
      AssignLowered(Set([], Lower("User-Agent"), "Node"), h[1..]);
      { LowerUserAgent(); }
      AssignLowered(agent, h[1..]);
      AssignLowered(Set(agent, Lower("Content-Type"), "application/json"), []);
      { LowerContentType(); }
      Set(agent, "content-type", "application/json");
      NodeJsonFormatted;
    }
  }

  /** The lookups `mapHeader` makes in the lower-cased example headers. */
  lemma FormattedLookups()
    ensures Get(NodeJsonFormatted, "user-agent") == Some("Node")
    ensures Get(NodeJsonFormatted, "content-type") == Some("application/json")
  {
    var f := NodeJsonFormatted;
    assert f[0].0 == "user-agent" && f[1..] == [("content-type", "application/json")];
  }

  /** `mapHeader` writes the lower-cased copy's `Node` back over the default, and the
      Content-Type back onto itself. */
  lemma MapNodeAgent()
    ensures MapHeader([("User-Agent", UserAgent), ("Content-Type", "application/json")], NodeJsonFormatted)
         == NodeJsonHeaders
  {
    var raw: Headers := [("User-Agent", UserAgent), ("Content-Type", "application/json")];
    assert raw[0].0[0] != raw[1].0[0];
    RemappedExample();
    MapHeaderPair(raw, NodeJsonFormatted);
  }

  /** `mapHeader` on two distinct names rewrites each of them on its own. */
  lemma MapHeaderPair<V>(raw: Entries<V>, formatted: Entries<V>)
    requires |raw| == 2 && raw[0].0 != raw[1].0
    ensures MapHeader(raw, formatted) == [Remapped(formatted, raw[0]), Remapped(formatted, raw[1])]
  {
    MapHeaderSpec(raw, formatted);
    var r := MapHeader(raw, formatted);
    assert r == [r[0], r[1]];
  }

  /** `mapHeader`'s rewrite of each raw example header. */
  lemma RemappedExample()
    ensures Remapped(NodeJsonFormatted, ("User-Agent", UserAgent)) == ("User-Agent", "Node")
    ensures Remapped(NodeJsonFormatted, ("Content-Type", "application/json")) == ("Content-Type", "application/json")
  {
    FormattedLookups();
    LowerUserAgent();
    LowerContentType();
  }

  /** The default written on the raw name of the example headers. */
  lemma DefaultOnNodeJson()
    ensures Set(NodeJsonHeaders, "User-Agent", UserAgent)
         == [("User-Agent", UserAgent), ("Content-Type", "application/json")]
  {
    var h := NodeJsonHeaders;
    assert h[0].0 == "User-Agent";
  }

  /** The Content-Length appended to the example headers. */
  lemma LengthOnNodeJson()
    ensures Set(NodeJsonHeaders, "Content-Length", "2") == NodeJsonHeaders + [("Content-Length", "2")]
  {
    var h := NodeJsonHeaders;
    assert h[0].0[0] != 'C' && h[1].0[8] != 'L';
    assert h[1..] == [("Content-Type", "application/json")] && h[1..][1..] == [];
    assert Set(h[1..], "Content-Length", "2") == [h[1]] + Set([], "Content-Length", "2");
    assert Set(h, "Content-Length", "2") == [h[0]] + Set(h[1..], "Content-Length", "2");
  }

  /** The headers along the reverted path: the caller's `Node`, the default on the raw name,
      and what `mapHeader` and the Content-Length of `{}` make of them. */
  lemma NodeAgentHeaders()
    ensures WantsDefaultAgent(FormatHeaders(NodeJsonHeaders))
    ensures Set(NodeJsonHeaders, "User-Agent", UserAgent)
         == [("User-Agent", UserAgent), ("Content-Type", "application/json")]
    ensures Set(MapHeader([("User-Agent", UserAgent), ("Content-Type", "application/json")], NodeJsonFormatted),
                "Content-Length", Show(ByteLength(Text("{}"))))
         == NodeJsonHeaders + [("Content-Length", "2")]
  {
    FormatNodeAgent();
    FormattedLookups();
    DefaultOnNodeJson();
    MapNodeAgent();
    EmptyObjectLength();
    LengthOnNodeJson();
  }

  /** `{}` is two bytes long. */
  lemma EmptyObjectLength()
    ensures Show(ByteLength(Text("{}"))) == "2"
  {
    Utf8.AsciiByteLength("{}");
    assert Show(2) == "2";
  }

  /** The reverted default, on a small input: a body request with the headers
      `User-Agent: Node` and `Content-Type: application/json`, sent through a serializer that
      writes `{}` and leaves the headers alone, goes out with `User-Agent: Node` although the
      default was due. */
  lemma UserAgentRevertedAsWritten<V>(c: Client<V>, js: Runtime<V>, pf: Platform,
                                      serialize: Request<V> -> Result<Serialized, string>, req: Request<V>)
    requires c.injectors == [] && req.headers == Some(NodeJsonHeaders) && js.truthy(req.body)
    requires serialize(req.(headers := Some(NodeJsonFormatted), host := pf.hostname(c.baseUrl),
                            port := pf.port(c.baseUrl)))
             == Success(Serialized(Text("{}"), NodeJsonFormatted))
    ensures WantsDefaultAgent(FormatHeaders(NodeJsonHeaders))
    ensures PrepareAsWritten(c, js, pf, serialize, req).Success?
    ensures PrepareAsWritten(c, js, pf, serialize, req).value.request.headers
            == Some(NodeJsonHeaders + [("Content-Length", "2")])
  {
    NodeAgentHeaders();
    SetupDefaultsHeaders(c, pf, req);
    var h := NodeJsonHeaders;
    assert Setup(c, pf, req).value.(headers := Some(FormatHeaders(h)))
        == req.(headers := Some(NodeJsonFormatted), host := pf.hostname(c.baseUrl), port := pf.port(c.baseUrl)) by {
      FormatNodeAgent();
    }
    AsWrittenWithBody(c, js, pf, serialize, req, h, Serialized(Text("{}"), NodeJsonFormatted));
  }

  /** The intended rule, for the corrected preparation: when the default is due, the request
      goes out with it, with or without a body, for any serializer that keeps the `user-agent`
      value of the headers it is given. */
  lemma UserAgentDefaulted<V>(c: Client<V>, js: Runtime<V>, pf: Platform,
                              serialize: Request<V> -> Result<Serialized, string>, req: Request<V>)
    requires Setup(c, pf, req).Success? && Setup(c, pf, req).value.headers.Some? && UniqueKeys(Setup(c, pf, req).value.headers.value)
    requires WantsDefaultAgent(FormatHeaders(Setup(c, pf, req).value.headers.value))
    requires forall r: Request<V> :: r.headers.Some? && serialize(r).Success?
               ==> Get(serialize(r).value.headers, "user-agent") == Get(r.headers.value, "user-agent")
    requires Prepare(c, js, pf, serialize, req).Success?
    ensures Get(Prepare(c, js, pf, serialize, req).value.request.headers.value, "User-Agent") == Some(UserAgent)
  {
    var r := Setup(c, pf, req).value;
    var h := r.headers.value;
    if js.truthy(r.body) {
      var formatted' := Set(FormatHeaders(h), "user-agent", UserAgent);
      var sent := r.(headers := Some(formatted'));
      var sr := serialize(sent);
      if sr.Failure? {
        PreparedFails(c, js, pf, serialize, req, h);
        assert false;
      }
      assert Get(formatted', "user-agent") == Some(UserAgent);
      SerializerKeepsAgent(serialize, sent);
      PreparedWithBody(c, js, pf, serialize, req, h, sr.value);
      MappedKeepsAgent(h, sr.value.headers, Show(ByteLength(sr.value.payload)));
    } else {
      NoBodyHeaders(c, js, pf, serialize, req);
    }
  }

  lemma SerializerKeepsAgent<V>(serialize: Request<V> -> Result<Serialized, string>, sent: Request<V>)
    requires forall r: Request<V> :: r.headers.Some? && serialize(r).Success?
               ==> Get(serialize(r).value.headers, "user-agent") == Get(r.headers.value, "user-agent")
    requires sent.headers.Some? && serialize(sent).Success?
    ensures Get(serialize(sent).value.headers, "user-agent") == Get(sent.headers.value, "user-agent")
  {
  }

  /** A serialisation error fails the corrected preparation. */
  lemma PreparedFails<V>(c: Client<V>, js: Runtime<V>, pf: Platform,
                         serialize: Request<V> -> Result<Serialized, string>, req: Request<V>, h: Headers)
    requires Setup(c, pf, req).Success? && Setup(c, pf, req).value.headers == Some(h) && js.truthy(Setup(c, pf, req).value.body)
    requires WantsDefaultAgent(FormatHeaders(h))
    requires serialize(Setup(c, pf, req).value.(headers := Some(Set(FormatHeaders(h), "user-agent", UserAgent)))).Failure?
    ensures Prepare(c, js, pf, serialize, req).Failure?
  {
  }

  /** The default set on the raw names survives `mapHeader` when the lower-cased copy holds
      it too, and setting Content-Length afterwards does not touch it. */
  lemma MappedKeepsAgent(raw: Headers, formatted: Headers, length: string)
    requires UniqueKeys(raw) && Get(formatted, "user-agent") == Some(UserAgent)
    ensures Get(Set(MapHeader(Set(raw, "User-Agent", UserAgent), formatted), "Content-Length", length), "User-Agent")
         == Some(UserAgent)
  {
    var raw' := Set(raw, "User-Agent", UserAgent);
    SetUnique(raw, "User-Agent", UserAgent);
    LowerUserAgent();
    KeysSet(raw, "User-Agent", UserAgent);
    MapHeaderGet(raw', formatted, "User-Agent");
    GetSetOther(MapHeader(raw', formatted), "Content-Length", length, "User-Agent");
  }

  /** Without a body the two preparations agree, and so they do when no default is due. */
  lemma PreparationsAgree<V>(c: Client<V>, js: Runtime<V>, pf: Platform,
                             serialize: Request<V> -> Result<Serialized, string>, req: Request<V>)
    requires Setup(c, pf, req).Success? && Setup(c, pf, req).value.headers.Some?
    requires !js.truthy(Setup(c, pf, req).value.body) || !WantsDefaultAgent(FormatHeaders(Setup(c, pf, req).value.headers.value))
    ensures Prepare(c, js, pf, serialize, req) == PrepareAsWritten(c, js, pf, serialize, req)
  {
  }

  /** Without a body the User-Agent rule is all that changes the headers: the default is set
      exactly when due, and every other name keeps its value. */
  lemma NoBodyHeaders<V>(c: Client<V>, js: Runtime<V>, pf: Platform,
                         serialize: Request<V> -> Result<Serialized, string>, req: Request<V>)
    requires Setup(c, pf, req).Success? && Setup(c, pf, req).value.headers.Some? && !js.truthy(Setup(c, pf, req).value.body)
    ensures var h := Setup(c, pf, req).value.headers.value;
            var out := Prepare(c, js, pf, serialize, req);
            && out.Success?
            && (WantsDefaultAgent(FormatHeaders(h)) ==> Get(out.value.request.headers.value, "User-Agent") == Some(UserAgent))
            && (!WantsDefaultAgent(FormatHeaders(h)) ==> out.value.request.headers.value == h)
            && out.value.payload.None?
  {
  }

  /** Without a body the other names keep their values. */
  lemma NoBodyKeepsOtherHeaders<V>(c: Client<V>, js: Runtime<V>, pf: Platform,
                                   serialize: Request<V> -> Result<Serialized, string>, req: Request<V>, k: string)
    requires Setup(c, pf, req).Success? && Setup(c, pf, req).value.headers.Some? && !js.truthy(Setup(c, pf, req).value.body) && k != "User-Agent"
    ensures Get(Prepare(c, js, pf, serialize, req).value.request.headers.value, k)
         == Get(Setup(c, pf, req).value.headers.value, k)
  {
    var h := Setup(c, pf, req).value.headers.value;
    GetSetOther(h, "User-Agent", UserAgent, k);
  }

  /** With a truthy body, Content-Length is the decimal byte length of the serialised body;
      read back as a number it is that length. Serialisation errors propagate. */
  lemma ContentLengthSet<V>(c: Client<V>, js: Runtime<V>, pf: Platform,
                            serialize: Request<V> -> Result<Serialized, string>, req: Request<V>)
    requires Setup(c, pf, req).Success? && Setup(c, pf, req).value.headers.Some? && js.truthy(Setup(c, pf, req).value.body)
    requires Prepare(c, js, pf, serialize, req).Success?
    ensures var p := Prepare(c, js, pf, serialize, req).value;
            && p.payload.Some?
            && Get(p.request.headers.value, "Content-Length") == Some(Show(ByteLength(p.payload.value)))
            && Value(Show(ByteLength(p.payload.value))) == ByteLength(p.payload.value)
  {
    var p := Prepare(c, js, pf, serialize, req).value;
    ValueShow(ByteLength(p.payload.value));
  }

  /** A response as the 'end' handler sees it. */
  datatype Response = Response(statusCode: int, headers: Headers, chunks: seq<seq<Utf8.byte>>)

  /** The object `HttpError` is built from. */
  datatype ErrorInfo = ErrorInfo(message: Option<string>, text: Option<string>,
                                 statusCode: Option<int>, headers: Option<Headers>)

  datatype HttpError = HttpError(message: string, statusCode: Option<int>, headers: Option<Headers>,
                                 original: ErrorInfo)

  /** What a paypal request can reject with or throw. */
  datatype Error = Native(message: string) | Http(error: HttpError)

  /** `new HttpError(response)`: the message falls back from `message` to `text` to a fixed
      text, so it is never empty. */
  function NewHttpError(info: ErrorInfo): (e: HttpError)
    ensures e.message != ""
    ensures Truthy(info.message) ==> e.message == info.message.value
    ensures !Truthy(info.message) && Truthy(info.text) ==> e.message == info.text.value
    ensures !Truthy(info.message) && !Truthy(info.text) ==> e.message == UnknownError
    ensures e.statusCode == info.statusCode && e.headers == info.headers && e.original == info
  {
    HttpError(Or(Or(info.message, info.text), Some(UnknownError)).value, info.statusCode, info.headers, info)
  }

  /** The resolved value of a successful request. */
  datatype Data<V> = Data(statusCode: int, headers: Headers, result: Option<V>)

  /** `_parseResponse(body, response, formattedHeaders)`: status and headers always; a
      `result` only for a non-empty body, deserialised under the lower-cased headers. */
  function ParseResponse<V>(deserialize: (string, Headers) -> Result<V, string>, body: string,
                            response: Response, formatted: Headers)
    : (r: Result<Data<V>, string>)
    ensures r.Success? ==> r.value.statusCode == response.statusCode && r.value.headers == response.headers
    ensures body == "" ==> r == Success(Data(response.statusCode, response.headers, None))
    ensures body != "" ==> (r.Success? <==> deserialize(body, formatted).Success?)
    ensures body != "" && r.Success? ==> r.value.result == Some(deserialize(body, formatted).value)
    ensures body != "" && r.Failure? ==> r.error == deserialize(body, formatted).error
  {
    if body == "" then Success(Data(response.statusCode, response.headers, None))
    else
      var v :- deserialize(body, formatted);
      Success(Data(response.statusCode, response.headers, Some(v)))
  }

  /** The status rule: 200 to 299 inclusive. */
  predicate IsSuccess(statusCode: int) {
    200 <= statusCode <= 299
  }

  /** The body text: the chunks concatenated, gunzipped when the response says `gzip`, then
      decoded as UTF-8. A gunzip failure is thrown. */
  function BodyText(pf: Platform, response: Response): (r: Result<string, string>)
    ensures Get(FormatHeaders(response.headers), "content-encoding") != Some("gzip")
            ==> r == Success(pf.decodeUtf8(Utf8.Concat(response.chunks)))
    ensures Get(FormatHeaders(response.headers), "content-encoding") == Some("gzip")
            ==> r == match pf.gunzip(Utf8.Concat(response.chunks))
                     case Success(plain) => Success(pf.decodeUtf8(plain))
                     case Failure(e) => Failure(e)
  {
    var bytes := Utf8.Concat(response.chunks);
    if Get(FormatHeaders(response.headers), "content-encoding") == Some("gzip") then
      var plain :- pf.gunzip(bytes);
      Success(pf.decodeUtf8(plain))
    else Success(pf.decodeUtf8(bytes))
  }

  /** The 'end' handler. Errors of gunzip and of deserialisation are thrown out of the handler
      rather than rejecting. */
  function OnEnd<V>(pf: Platform, deserialize: (string, Headers) -> Result<V, string>, response: Response)
    : (r: EndResult<Data<V>, Error>)
  {
    var formatted := FormatHeaders(response.headers);
    match BodyText(pf, response)
    case Failure(e) => Throws(Native(e))
    case Success(text) =>
      if IsSuccess(response.statusCode) then
        match ParseResponse(deserialize, text, response, formatted)
        case Failure(e) => Throws(Native(e))
        case Success(d) => Settles(Resolved(d))
      else
        Settles(Rejected(Http(NewHttpError(ErrorInfo(None, Some(text), Some(response.statusCode), Some(response.headers))))))
  }

  /** A 2xx response resolves with its status and headers unless reading the body throws; any
      other status rejects with an `HttpError` whose message is the body text (or the fixed
      text for an empty body) and which carries the status and the headers. */
  lemma Classification<V>(pf: Platform, deserialize: (string, Headers) -> Result<V, string>, response: Response)
    requires BodyText(pf, response).Success?
    ensures var r := OnEnd(pf, deserialize, response);
            var text := BodyText(pf, response).value;
            && ((IsSuccess(response.statusCode) && r.Settles?)
                  ==> (r.settlement.Resolved? && r.settlement.value.statusCode == response.statusCode
                       && r.settlement.value.headers == response.headers))
            && ((IsSuccess(response.statusCode) && text == "") ==> r.Settles?)
            && ((!IsSuccess(response.statusCode))
                  ==> (r.Settles? && r.settlement.Rejected? && r.settlement.error.Http?
                       && r.settlement.error.error.message == (if text != "" then text else UnknownError)
                       && r.settlement.error.error.statusCode == Some(response.statusCode)
                       && r.settlement.error.error.headers == Some(response.headers)))
  {
  }

  /** Only a 2xx status resolves. */
  lemma ResolvesOnlyOnSuccess<V>(pf: Platform, deserialize: (string, Headers) -> Result<V, string>, response: Response)
    ensures OnEnd(pf, deserialize, response).Settles? && OnEnd(pf, deserialize, response).settlement.Resolved?
            <==> IsSuccess(response.statusCode) && BodyText(pf, response).Success?
                 && ParseResponse(deserialize, BodyText(pf, response).value, response, FormatHeaders(response.headers)).Success?
  {
  }

  /** A body whose bytes, after gunzip when the response says `gzip`, are the UTF-8 encoding
      of a text reads as that text under a decoder that reads well-formed UTF-8 strictly. */
  lemma BodyTextOfEncoded(pf: Platform, response: Response, s: string)
    requires DecodesWellFormed(pf)
    requires Get(FormatHeaders(response.headers), "content-encoding") == Some("gzip")
             ==> pf.gunzip(Utf8.Concat(response.chunks)) == Success(Utf8.Encode(s))
    requires Get(FormatHeaders(response.headers), "content-encoding") != Some("gzip")
             ==> Utf8.Concat(response.chunks) == Utf8.Encode(s)
    ensures BodyText(pf, response) == Success(s)
  {
    DecodesEncoded(pf, s);
  }

  /** A 2xx response whose body reads as `text` resolves with its status and headers and,
      for a non-empty text, with what `text` deserialises to under the lower-cased response
      headers; a deserialisation error is thrown out of the handler instead. */
  lemma SuccessResolves<V>(pf: Platform, deserialize: (string, Headers) -> Result<V, string>,
                           response: Response, text: string)
    requires IsSuccess(response.statusCode) && BodyText(pf, response) == Success(text)
    ensures text == "" ==> OnEnd(pf, deserialize, response)
                           == Settles(Resolved(Data(response.statusCode, response.headers, None)))
    ensures text != "" && deserialize(text, FormatHeaders(response.headers)).Success?
            ==> OnEnd(pf, deserialize, response)
                == Settles(Resolved(Data(response.statusCode, response.headers,
                                         Some(deserialize(text, FormatHeaders(response.headers)).value))))
    ensures text != "" && deserialize(text, FormatHeaders(response.headers)).Failure?
            ==> OnEnd(pf, deserialize, response)
                == Throws(Native(deserialize(text, FormatHeaders(response.headers)).error))
  {
  }

  /** From the bytes received to the resolved value: a 2xx response without gzip whose
      chunks together are the UTF-8 encoding of a non-empty `text` resolves with the value
      `text` deserialises to. */
  lemma EncodedBodyResolves<V>(pf: Platform, deserialize: (string, Headers) -> Result<V, string>,
                               response: Response, text: string, v: V)
    requires DecodesWellFormed(pf) && IsSuccess(response.statusCode)
    requires Get(FormatHeaders(response.headers), "content-encoding") != Some("gzip")
    requires Utf8.Concat(response.chunks) == Utf8.Encode(text) && text != ""
    requires deserialize(text, FormatHeaders(response.headers)) == Success(v)
    ensures OnEnd(pf, deserialize, response) == Settles(Resolved(Data(response.statusCode, response.headers, Some(v))))
  {
    BodyTextOfEncoded(pf, response, text);
    SuccessResolves(pf, deserialize, response, text);
  }

  /** The paypal error wiring: the timeout rejects with "Request timed out"; request and
      response errors reject with the error itself. */
  function Wired(): (w: Wiring<Error>)
    ensures w.timeoutError == Native(TimedOut)
    ensures forall e :: w.requestError(e) == e && w.responseError(e) == e
  {
    Wiring(Native(TimedOut), e => e, e => e, Native(NullSocket))
  }

  /** A timeout before any settlement rejects with "Request timed out", and request errors
      after it are ignored. */
  lemma TimeoutRejects<R>(st: State<R, Error>, later: seq<Event<R, Error>>, errs: seq<Error>)
    requires Outcome(st).None? && st.timerAttached
    ensures Outcome(Run(Wired(), st, [TimeoutFired] + later)) == Some(Rejected(Native(TimedOut)))
    ensures Run(Wired(), Step(Wired(), st, TimeoutFired), RequestErrors<R, Error>(errs))
         == Step(Wired(), st, TimeoutFired)
  {
    TimeoutWins(Wired(), st, later);
    AbortedIgnoresRequestErrors(Wired(), Step(Wired(), st, TimeoutFired), errs);
  }
}

=== FILE: race.dfy ===
/** The settle-once logic around one outgoing request in both clients. The request's events
    arrive in some order. The socket is assigned. The timeout fires: the request is aborted,
    the `requestAborted` flag is set and the promise is rejected. A request error is ignored
    once aborted; otherwise it rejects. Its `removeListener` call targets the socket, while
    the timeout handler was registered on the request, so that handler stays. The response ends,
    and its handler settles or throws. The response errors and the promise is rejected. A
    promise keeps its first settlement, and later `resolve`/`reject` calls do nothing. */
module Race {
  import opened Outcomes

  /** The text of the TypeError that `requestSocket.removeListener(...)` throws while
      `requestSocket` is still null. */
  const NullSocket: string := "TypeError: Cannot read properties of null (reading 'removeListener')"

  /** A call of `resolve` or `reject`. */
  datatype Settlement<+R, +E> = Resolved(value: R) | Rejected(error: E)

  /** What the response's 'end' handler does: settle the promise, or throw out of the event
      handler (an uncaught exception, which does not settle the promise). */
  datatype EndResult<+R, +E> = Settles(settlement: Settlement<R, E>) | Throws(thrown: E)

  datatype Event<+R, +E> =
    | SocketAssigned                       // 'socket' on the request
    | TimeoutFired                         // the socket timeout elapsed
    | RequestError(err: E)                 // 'error' on the request
    | ResponseEnded(end: EndResult<R, E>)  // 'end' on the response
    | ResponseError(err: E)                // 'error' on the response

  /** How a client turns events into errors. */
  datatype Wiring<!E> = Wiring(
    timeoutError: E,             // the rejection of the timeout handler
    requestError: E -> E,        // the rejection for a request error
    responseError: E -> E,       // the rejection for a response error
    nullSocketError: E)          // the TypeError of `null.removeListener(...)`

  datatype State<+R, +E> = State(
    socket: bool,                    // `requestSocket` is set
    aborted: bool,                   // `requestAborted`
    timerAttached: bool,             // the timeout handler is still listening
    calls: seq<Settlement<R, E>>,    // `resolve`/`reject` calls, in order
    thrown: seq<E>)                  // exceptions thrown out of event handlers

  function Init<R, E>(): State<R, E> {
    State(false, false, true, [], [])
  }

  /** One event handler. The timeout handler is registered with `once`, so it runs at most
      once. */
  function Step<R, E>(w: Wiring<E>, st: State<R, E>, ev: Event<R, E>): (r: State<R, E>)
    ensures st.aborted ==> r.aborted
    ensures |r.calls| >= |st.calls| && r.calls[..|st.calls|] == st.calls
  {
    match ev
    case SocketAssigned => st.(socket := true)
    case TimeoutFired =>
      if st.timerAttached then
        st.(aborted := true, timerAttached := false, calls := st.calls + [Rejected(w.timeoutError)])
      else st
    case RequestError(e) =>
      if st.aborted then st
      else if !st.socket then st.(thrown := st.thrown + [w.nullSocketError])
      else st.(calls := st.calls + [Rejected(w.requestError(e))])
    case ResponseEnded(Settles(s)) => st.(calls := st.calls + [s])
    case ResponseEnded(Throws(e)) => st.(thrown := st.thrown + [e])
    case ResponseError(e) => st.(calls := st.calls + [Rejected(w.responseError(e))])
  }

  function Run<R, E>(w: Wiring<E>, st: State<R, E>, evs: seq<Event<R, E>>): State<R, E>
    decreases |evs|
  {
    if evs == [] then st else Run(w, Step(w, st, evs[0]), evs[1..])
  }

  /** The promise's state: its first settlement, if any. */
  function Outcome<R, E>(st: State<R, E>): Option<Settlement<R, E>> {
    if st.calls == [] then None else Some(st.calls[0])
  }

  lemma {:induction false} RunAppend<R, E>(w: Wiring<E>, st: State<R, E>, a: seq<Event<R, E>>, b: seq<Event<R, E>>)
    ensures Run(w, st, a + b) == Run(w, Run(w, st, a), b)
    decreases |a|
  {
    if a == [] {
      assert a + b == b;
    } else {
      assert (a + b)[0] == a[0] && (a + b)[1..] == a[1..] + b;
      RunAppend(w, Step(w, st, a[0]), a[1..], b);
    }
  }

  /** Later events only append settlements. */
  lemma {:induction false} RunExtends<R, E>(w: Wiring<E>, st: State<R, E>, evs: seq<Event<R, E>>)
    ensures |Run(w, st, evs).calls| >= |st.calls|
    ensures Run(w, st, evs).calls[..|st.calls|] == st.calls
    ensures st.aborted ==> Run(w, st, evs).aborted
    decreases |evs|
  {
    if evs != [] {
      var next := Step(w, st, evs[0]);
      RunExtends(w, next, evs[1..]);
      assert Run(w, st, evs).calls[..|next.calls|] == next.calls;
      assert next.calls[..|st.calls|] == st.calls;
    }
  }

  /** Once settled, the promise keeps its settlement whatever happens next. */
  lemma SettledIsFinal<R, E>(w: Wiring<E>, st: State<R, E>, evs: seq<Event<R, E>>)
    requires Outcome(st).Some?
    ensures Outcome(Run(w, st, evs)) == Outcome(st)
  {
    RunExtends(w, st, evs);
    assert Run(w, st, evs).calls[0] == Run(w, st, evs).calls[..|st.calls|][0];
  }

  /** A run of request errors. */
  function RequestErrors<R, E>(errs: seq<E>): (evs: seq<Event<R, E>>)
    ensures |evs| == |errs|
  {
    if errs == [] then [] else [RequestError(errs[0])] + RequestErrors(errs[1..])
  }

  /** After the timeout handler ran, request errors change nothing. */
  lemma {:induction false} AbortedIgnoresRequestErrors<R, E>(w: Wiring<E>, st: State<R, E>, errs: seq<E>)
    requires st.aborted
    ensures Run(w, st, RequestErrors<R, E>(errs)) == st
    decreases |errs|
  {
    if errs != [] {
      var evs := RequestErrors<R, E>(errs);
      assert evs[0] == RequestError(errs[0]) && evs[1..] == RequestErrors<R, E>(errs[1..]);
      AbortedIgnoresRequestErrors(w, st, errs[1..]);
    }
  }

  /** A timeout before any settlement decides the outcome: the timeout rejection. */
  lemma TimeoutWins<R, E>(w: Wiring<E>, st: State<R, E>, later: seq<Event<R, E>>)
    requires Outcome(st).None? && st.timerAttached
    ensures Outcome(Run(w, st, [TimeoutFired] + later)) == Some(Rejected(w.timeoutError))
  {
    var next := Step(w, st, TimeoutFired);
    assert Outcome(next) == Some(Rejected(w.timeoutError));
    assert ([TimeoutFired] + later)[0] == TimeoutFired && ([TimeoutFired] + later)[1..] == later;
    SettledIsFinal(w, next, later);
  }

  /** A request error before any settlement, after the socket was assigned and before the
      timeout, decides the outcome; the timeout handler stays registered. */
  lemma RequestErrorWins<R, E>(w: Wiring<E>, st: State<R, E>, e: E, later: seq<Event<R, E>>)
    requires Outcome(st).None? && st.socket && !st.aborted
    ensures Step(w, st, RequestError(e)).timerAttached == st.timerAttached
    ensures Outcome(Run(w, st, [RequestError(e)] + later)) == Some(Rejected(w.requestError(e)))
  {
    var next := Step(w, st, RequestError(e));
    assert ([RequestError(e)] + later)[0] == RequestError(e) && ([RequestError(e)] + later)[1..] == later;
    SettledIsFinal(w, next, later);
  }

  /** A timeout after a winning request error still aborts the request and calls `reject`
      again, which changes nothing: the request error stays the outcome. */
  lemma TimeoutAfterRequestError<R, E>(w: Wiring<E>, st: State<R, E>, e: E)
    requires Outcome(st).None? && st.socket && !st.aborted && st.timerAttached
    ensures var end := Run(w, st, [RequestError(e), TimeoutFired]);
            && end.aborted
            && end.calls == st.calls + [Rejected(w.requestError(e)), Rejected(w.timeoutError)]
            && Outcome(end) == Some(Rejected(w.requestError(e)))
  {
    var evs: seq<Event<R, E>> := [RequestError(e), TimeoutFired];
    var s1 := Step(w, st, RequestError(e));
    assert evs[1..][0] == TimeoutFired && evs[1..][1..] == [];
    assert Run(w, st, evs) == Run(w, Step(w, s1, TimeoutFired), []);
  }

  /** A request error before the socket is assigned throws the TypeError and settles
      nothing. */
  lemma RequestErrorWithoutSocket<R, E>(w: Wiring<E>, st: State<R, E>, e: E)
    requires !st.socket && !st.aborted
    ensures Step(w, st, RequestError(e)).calls == st.calls
    ensures Step(w, st, RequestError(e)).thrown == st.thrown + [w.nullSocketError]
  {
  }

  /** The timeout handler runs at most once: once it has run, another timeout changes
      nothing. */
  lemma TimeoutOnce<R, E>(w: Wiring<E>, st: State<R, E>)
    requires st.timerAttached
    ensures var next := Step(w, st, TimeoutFired);
            next.aborted && Step(w, next, TimeoutFired) == next
  {
  }

  /** A response that ends with a throw leaves the promise pending unless something else
      settles it. */
  lemma ThrowLeavesPending<R, E>(w: Wiring<E>, e: E)
    ensures Outcome(Run(w, Init<R, E>(), [SocketAssigned, ResponseEnded(Throws(e))])).None?
    ensures Run(w, Init<R, E>(), [SocketAssigned, ResponseEnded(Throws(e))]).thrown == [e]
  {
    var evs: seq<Event<R, E>> := [SocketAssigned, ResponseEnded(Throws(e))];
    var s1 := Step(w, Init<R, E>(), SocketAssigned);
    var s2 := Step(w, s1, ResponseEnded(Throws(e)));
    assert evs[1..][0] == ResponseEnded(Throws(e)) && evs[1..][1..] == [];
    assert Run(w, s1, evs[1..]) == Run(w, s2, []);
  }
}

=== FILE: strings.dfy ===
/** String helpers shared by the codecs and both clients: the `^prefix` test that
    `startsWith` and the anchored content-type regular expressions perform, ASCII
    lower-casing for header names, and `Array#join`. */
module Strings {

  const CRLF: string := "\r\n"

  /** `s.startsWith(p)`; also what a regular expression `^p` (without an end anchor) accepts. */
  function StartsWith(s: string, p: string): (r: bool)
    ensures r <==> |p| <= |s| && s[..|p|] == p
  {
    if p == [] then true
    else if s == [] then false
    else s[0] == p[0] && StartsWith(s[1..], p[1..])
  }

  /** A string starts with each of its prefixes. */
  lemma StartsWithConcat(a: string, b: string)
    ensures StartsWith(a + b, a)
  {
    assert (a + b)[..|a|] == a;
  }

  predicate IsUpper(c: char) {
    'A' <= c <= 'Z'
  }

  function LowerChar(c: char): (r: char)
    ensures !IsUpper(r)
    ensures !IsUpper(c) ==> r == c
    ensures IsUpper(c) ==> r as int == c as int + 32
  {
    if IsUpper(c) then (c as int + 32) as char else c
  }

  /** `String#toLowerCase`, restricted to the ASCII letters header names are made of. */
  function Lower(s: string): (r: string)
    ensures |r| == |s|
  {
    if s == [] then [] else [LowerChar(s[0])] + Lower(s[1..])
  }

  /** Lower-casing maps each character on its own. */
  lemma {:induction false} LowerAt(s: string)
    ensures forall i :: 0 <= i < |s| ==> Lower(s)[i] == LowerChar(s[i])
    decreases |s|
  {
    if s != [] {
      LowerAt(s[1..]);
    }
  }

  /** A string whose characters lower-case one by one to those of `t` lower-cases to `t`. */
  lemma LowerMatches(s: string, t: string)
    requires |s| == |t| && forall i :: 0 <= i < |s| ==> LowerChar(s[i]) == t[i]
    ensures Lower(s) == t
  {
    LowerAt(s);
  }

  /** Lower-casing twice is lower-casing once. */
  lemma LowerIdempotent(s: string)
    ensures Lower(Lower(s)) == Lower(s)
  {
    LowerAt(s);
    LowerAt(Lower(s));
  }

  /** `Array#join(sep)`, which is also how an array is interpolated into a template string
      (with `sep` = ","). */
  function Join(xs: seq<string>, sep: string): (r: string)
    ensures |xs| == 1 ==> r == xs[0]
    ensures |xs| == 0 ==> r == ""
  {
    if |xs| == 0 then ""
    else if |xs| == 1 then xs[0]
    else Join(xs[..|xs| - 1], sep) + sep + xs[|xs| - 1]
  }

  /** Dropping a prefix leaves the rest. */
  lemma DropPrefix<T>(a: seq<T>, b: seq<T>)
    ensures (a + b)[|a|..] == b
  {
  }

  /** Concatenation regroups. */
  lemma AppendAssoc<T>(a: seq<T>, b: seq<T>, c: seq<T>)
    ensures a + (b + c) == a + b + c
  {
  }
}

=== FILE: utf8.dfy ===
/** `Buffer.from(string)` and `Buffer.byteLength(string)`: the UTF-8 encoding of a string,
    and a strict decoder that inverts it. */
module Utf8 {
  import opened Outcomes

  newtype byte = x: int | 0 <= x < 256

  predicate IsContinuation(b: byte) {
    0x80 <= b < 0xC0
  }

  /** The one to four bytes of one scalar value. */
  function EncodeChar(c: char): (r: seq<byte>)
    ensures 1 <= |r| <= 4
    ensures |r| == 1 <==> c as int < 0x80
    ensures |r| == 1 ==> r[0] as int == c as int
  {
    var n := c as int;
    var q1, r0 := n / 64, n % 64;
    var q2, r1 := q1 / 64, q1 % 64;
    var q3, r2 := q2 / 64, q2 % 64;
    if n < 0x80 then [n as byte]
    else if n < 0x800 then [(0xC0 + q1) as byte, (0x80 + r0) as byte]
    else if n < 0x10000 then [(0xE0 + q2) as byte, (0x80 + r1) as byte, (0x80 + r0) as byte]
    else [(0xF0 + q3) as byte, (0x80 + r2) as byte, (0x80 + r1) as byte, (0x80 + r0) as byte]
  }

  /** `Buffer.from(s, 'utf8')`. */
  function Encode(s: string): (r: seq<byte>)
    ensures |r| >= |s|
    ensures |s| == 0 <==> |r| == 0
  {
    if s == [] then [] else EncodeChar(s[0]) + Encode(s[1..])
  }

  predicate IsAscii(s: string) {
    forall i :: 0 <= i < |s| ==> s[i] as int < 0x80
  }

  /** Encoding distributes over concatenation, so pushing several buffers and
      concatenating them is the same as encoding the concatenated text. */
  lemma {:induction false} EncodeAppend(a: string, b: string)
    ensures Encode(a + b) == Encode(a) + Encode(b)
    decreases |a|
  {
    if a != [] {
      assert (a + b)[0] == a[0] && (a + b)[1..] == a[1..] + b;
      EncodeAppend(a[1..], b);
      calc {
        Encode(a + b);
        EncodeChar(a[0]) + Encode(a[1..] + b);
        EncodeChar(a[0]) + (Encode(a[1..]) + Encode(b));
        (EncodeChar(a[0]) + Encode(a[1..])) + Encode(b);
      }
    } else {
      assert a + b == b;
    }
  }

  /** An ASCII string has exactly one byte per character. */
  lemma {:induction false} AsciiByteLength(s: string)
    requires IsAscii(s)
    ensures |Encode(s)| == |s|
    ensures forall i :: 0 <= i < |s| ==> Encode(s)[i] as int == s[i] as int
    decreases |s|
  {
    if s != [] {
      AsciiByteLength(s[1..]);
    }
  }

  predicate IsScalar(n: int) {
    (0 <= n < 0xD800) || (0xE000 <= n < 0x110000)
  }

  /** Decodes the first scalar value of `bs`, rejecting ill-formed and overlong sequences.
      Returns the character and the number of bytes it used. */
  function DecodeChar(bs: seq<byte>): (r: Option<(char, nat)>)
    requires |bs| > 0
    ensures r.Some? ==> 1 <= r.value.1 <= |bs| && r.value.1 <= 4
  {
    var b0 := bs[0] as int;
    if b0 < 0x80 then Some((b0 as char, 1))
    else if 0xC0 <= b0 < 0xE0 && |bs| >= 2 && IsContinuation(bs[1]) then
      var n := (b0 - 0xC0) * 64 + (bs[1] as int - 0x80);
      if 0x80 <= n then Some((n as char, 2)) else None
    else if 0xE0 <= b0 < 0xF0 && |bs| >= 3 && IsContinuation(bs[1]) && IsContinuation(bs[2]) then
      var n := ((b0 - 0xE0) * 64 + (bs[1] as int - 0x80)) * 64 + (bs[2] as int - 0x80);
      if 0x800 <= n && IsScalar(n) then Some((n as char, 3)) else None
    else if 0xF0 <= b0 < 0xF8 && |bs| >= 4 && IsContinuation(bs[1]) && IsContinuation(bs[2])
            && IsContinuation(bs[3]) then
      var n := (((b0 - 0xF0) * 64 + (bs[1] as int - 0x80)) * 64 + (bs[2] as int - 0x80)) * 64
               + (bs[3] as int - 0x80);
      if 0x10000 <= n < 0x110000 then Some((n as char, 4)) else None
    else None
  }

  /** Strict UTF-8 decoding: `None` when `bs` is not well formed. */
  function Decode(bs: seq<byte>): Option<string>
    decreases |bs|
  {
    if bs == [] then Some([])
    else match DecodeChar(bs)
      case None => None
      case Some((c, k)) =>
        match Decode(bs[k..])
        case None => None
        case Some(rest) => Some([c] + rest)
  }

  lemma DecodeEncodeChar(c: char, rest: seq<byte>)
    ensures DecodeChar(EncodeChar(c) + rest) == Some((c, |EncodeChar(c)|))
  {
    var n := c as int;
    var q1, r0 := n / 64, n % 64;
    var q2, r1 := q1 / 64, q1 % 64;
    var q3, r2 := q2 / 64, q2 % 64;
    assert n == q1 * 64 + r0;
    assert q1 == q2 * 64 + r1;
    assert q2 == q3 * 64 + r2;
  }

  /** Decoding undoes encoding. */
  lemma {:induction false} DecodeEncode(s: string)
    ensures Decode(Encode(s)) == Some(s)
    decreases |s|
  {
    if s != [] {
      var e := EncodeChar(s[0]);
      var tail := Encode(s[1..]);
      DecodeEncodeChar(s[0], tail);
      assert Encode(s) == e + tail;
      assert (e + tail)[|e|..] == tail;
      DecodeEncode(s[1..]);
      assert [s[0]] + s[1..] == s;
    }
  }

  /** Different strings have different encodings. */
  lemma EncodeInjective(a: string, b: string)
    ensures Encode(a) == Encode(b) ==> a == b
  {
    DecodeEncode(a);
    DecodeEncode(b);
  }

  /** `Buffer.concat(buffers)`. */
  function Concat(bs: seq<seq<byte>>): seq<byte>
  {
    if bs == [] then [] else Concat(bs[..|bs| - 1]) + bs[|bs| - 1]
  }

  lemma {:induction false} ConcatAppend(xs: seq<seq<byte>>, ys: seq<seq<byte>>)
    ensures Concat(xs + ys) == Concat(xs) + Concat(ys)
    decreases |ys|
  {
    if ys == [] {
      assert xs + ys == xs;
    } else {
      var init, last := ys[..|ys| - 1], ys[|ys| - 1];
      assert (xs + ys)[..|xs + ys| - 1] == xs + init && (xs + ys)[|xs + ys| - 1] == last;
      calc {
        Concat(xs + ys);
        Concat(xs + init) + last;
        { ConcatAppend(xs, init); }
        (Concat(xs) + Concat(init)) + last;
        Concat(xs) + (Concat(init) + last);
      }
    }
  }

  lemma ConcatThree(a: seq<byte>, b: seq<byte>, c: seq<byte>)
    ensures Concat([a, b, c]) == a + b + c
  {
    var bs := [a, b, c];
    assert bs[..2] == [a, b] && [a, b][..1] == [a] && [a][..0] == [];
    assert Concat([a]) == a;
    assert Concat([a, b]) == a + b;
  }
}
